=== FILE: README.md ===
# CalcMoney calculator and currency converter, modelled in Dafny

CalcMoney is an Android app with two screens: a keypad calculator and a currency converter.
This project models their logic as pure Dafny functions and proves properties about them:

- **Calculation engine** (`CalculatorEngine.calculate`). It normalises the keypad text, drops
  one trailing operator, and parses with a recursive-descent parser: sums, products, unary signs,
  parentheses and decimal literals. It then picks one of three display forms: scientific, whole or
  fixed decimal. Modules: `Normalization`, `Parser`, `Printer`, `Numeric`, `Engine`.
- **Calculator editor** (`CalculatorViewModel`). Keypad tokens are edited in at a cursor. The
  editor enforces a 15-character limit per number, allows one point per number, replaces
  operators instead of stacking them, and picks which parenthesis to insert. It also shows a live
  preview and handles calculate, delete and clear. Modules: `Editing`, `CalculatorViewModel`.
- **Selection screen**. This is the `com.ahn` Compose screen that edits a `TextFieldValue` with a
  selection range. Module: `SelectionScreen`.
- **Legacy screen**. This is the `com.example` screen, which edits a plain string and has its own
  `calculate`. Module: `LegacyScreen`.
- **Display formatter** (`CalculatorVisualTransformation`). It groups thousands with commas and
  puts zero-width break hints before operators. It also maps cursor offsets between the typed text
  and the displayed text. Module: `DisplayFormat`.
- **Currency converter** (`ExchangeViewModel`). It covers amount validation, conversion at the
  current rate, and the currency choice and swap rules. A rate request is modelled as an effect
  that a step asks for. Module: `Exchange`.

`Double` arithmetic is modelled by `Numeric.Value`. This is an exact real, extended with the IEEE
values a division by zero produces: signed zeros, the two infinities and NaN. Digit rendering by
`String.format` is a parameter (`Engine.Renderer`, `Exchange.Formatter`). The editors take the
engine as a parameter of type `string -> string`.

## Model

Source paths are relative to the repository root.

| member | source | states |
|---|---|---|
| Normalization.RemoveChar | domain/src/main/java/com/ahn/domain/usecase/CalculatorEngine.kt:11-12 | removing a character leaves none of it, shortens the text by its count and keeps every other character's count |
| Normalization.ReplaceChar | domain/src/main/java/com/ahn/domain/usecase/CalculatorEngine.kt:13-15 | every occurrence of the glyph becomes its ASCII operator and every other character stays in place |
| Normalization.Normalize | domain/src/main/java/com/ahn/domain/usecase/CalculatorEngine.kt:10-15 | normal text holds no line break, space, `×`, `÷` or `−`, and is no longer than the input |
| Normalization.NormalizeIsPerCharacter | domain/src/main/java/com/ahn/domain/usecase/CalculatorEngine.kt:10-15 | the chain of replace passes equals normalising each character on its own and concatenating the results in order |
| Normalization.NormalizeAppend | domain/src/main/java/com/ahn/domain/usecase/CalculatorEngine.kt:10-15 | normalisation distributes over concatenation |
| Normalization.NormalizeKeeps | domain/src/main/java/com/ahn/domain/usecase/CalculatorEngine.kt:10-15 | text of digits, points, ASCII operators and parentheses is already normal |
| Normalization.BlankNormalizesToEmpty | domain/src/main/java/com/ahn/domain/usecase/CalculatorEngine.kt:10-17 | text of spaces and line breaks normalises to nothing |
| Normalization.KeypadOperator | domain/src/main/java/com/ahn/domain/usecase/CalculatorEngine.kt:13-15 | `a op b` with digit operands normalises to `a`, the ASCII form of `op`, then `b` |
| Parser.SkipSpaces | domain/src/main/java/com/ahn/domain/usecase/CalculatorEngine.kt:52-53 | `eat` skips spaces and stops at the first non-space or the end, having passed only spaces |
| Parser.Eat | domain/src/main/java/com/ahn/domain/usecase/CalculatorEngine.kt:52-58 | after the spaces, `eat(c)` consumes `c` and reports it when `c` is next; otherwise it reports failure and stops at the end or at a character other than `c` |
| Parser.ScanNumber | domain/src/main/java/com/ahn/domain/usecase/CalculatorEngine.kt:95-96 | the number scan stops at the first character that is not a digit or a point |
| Parser.ScanNumberScans | domain/src/main/java/com/ahn/domain/usecase/CalculatorEngine.kt:95-96 | every scanned character is a digit or a point |
| Parser.ParseExpression | domain/src/main/java/com/ahn/domain/usecase/CalculatorEngine.kt:68-75 | a successful sum consumes at least one character and stays inside the text |
| Parser.ParseTerm | domain/src/main/java/com/ahn/domain/usecase/CalculatorEngine.kt:77-84 | a successful product consumes at least one character and stays inside the text |
| Parser.ParseFactor | domain/src/main/java/com/ahn/domain/usecase/CalculatorEngine.kt:86-103 | a successful factor consumes at least one character and stays inside the text |
| Parser.FactorRejects | domain/src/main/java/com/ahn/domain/usecase/CalculatorEngine.kt:98-100 | a factor cannot start at the end or at a character that is not a sign, `(`, a digit or a point |
| Parser.Parse | domain/src/main/java/com/ahn/domain/usecase/CalculatorEngine.kt:61-66 | parsing succeeds exactly when a sum is read and nothing is left over |
| Parser.ParseWellFormed | domain/src/main/java/com/ahn/domain/usecase/CalculatorEngine.kt:95-97 | every literal in a parsed tree is a valid decimal literal |
| Printer.ParsePrintRoundTrip | domain/src/main/java/com/ahn/domain/usecase/CalculatorEngine.kt:61-103 | printing a well-formed tree with minimal parentheses and parsing it gives the same tree: the grammar's precedence and left associativity |
| Numeric.Finite | domain/src/main/java/com/ahn/domain/usecase/CalculatorEngine.kt:97 | a finite double denotes its real, and a zero keeps the requested sign |
| Numeric.Neg | domain/src/main/java/com/ahn/domain/usecase/CalculatorEngine.kt:88 | unary minus negates finite values and infinities and leaves NaN as NaN |
| Numeric.NegInvolutive | domain/src/main/java/com/ahn/domain/usecase/CalculatorEngine.kt:88 | negating twice gives the value back |
| Numeric.Add | domain/src/main/java/com/ahn/domain/usecase/CalculatorEngine.kt:71 | finite sums are exact; NaN propagates; opposite infinities give NaN; otherwise an infinity wins |
| Numeric.Sub | domain/src/main/java/com/ahn/domain/usecase/CalculatorEngine.kt:72 | finite differences are exact |
| Numeric.Mul | domain/src/main/java/com/ahn/domain/usecase/CalculatorEngine.kt:80 | finite products are exact; infinity times zero is NaN; the sign is the XOR of the signs |
| Numeric.Div | domain/src/main/java/com/ahn/domain/usecase/CalculatorEngine.kt:81 | finite quotients are exact; non-zero over zero is infinite; zero over zero is NaN; the sign is the XOR of the signs |
| Numeric.ChooseForm | domain/src/main/java/com/ahn/domain/usecase/CalculatorEngine.kt:29-37 | scientific when the magnitude is non-zero and at least 10^15 or below 10^-10 (and for infinities); otherwise whole exactly when the value is an integer; NaN takes the decimal branch |
| Engine.TrailingZeroAfterPoint | domain/src/main/java/com/ahn/domain/usecase/CalculatorEngine.kt:97 | a trailing zero after the point does not change a literal's value |
| Engine.WholeLiteral | domain/src/main/java/com/ahn/domain/usecase/CalculatorEngine.kt:97 | a literal without a point is the integer its digits spell |
| Engine.LiteralValue | domain/src/main/java/com/ahn/domain/usecase/CalculatorEngine.kt:95-97 | a literal never denotes a negative number: a sign is a factor of its own |
| Engine.EvalAgreesWithExact | domain/src/main/java/com/ahn/domain/usecase/CalculatorEngine.kt:68-103 | when no divisor is zero, the double fold `eval` computes is finite and equals exact arithmetic on the tree |
| Engine.DivisionByZeroIsInfinite | domain/src/main/java/com/ahn/domain/usecase/CalculatorEngine.kt:81 | a non-zero value over an exact zero is an infinity, not an error |
| Engine.ZeroOverZeroIsNaN | domain/src/main/java/com/ahn/domain/usecase/CalculatorEngine.kt:81 | zero over zero is NaN, not an error |
| Engine.DropTrailingOperator | domain/src/main/java/com/ahn/domain/usecase/CalculatorEngine.kt:20-24 | the result is a prefix at most one shorter, and it is shorter exactly when the last character is one of `+ - * /` |
| Engine.Evaluate | domain/src/main/java/com/ahn/domain/usecase/CalculatorEngine.kt:8-41 | blank exactly when normalisation leaves nothing; computed exactly when the normalised text, less a trailing operator, parses; the form is the one `ChooseForm` picks |
| Engine.TrimEnd | domain/src/main/java/com/ahn/domain/usecase/CalculatorEngine.kt:36 | `trimEnd(c)` keeps a prefix that does not end in `c`, and everything it cut was `c` |
| Engine.TrimDecimalKeepsInteger | domain/src/main/java/com/ahn/domain/usecase/CalculatorEngine.kt:36 | trimming a fixed-decimal text removes only trailing fraction zeros and a bare point, never integer digits |
| Engine.PointDropped | domain/src/main/java/com/ahn/domain/usecase/CalculatorEngine.kt:36 | a point left bare is dropped and the digit before it stops the trim |
| Engine.TrimDecimal | domain/src/main/java/com/ahn/domain/usecase/CalculatorEngine.kt:36 | `trimEnd('0').trimEnd('.')` keeps a prefix that does not end in a point, and everything it cut was a zero or a point |
| Engine.Display | domain/src/main/java/com/ahn/domain/usecase/CalculatorEngine.kt:29-37 | the scientific text is the rendering with every comma turned into a point; the whole text is the `%.0f` rendering untouched; the decimal text is a prefix of the `%.10f` rendering that does not end in a point |
| Engine.Calculate | domain/src/main/java/com/ahn/domain/usecase/CalculatorEngine.kt:8-41 | blank input gives `0`, a failed parse gives `Error`, a computed value gives its rendering in its form |
| Engine.ExprPrintsKept | domain/src/main/java/com/ahn/domain/usecase/CalculatorEngine.kt:10-15 | a printed tree holds only characters normalisation leaves alone |
| Engine.ExprPrintEnds | domain/src/main/java/com/ahn/domain/usecase/CalculatorEngine.kt:20-24 | a printed tree ends in a digit, a point or `)`, so the trailing-operator drop never touches it |
| Engine.EvaluatePrinted | domain/src/main/java/com/ahn/domain/usecase/CalculatorEngine.kt:8-41 | text that normalises to a printed tree computes to that tree's value |
| Engine.EvaluatePrintExpr | domain/src/main/java/com/ahn/domain/usecase/CalculatorEngine.kt:8-41 | a printed tree computes to its own value |
| Engine.TrailingOperatorIgnored | domain/src/main/java/com/ahn/domain/usecase/CalculatorEngine.kt:19-24 | any one operator key pressed after a complete expression does not change the result |
| Engine.WrappedParses | domain/src/main/java/com/ahn/domain/usecase/CalculatorEngine.kt:92-94 | a printed expression in one more pair of parentheses parses as the expression itself |
| Engine.ParenthesesKeepValue | domain/src/main/java/com/ahn/domain/usecase/CalculatorEngine.kt:92-94 | wrapping a printed expression in one more pair of parentheses does not change the result |
| Engine.BlankIsZero | domain/src/main/java/com/ahn/domain/usecase/CalculatorEngine.kt:17 | input of spaces and line breaks only is `0` whatever the renderer |
| EngineExamples.Computes | domain/src/main/java/com/ahn/domain/usecase/CalculatorEngine.kt:26-37 | a printed tree with a non-zero exact value computes to that value |
| EngineExamples.KeypadComputes | domain/src/main/java/com/ahn/domain/usecase/CalculatorEngine.kt:10-37 | so does keypad text that normalises to such a tree |
| EngineExamples.AddsLeftToRight | domain/bin/test/com/ahn/domain/usecase/CalculatorEngineTest.kt:11 | `1+2` is the whole number 3 |
| EngineExamples.Subtracts | domain/bin/test/com/ahn/domain/usecase/CalculatorEngineTest.kt:15 | `10-3` is the whole number 7 |
| EngineExamples.MultipliesKeypadGlyph | domain/bin/test/com/ahn/domain/usecase/CalculatorEngineTest.kt:19 | `4×5` is the whole number 20 |
| EngineExamples.DividesToWhole | domain/bin/test/com/ahn/domain/usecase/CalculatorEngineTest.kt:22-23 | `10÷2` is the whole number 5 |
| EngineExamples.DividesKeypadGlyph | domain/bin/test/com/ahn/domain/usecase/CalculatorEngineTest.kt:33 | `10÷3` is 10/3 in the decimal form |
| EngineExamples.OneDecimal | domain/src/main/java/com/ahn/domain/usecase/CalculatorEngine.kt:97 | a literal `d.f` is `d + f/10` |
| EngineExamples.AddsDecimals | domain/bin/test/com/ahn/domain/usecase/CalculatorEngineTest.kt:29 | `1.5+2.5` is the whole number 4 |
| EngineExamples.GroupsBeforeProduct | domain/bin/test/com/ahn/domain/usecase/CalculatorEngineTest.kt:39 | `(1+2)*3` is 9 |
| EngineExamples.RedundantGroupParses | domain/src/main/java/com/ahn/domain/usecase/CalculatorEngine.kt:68-94 | a printed factor in a redundant pair of parentheses, times a printed factor, parses as their product |
| EngineExamples.RedundantGroupTimes | domain/src/main/java/com/ahn/domain/usecase/CalculatorEngine.kt:8-41 | on the keypad, such text computes to the product in the form `ChooseForm` picks |
| EngineExamples.RedundantGroupBeforeProduct | domain/bin/test/com/ahn/domain/usecase/CalculatorEngineTest.kt:43 | `((2+3))×2` is the whole number 10 |
| EngineExamples.MantissaNines | domain/src/main/java/com/ahn/domain/usecase/CalculatorEngine.kt:97 | a run of k nines is read as 10^k - 1 |
| EngineExamples.KeypadProduct | domain/src/main/java/com/ahn/domain/usecase/CalculatorEngine.kt:8-41 | two digit literals around the keypad `×` compute to their exact product, in the form `ChooseForm` picks |
| EngineExamples.LargeProductIsScientific | domain/bin/test/com/ahn/domain/usecase/CalculatorEngineTest.kt:61 | `999999999999999×10` is 9 999 999 999 999 990 in the scientific form |
| EngineExamples.ProductBeforeSum | domain/src/main/java/com/ahn/domain/usecase/CalculatorEngine.kt:68-84 | `1+2*3` is 7 |
| EngineExamples.SubtractsLeftToRight | domain/src/main/java/com/ahn/domain/usecase/CalculatorEngine.kt:68-75 | `8-3-2` is 3 |
| EngineExamples.DoubleNegation | domain/src/main/java/com/ahn/domain/usecase/CalculatorEngine.kt:88 | `--5` is 5 |
| EngineExamples.DivisionByZero | domain/src/main/java/com/ahn/domain/usecase/CalculatorEngine.kt:29-32 | `1/0` is positive infinity in the scientific branch |
| EngineExamples.ZeroOverZero | domain/src/main/java/com/ahn/domain/usecase/CalculatorEngine.kt:33-37 | `0/0` is NaN in the decimal branch |
| EngineExamples.EmptyIsZero | domain/bin/test/com/ahn/domain/usecase/CalculatorEngineTest.kt:49 | empty input is `0` |
| EngineExamples.TrailingPlusDropped | domain/bin/test/com/ahn/domain/usecase/CalculatorEngineTest.kt:53 | `10+` computes as `10` |
| EngineExamples.ComputesTen | domain/bin/test/com/ahn/domain/usecase/CalculatorEngineTest.kt:53 | `10` is the whole number 10 |
| EngineExamples.LoneOperatorIsError | domain/src/main/java/com/ahn/domain/usecase/CalculatorEngine.kt:20-26 | `+` alone is `Error`: the drop leaves nothing to parse |
| EngineExamples.DoubleOperatorIsError | domain/bin/test/com/ahn/domain/usecase/CalculatorEngineTest.kt:57 | `++` is `Error`: only one operator is dropped |
| EngineExamples.LeftoverIsError | domain/src/main/java/com/ahn/domain/usecase/CalculatorEngine.kt:64 | text left over after a complete expression is an error |
| EngineExamples.EmptyGroupIsError | domain/src/main/java/com/ahn/domain/usecase/CalculatorEngine.kt:92-99 | `()` is an error |
| EngineExamples.MalformedRunFails | domain/src/main/java/com/ahn/domain/usecase/CalculatorEngine.kt:95-97 | a run of digits and points that is not a valid literal does not parse |
| EngineExamples.TwoPointsIsError | domain/src/main/java/com/ahn/domain/usecase/CalculatorEngine.kt:97 | `1.2.3` is an error |
| EngineExamples.PointAloneIsError | domain/src/main/java/com/ahn/domain/usecase/CalculatorEngine.kt:97 | `.` is an error |
| Chars.Count | presentation/src/main/java/com/ahn/presentation/ui/screen/calculator/CalculatorViewModel.kt:110-111 | a count is at most the length, and zero exactly when the character is absent |
| Chars.NoOperatorsCounted | presentation/src/main/java/com/ahn/presentation/ui/screen/calculator/CalculatorViewModel.kt:212-214 | no operator is counted exactly when no character is an operator glyph |
| Editing.Splice | presentation/src/main/java/com/ahn/presentation/ui/screen/calculator/CalculatorViewModel.kt:180-187 | inserting grows the text by the inserted length |
| Editing.RemoveSplice | presentation/src/main/java/com/ahn/presentation/ui/screen/calculator/CalculatorViewModel.kt:137-139 | deleting what was just inserted gives the text back |
| Editing.SpliceRemove | presentation/src/main/java/com/ahn/presentation/ui/screen/calculator/CalculatorViewModel.kt:137-139 | inserting back what was removed gives the text back |
| Editing.RemoveRange | presentation/src/main/java/com/ahn/presentation/screen/calculator/CalculatorScreen.kt:330-334 | `removeRange(i, j)` keeps the text before `i`, follows it with the text from `j`, and shortens the text by `j - i` |
| Editing.BlockStart | presentation/src/main/java/com/ahn/presentation/ui/screen/calculator/CalculatorViewModel.kt:234-236 | the block starts after the last separator before the cursor, or at 0 |
| Editing.BlockEnd | presentation/src/main/java/com/ahn/presentation/ui/screen/calculator/CalculatorViewModel.kt:239-241 | the block ends at the first separator after the cursor, or at the end |
| Editing.NumberBlock | presentation/src/main/java/com/ahn/presentation/ui/screen/calculator/CalculatorViewModel.kt:230-244 | the block is the separator-free span of the text from its start, it covers the cursor, and it is bounded by separators or the ends |
| Editing.BlockIsMaximalSpan | presentation/src/main/java/com/ahn/presentation/ui/screen/calculator/CalculatorViewModel.kt:230-244 | the number block is the unique separator-free span around the cursor bounded by separators or the ends |
| Editing.SpliceBlockLength | presentation/src/main/java/com/ahn/presentation/ui/screen/calculator/CalculatorViewModel.kt:225-244 | inserting separator-free text grows the block around the cursor by exactly its length |
| Editing.SpliceBlockCount | presentation/src/main/java/com/ahn/presentation/ui/screen/calculator/CalculatorViewModel.kt:96-106 | the block gains exactly the inserted text's occurrences of a character |
| Editing.ParenthesisToInsert | presentation/src/main/java/com/ahn/presentation/ui/screen/calculator/CalculatorViewModel.kt:109-128 | `)` exactly when more `(` than `)` and a digit or `)` precedes; `×(` exactly when no `(` is left open and a digit or `)` precedes; `(` exactly otherwise |
| Editing.ParenthesisKeepsCover | presentation/src/main/java/com/ahn/presentation/ui/screen/calculator/CalculatorViewModel.kt:109-128 | the chosen parenthesis never makes `)` outnumber `(` |
| Editing.SpliceCount | presentation/src/main/java/com/ahn/presentation/ui/screen/calculator/CalculatorViewModel.kt:180-187 | inserting adds the inserted text's occurrences to every count |
| Editing.Preview | presentation/src/main/java/com/ahn/presentation/ui/screen/calculator/CalculatorViewModel.kt:208-223 | the preview is never `Error`; when it is non-empty the gate held and it is the engine's answer; when the gate holds and the engine succeeds it is shown |
| Editing.NoOperatorNoPreview | presentation/src/main/java/com/ahn/presentation/screen/calculator/CalculatorScreen.kt:187-203 | without an operator no preview is shown, whatever the engine answers |
| Editing.TrailingOperatorNoPreview | presentation/src/main/java/com/ahn/presentation/ui/screen/calculator/CalculatorViewModel.kt:216-219 | text ending in an operator shows no preview |
| CalculatorViewModel.Insert | presentation/src/main/java/com/ahn/presentation/ui/screen/calculator/CalculatorViewModel.kt:180-187 | the cursor moves past the inserted text, the text sits at the old cursor, and removing it gives the old text |
| CalculatorViewModel.NumberEdit | presentation/src/main/java/com/ahn/presentation/ui/screen/calculator/CalculatorViewModel.kt:54-66 | too long exactly when the block is at the limit; a digit over a lone `0` replaces it; otherwise the digits are inserted at the cursor |
| CalculatorViewModel.OperatorEdit | presentation/src/main/java/com/ahn/presentation/ui/screen/calculator/CalculatorViewModel.kt:68-88 | ignored exactly at the start or after `(`; an operator before the cursor is replaced in place; otherwise the operator is inserted |
| CalculatorViewModel.DotEdit | presentation/src/main/java/com/ahn/presentation/ui/screen/calculator/CalculatorViewModel.kt:90-107 | ignored exactly when the block already holds a point; empty text becomes `0.`; otherwise `0.` after an operator or `(` and `.` elsewhere |
| CalculatorViewModel.ParenthesisEdit | presentation/src/main/java/com/ahn/presentation/ui/screen/calculator/CalculatorViewModel.kt:109-128 | the chosen parenthesis text is inserted at the cursor and nothing else changes |
| CalculatorViewModel.DeleteEdit | presentation/src/main/java/com/ahn/presentation/ui/screen/calculator/CalculatorViewModel.kt:130-143 | nothing at the start; otherwise the character before the cursor goes and putting it back gives the old text |
| CalculatorViewModel.Apply | presentation/src/main/java/com/ahn/presentation/ui/screen/calculator/CalculatorViewModel.kt:189-206 | the cursor stays inside the text; a toast is sent exactly for a refused digit; a written edit clears the error and recomputes the preview |
| CalculatorViewModel.HandleCalculate | presentation/src/main/java/com/ahn/presentation/ui/screen/calculator/CalculatorViewModel.kt:151-178 | empty text is left alone; `Error` keeps the text, sets the error message and sends a toast; any other answer replaces the text with the cursor at its end |
| CalculatorViewModel.TokenEdit | presentation/src/main/java/com/ahn/presentation/ui/screen/calculator/CalculatorViewModel.kt:41-52 | every token's edit keeps the cursor inside the text |
| CalculatorViewModel.ProcessIntent | presentation/src/main/java/com/ahn/presentation/ui/screen/calculator/CalculatorViewModel.kt:32-39 | every intent keeps the cursor valid; clear gives the initial state |
| CalculatorViewModel.UpdateCursorPosition | presentation/src/main/java/com/ahn/presentation/ui/screen/calculator/CalculatorViewModel.kt:252-256 | the requested position is clamped into the expression and nothing else changes |
| CalculatorViewModel.Run | presentation/src/main/java/com/ahn/presentation/ui/screen/calculator/CalculatorViewModel.kt:32-39 | any sequence of intents keeps the cursor inside the text |
| CalculatorViewModel.DeleteUndoesInsert | presentation/src/main/java/com/ahn/presentation/ui/screen/calculator/CalculatorViewModel.kt:130-143 | delete right after inserting a character restores text and cursor |
| CalculatorViewModel.DigitRespectsLimit | presentation/src/main/java/com/ahn/presentation/ui/screen/calculator/CalculatorViewModel.kt:225-228 | an accepted digit leaves a number block of at most 15 characters |
| CalculatorViewModel.DotLeavesOnePoint | presentation/src/main/java/com/ahn/presentation/ui/screen/calculator/CalculatorViewModel.kt:90-107 | after a written point, the block around the cursor holds exactly one point |
| CalculatorViewModel.ParenthesisKeepsBalance | presentation/src/main/java/com/ahn/presentation/ui/screen/calculator/CalculatorViewModel.kt:109-128 | the parenthesis key never closes more parentheses than are open |
| CalculatorViewModel.OperatorNeverFollowsOperator | presentation/src/main/java/com/ahn/presentation/ui/screen/calculator/CalculatorViewModel.kt:68-88 | an operator key never leaves two operators side by side at the cursor |
| CalculatorViewModelExamples.TypingFive | presentation/src/test/java/com/ahn/presentation/ui/screen/calculator/CalculatorViewModelTest.kt:19-31 | `5` on the empty editor gives `5` with the cursor at 1 |
| CalculatorViewModelExamples.TypingZero | presentation/src/test/java/com/ahn/presentation/ui/screen/calculator/CalculatorViewModelTest.kt:33-42 | `0` on the empty editor gives `0` |
| CalculatorViewModelExamples.LeadingOperatorIgnored | presentation/src/test/java/com/ahn/presentation/ui/screen/calculator/CalculatorViewModelTest.kt:44-53 | an operator on the empty editor is ignored |
| CalculatorViewModelExamples.DigitReplacesZero | presentation/src/main/java/com/ahn/presentation/ui/screen/calculator/CalculatorViewModel.kt:60-63 | a digit typed over a lone `0` replaces it |
| CalculatorViewModelExamples.ClearEmpties | presentation/src/test/java/com/ahn/presentation/ui/screen/calculator/CalculatorViewModelTest.kt:58-74 | clear after `123` gives the empty editor |
| CalculatorViewModelExamples.DeleteDropsLast | presentation/src/test/java/com/ahn/presentation/ui/screen/calculator/CalculatorViewModelTest.kt:76-88 | delete after `123` gives `12` |
| CalculatorViewModelExamples.CalculateShowsResult | presentation/src/test/java/com/ahn/presentation/ui/screen/calculator/CalculatorViewModelTest.kt:93-109 | `=` on `10+20` shows the engine's `30` with the cursor at its end |
| CalculatorViewModelExamples.CalculateErrorKeepsText | presentation/src/main/java/com/ahn/presentation/ui/screen/calculator/CalculatorViewModel.kt:158-167 | an engine error keeps the text, flags the error and sends a toast |
| SelectionScreen.Min | presentation/src/main/java/com/ahn/presentation/screen/calculator/CalculatorScreen.kt:249 | `selection.min` is the smaller end of the selection |
| SelectionScreen.Max | presentation/src/main/java/com/ahn/presentation/screen/calculator/CalculatorScreen.kt:303 | `selection.max` is the larger end |
| SelectionScreen.Replace | presentation/src/main/java/com/ahn/presentation/screen/calculator/CalculatorScreen.kt:289-291 | replacing a range: removing the new text leaves what removing the range left |
| SelectionScreen.InsertAsWritten | presentation/src/main/java/com/ahn/presentation/screen/calculator/CalculatorScreen.kt:243-311 | a toast exactly when a numeric text is typed and the block at `selection.min` of the whole text is at the limit; a toast leaves the field unchanged |
| SelectionScreen.Insert | presentation/src/main/java/com/ahn/presentation/screen/calculator/CalculatorScreen.kt:243-311 | the same with the limit measured after the selection is removed; with a caret it is exactly the original |
| SelectionScreen.Edit | presentation/src/main/java/com/ahn/presentation/screen/calculator/CalculatorScreen.kt:255-310 | every edit keeps the selection inside the text and, when it changes the field, leaves a caret |
| SelectionScreen.Delete | presentation/src/main/java/com/ahn/presentation/screen/calculator/CalculatorScreen.kt:313-344 | nothing at a caret at 0 or on empty text; a selection is removed; otherwise the character before the caret goes |
| SelectionScreen.Equals | presentation/src/main/java/com/ahn/presentation/screen/calculator/CalculatorScreen.kt:588-591 | `=` shows the engine's answer with a caret at its end |
| SelectionScreen.DeleteUndoesInsert | presentation/src/main/java/com/ahn/presentation/screen/calculator/CalculatorScreen.kt:302-336 | delete right after typing a character at a caret restores the field |
| SelectionScreen.CaretDigitRespectsLimit | presentation/src/main/java/com/ahn/presentation/screen/calculator/CalculatorScreen.kt:220-253 | with a caret, an accepted digit leaves a block of at most 15 characters |
| SelectionScreen.DigitWrites | presentation/src/main/java/com/ahn/presentation/screen/calculator/CalculatorScreen.kt:255-310 | an accepted digit replaces empty text or a lone `0`, and otherwise replaces the selection |
| SelectionScreen.OperatorWrites | presentation/src/main/java/com/ahn/presentation/screen/calculator/CalculatorScreen.kt:255-310 | an operator is ignored on empty text or with `selection.min` at 0; an operator just before `selection.min` is replaced and the caret stays there; otherwise the operator replaces the selection and the caret follows it; no toast is shown |
| SelectionScreen.PointWrites | presentation/src/main/java/com/ahn/presentation/screen/calculator/CalculatorScreen.kt:255-310 | on empty text the point gives `0.` with the caret at 2; otherwise it replaces the selection and the caret follows it |
| SelectionScreen.PointOnEmpty | presentation/src/main/java/com/ahn/presentation/screen/calculator/CalculatorScreen.kt:255-260 | the point key on empty text writes `0.` with the caret at 2 and no toast |
| SelectionScreen.SelectionDigitRespectsLimit | presentation/src/main/java/com/ahn/presentation/screen/calculator/CalculatorScreen.kt:220-253 | with the corrected check, a digit typed over any selection leaves a block of at most 15 characters |
| SelectionScreen.SelectionBypassesLimit | presentation/src/main/java/com/ahn/presentation/screen/calculator/CalculatorScreen.kt:248-253 | as written, a digit typed over a selected operator between two long numbers joins them past the limit with no toast |
| SelectionScreen.SelectionLimitEnforced | presentation/src/main/java/com/ahn/presentation/screen/calculator/CalculatorScreen.kt:248-253 | the corrected check refuses that keystroke with the toast |
| SelectionScreen.ParenthesisKeepsBalance | presentation/src/main/java/com/ahn/presentation/screen/calculator/CalculatorScreen.kt:603-628 | with a caret, the `( )` key never closes more parentheses than are open |
| SelectionScreen.Parenthesis | presentation/src/main/java/com/ahn/presentation/screen/calculator/CalculatorScreen.kt:465-468 | the `( )` key inserts the parenthesis its rule picks at `selection.min`, never sends a toast and keeps the selection inside the text |
| LegacyScreen.AddNumber | presentation/src/main/java/com/example/presentation/screen/calculator/CalculatorScreen.kt:266-268 | a lone `0` is replaced by the digit; any other input gets the digit appended |
| LegacyScreen.AddOperatorAsWritten | presentation/src/main/java/com/example/presentation/screen/calculator/CalculatorScreen.kt:270-281 | empty or `Error` input resets to `0`; otherwise the result ends in the operator, and a last character in `[+\-×÷]` is replaced |
| LegacyScreen.AddOperator | presentation/src/main/java/com/example/presentation/screen/calculator/CalculatorScreen.kt:270-281 | the same with every operator key's character replaced: the length stays the same exactly when the last character was an operator |
| LegacyScreen.AddParentheses | presentation/src/main/java/com/example/presentation/screen/calculator/CalculatorScreen.kt:283-302 | the parenthesis choice of the editor, made at the end of the input |
| LegacyScreen.LastNumber | presentation/src/main/java/com/example/presentation/screen/calculator/CalculatorScreen.kt:237 | `split(...).last()` is the longest separator-free suffix |
| LegacyScreen.DotAsWritten | presentation/src/main/java/com/example/presentation/screen/calculator/CalculatorScreen.kt:235-241 | `.` is appended exactly when the text after the last `[+\-×÷]` has no point |
| LegacyScreen.Dot | presentation/src/main/java/com/example/presentation/screen/calculator/CalculatorScreen.kt:235-241 | the same with the split made at every operator key's character |
| LegacyScreen.Delete | presentation/src/main/java/com/example/presentation/screen/calculator/CalculatorScreen.kt:253 | the last character is dropped, or the input becomes `0` when at most one is left |
| LegacyScreen.LegacyNormalize | presentation/src/main/java/com/example/presentation/screen/calculator/CalculatorScreen.kt:308-311 | no space, `×`, `÷` or `−` survives |
| LegacyScreen.DropNonDigit | presentation/src/main/java/com/example/presentation/screen/calculator/CalculatorScreen.kt:316 | any last character that is not a digit is dropped, and a digit is kept |
| LegacyScreen.LegacyEvaluate | presentation/src/main/java/com/example/presentation/screen/calculator/CalculatorScreen.kt:305-327 | blank exactly when normalisation leaves nothing; computed exactly when the text parses; whole exactly when `result % 1.0 == 0.0` |
| LegacyScreen.WholeValue | presentation/src/main/java/com/example/presentation/screen/calculator/CalculatorScreen.kt:319-320 | a whole value denotes an integer |
| LegacyScreen.ToInt | presentation/src/main/java/com/example/presentation/screen/calculator/CalculatorScreen.kt:320 | `toInt()` saturates into the 32-bit range and is the identity inside it |
| LegacyScreen.MantissaIsNumeralValue | domain/src/main/java/com/ahn/domain/usecase/CalculatorEngine.kt:97 | a digit run read as a literal is the integer its digits spell |
| LegacyScreen.NatTextReadsBack | presentation/src/main/java/com/example/presentation/screen/calculator/CalculatorScreen.kt:320 | reading the digits of a written number back gives the number |
| LegacyScreen.LegacyCalculateAsWritten | presentation/src/main/java/com/example/presentation/screen/calculator/CalculatorScreen.kt:305-327 | blank gives `0`, failure gives `Error`, a whole value gives its saturated integer text |
| LegacyScreen.LegacyCalculate | presentation/src/main/java/com/example/presentation/screen/calculator/CalculatorScreen.kt:305-327 | the same with a whole value printed exactly, and it agrees with the as-written version inside the 32-bit range |
| LegacyScreen.Preview | presentation/src/main/java/com/example/presentation/screen/calculator/CalculatorScreen.kt:46-52 | the preview is the as-written `calculate`'s answer unless that is `Error`, so it is never `Error`; it is empty for empty input and for a failed parse, and `0` for blank input |
| LegacyScreen.CorrectedPreview | presentation/src/main/java/com/example/presentation/screen/calculator/CalculatorScreen.kt:46-52 | the same preview over the corrected `calculate`: a whole result is its exact integer text |
| LegacyScreen.IntText | presentation/src/main/java/com/example/presentation/screen/calculator/CalculatorScreen.kt:320 | the exact integer text starts with `-` exactly for a negative number and is otherwise a canonical numeral |
| LegacyScreen.AppendKeepsApart | presentation/src/main/java/com/example/presentation/screen/calculator/CalculatorScreen.kt:266-302 | joining two texts that keep operators apart keeps them apart unless two operators meet at the seam; the digit, point and parenthesis keys append in this way |
| LegacyScreen.DigitKeepsApart | presentation/src/main/java/com/example/presentation/screen/calculator/CalculatorScreen.kt:266-268 | a digit key keeps operators apart |
| LegacyScreen.PointKeepsApart | presentation/src/main/java/com/example/presentation/screen/calculator/CalculatorScreen.kt:235-241 | appending a point keeps operators apart |
| LegacyScreen.DeleteKeepsApart | presentation/src/main/java/com/example/presentation/screen/calculator/CalculatorScreen.kt:253 | `⌫` keeps operators apart |
| LegacyScreen.OperatorAsWrittenKeepsApart | presentation/src/main/java/com/example/presentation/screen/calculator/CalculatorScreen.kt:270-281 | as written, the operator key never leaves two characters of `[+\-×÷]` side by side |
| LegacyScreen.OperatorKeepsApart | presentation/src/main/java/com/example/presentation/screen/calculator/CalculatorScreen.kt:270-281 | the corrected operator key never leaves two operator-key characters side by side, the keypad minus included |
| LegacyScreen.ParenthesesKeepApart | presentation/src/main/java/com/example/presentation/screen/calculator/CalculatorScreen.kt:283-302 | the parenthesis key never puts its `×` after an operator |
| LegacyScreen.Press | presentation/src/main/java/com/example/presentation/screen/calculator/CalculatorScreen.kt:122-259 | as written, every key but `=` keeps characters of `[+\-×÷]` apart, and `=` is the as-written `calculate` |
| LegacyScreen.CorrectedPress | presentation/src/main/java/com/example/presentation/screen/calculator/CalculatorScreen.kt:122-259 | with the corrected operator and point keys, every key but `=` keeps all operator-key characters apart, the keypad minus included; `=` is the corrected `calculate` |
| LegacyScreen.PressAfterMinus | presentation/src/main/java/com/example/presentation/screen/calculator/CalculatorScreen.kt:195-281 | as written, `5−` then `+` gives `5−+`, two operators side by side; the corrected keypad gives `5+` |
| LegacyScreen.OperatorAfterMinusAppends | presentation/src/main/java/com/example/presentation/screen/calculator/CalculatorScreen.kt:276 | as written, an operator after the keypad minus `−` is appended, not substituted; the corrected key substitutes it |
| LegacyScreen.DotLeavesOnePoint | presentation/src/main/java/com/example/presentation/screen/calculator/CalculatorScreen.kt:235-241 | after the corrected point key the last number holds a point, and a new point only once |
| LegacyScreen.PointRefusedAfterMinus | presentation/src/main/java/com/example/presentation/screen/calculator/CalculatorScreen.kt:237 | as written, `1.5−2` refuses a point for `2`; the corrected key accepts it |
| LegacyScreen.ParenthesesKeepBalance | presentation/src/main/java/com/example/presentation/screen/calculator/CalculatorScreen.kt:283-302 | the parenthesis key never closes more parentheses than are open |
| LegacyScreen.DeleteUndoesDigit | presentation/src/main/java/com/example/presentation/screen/calculator/CalculatorScreen.kt:253-268 | delete right after a digit was appended gives the input back |
| LegacyScreen.LegacyNormalizeAgrees | presentation/src/main/java/com/example/presentation/screen/calculator/CalculatorScreen.kt:308-311 | without line breaks the legacy normalisation is the engine's |
| LegacyScreen.LegacyAgreesWithEngine | presentation/src/main/java/com/example/presentation/screen/calculator/CalculatorScreen.kt:305-318 | on text ending in a digit the legacy pipeline fails exactly when the engine fails, and computes the same value |
| LegacyScreen.WholeTextReadsBack | presentation/src/main/java/com/example/presentation/screen/calculator/CalculatorScreen.kt:320 | the exact integer text reads back as its value, sign included |
| LegacyScreen.LegacyComputes | presentation/src/main/java/com/example/presentation/screen/calculator/CalculatorScreen.kt:305-323 | whatever the engine computes for such text, the legacy pipeline computes too, in the whole or decimal form |
| LegacyScreen.LargeProduct | presentation/src/main/java/com/example/presentation/screen/calculator/CalculatorScreen.kt:305-320 | `50000×50000` is the whole value 2 500 000 000 |
| LegacyScreen.LargeProductSaturates | presentation/src/main/java/com/example/presentation/screen/calculator/CalculatorScreen.kt:319-320 | as written, `50000×50000` shows `2147483647`; the corrected version shows `2500000000` |
| LegacyScreen.LargeProductPreview | presentation/src/main/java/com/example/presentation/screen/calculator/CalculatorScreen.kt:46-52 | as written, the preview of `50000×50000` is `2147483647`; the corrected preview is `2500000000` |
| Digits.NatText | presentation/src/main/java/com/ahn/presentation/util/CalculatorVisualTransformation.kt:100-107 | the decimal numeral of a number is canonical: non-empty digits with no leading zero |
| Digits.ValueOfText | presentation/src/main/java/com/ahn/presentation/util/CalculatorVisualTransformation.kt:100-107 | reading a written number gives the number |
| Digits.TextOfValue | presentation/src/main/java/com/ahn/presentation/util/CalculatorVisualTransformation.kt:100-107 | writing the value of a canonical numeral gives the numeral |
| DisplayFormat.Strip | presentation/src/main/java/com/ahn/presentation/util/CalculatorVisualTransformation.kt:23 | removing the hint characters never lengthens a text |
| DisplayFormat.VisibleIsStripped | presentation/src/main/java/com/ahn/presentation/util/CalculatorVisualTransformation.kt:19-30 | what the offset mapping counts is what stripping the hints keeps |
| DisplayFormat.VisibleGrows | presentation/src/main/java/com/ahn/presentation/util/CalculatorVisualTransformation.kt:19-30 | counting a longer prefix never counts fewer characters |
| DisplayFormat.Group | presentation/src/main/java/com/ahn/presentation/util/CalculatorVisualTransformation.kt:101 | `#,###` grouping puts a comma before every third digit from the right and none before the first |
| DisplayFormat.StripGroup | presentation/src/main/java/com/ahn/presentation/util/CalculatorVisualTransformation.kt:101 | removing the commas of a grouped numeral gives the digits back |
| DisplayFormat.GroupWhole | presentation/src/main/java/com/ahn/presentation/util/CalculatorVisualTransformation.kt:100-107 | the whole part of a run is written with digits and commas only |
| DisplayFormat.FormatNumber | presentation/src/main/java/com/ahn/presentation/util/CalculatorVisualTransformation.kt:95-112 | a formatted run holds digits, points and commas only |
| DisplayFormat.StripFormatNumber | presentation/src/main/java/com/ahn/presentation/util/CalculatorVisualTransformation.kt:95-112 | a run with at most one point and a canonical or empty whole part survives formatting up to the commas |
| DisplayFormat.NumberIsGrouped | presentation/src/main/java/com/ahn/presentation/util/CalculatorVisualTransformation.kt:105-106 | a digit run `toLongOrNull` reads is written as its value, grouped in threes |
| DisplayFormat.HugeNumberKept | presentation/src/main/java/com/ahn/presentation/util/CalculatorVisualTransformation.kt:105-107 | a digit run past `Long.MAX_VALUE` is shown as typed |
| DisplayFormat.SecondPointDropped | presentation/src/main/java/com/ahn/presentation/util/CalculatorVisualTransformation.kt:99-103 | `1.2.3` is shown as `1.2`: a second point and what follows are dropped |
| DisplayFormat.FormatWithBreaks | presentation/src/main/java/com/ahn/presentation/util/CalculatorVisualTransformation.kt:61-93 | the display is empty exactly when the text is |
| DisplayFormat.FormatNumberWithCommas | presentation/src/main/java/com/ahn/presentation/util/CalculatorVisualTransformation.kt:114-141 | empty text and `Error` pass through, and the result is empty exactly when the text is |
| DisplayFormat.StripFormat | presentation/src/main/java/com/ahn/presentation/util/CalculatorVisualTransformation.kt:61-93 | stripping the hints from the loop's output gives the pending run and the rest of the text |
| DisplayFormat.DisplayRoundTrip | presentation/src/main/java/com/ahn/presentation/util/CalculatorVisualTransformation.kt:61-93 | removing commas and zero-width spaces from the display gives back the typed text |
| DisplayFormat.CommasRoundTrip | presentation/src/main/java/com/ahn/presentation/screen/calculator/CalculatorScreen.kt:346-373 | the same for the result formatter |
| DisplayFormat.FormatHints | presentation/src/main/java/com/ahn/presentation/util/CalculatorVisualTransformation.kt:77-83 | the loop's output has a zero-width space exactly before each operator |
| DisplayFormat.BreakHintsPlaced | presentation/src/main/java/com/ahn/presentation/util/CalculatorVisualTransformation.kt:61-93 | with no zero-width space typed, the display has one exactly before each of `+ - × ÷` |
| DisplayFormat.ResultHasNoBreaks | presentation/src/main/java/com/ahn/presentation/util/CalculatorVisualTransformation.kt:114-141 | the result formatter never adds a line-break hint |
| DisplayFormat.OriginalToTransformed | presentation/src/main/java/com/ahn/presentation/util/CalculatorVisualTransformation.kt:15-33 | the display position passes exactly `offset` typed characters and stops before the next one; 0 for non-positive offsets |
| DisplayFormat.TransformedToOriginal | presentation/src/main/java/com/ahn/presentation/util/CalculatorVisualTransformation.kt:35-53 | the typed position is the number of non-hint characters before the clamped display offset, capped at the text length |
| DisplayFormat.ToDisplayMonotone | presentation/src/main/java/com/ahn/presentation/util/CalculatorVisualTransformation.kt:15-33 | a later typed position is never shown before an earlier one |
| DisplayFormat.ToOriginalMonotone | presentation/src/main/java/com/ahn/presentation/util/CalculatorVisualTransformation.kt:35-53 | a later display position never maps before an earlier one |
| DisplayFormat.OffsetRoundTrip | presentation/src/main/java/com/ahn/presentation/util/CalculatorVisualTransformation.kt:15-53 | mapping a typed position to the display and back gives it back |
| DisplayFormat.DisplayOffsetRoundTrip | presentation/src/main/java/com/ahn/presentation/util/CalculatorVisualTransformation.kt:9-57 | for a displayable text the two mappings are inverse on every typed position |
| Exchange.Code | presentation/src/main/java/com/ahn/presentation/ui/screen/exchange/ExchangeContract.kt:26-41 | every currency code has three letters |
| Exchange.CodesDistinct | presentation/src/main/java/com/ahn/presentation/ui/screen/exchange/ExchangeContract.kt:31-40 | different currencies have different codes |
| Exchange.AmountPattern | presentation/src/main/java/com/ahn/presentation/ui/screen/exchange/ExchangeViewModel.kt:59 | `^\d*\.?\d*$` accepts exactly the strings of digits and points with at most one point |
| Exchange.AmountValue | presentation/src/main/java/com/ahn/presentation/ui/screen/exchange/ExchangeViewModel.kt:117 | the amount read is never negative |
| Exchange.CalculateExchange | presentation/src/main/java/com/ahn/presentation/ui/screen/exchange/ExchangeViewModel.kt:115-123 | only the converted amount changes; it is the formatted product when positive, and empty otherwise |
| Exchange.UpdateAmount | presentation/src/main/java/com/ahn/presentation/ui/screen/exchange/ExchangeViewModel.kt:58-63 | an amount matching the pattern is stored and converted; any other leaves the state unchanged |
| Exchange.Swap | presentation/src/main/java/com/ahn/presentation/ui/screen/exchange/ExchangeViewModel.kt:83-91 | the currencies trade places, and the typed amount becomes the converted one, or `1` when there is none |
| Exchange.SelectFrom | presentation/src/main/java/com/ahn/presentation/ui/screen/exchange/ExchangeViewModel.kt:65-72 | choosing the target currency as the source swaps; any other choice sets the source only |
| Exchange.SelectTo | presentation/src/main/java/com/ahn/presentation/ui/screen/exchange/ExchangeViewModel.kt:74-81 | choosing the source currency as the target swaps; any other choice sets the target only |
| Exchange.ProcessIntent | presentation/src/main/java/com/ahn/presentation/ui/screen/exchange/ExchangeViewModel.kt:38-56 | a new rate is requested exactly for intents other than a new amount, and a new amount keeps the currencies |
| Exchange.FetchStarted | presentation/src/main/java/com/ahn/presentation/ui/screen/exchange/ExchangeViewModel.kt:96 | loading starts and nothing else changes |
| Exchange.RateReceived | presentation/src/main/java/com/ahn/presentation/ui/screen/exchange/ExchangeViewModel.kt:103-123 | the rate is stored, loading ends, the pair is kept and the amount is converted at the new rate, and the converted amount is empty when the product is not positive |
| Exchange.FetchFailed | presentation/src/main/java/com/ahn/presentation/ui/screen/exchange/ExchangeViewModel.kt:107-111 | loading ends and nothing else changes |
| Exchange.IntentKeepsDistinct | presentation/src/main/java/com/ahn/presentation/ui/screen/exchange/ExchangeViewModel.kt:65-91 | no intent ever makes the two currencies equal |
| Exchange.FetchKeepsDistinct | presentation/src/main/java/com/ahn/presentation/ui/screen/exchange/ExchangeViewModel.kt:93-113 | neither does a rate arriving or failing |
| Exchange.SwapTwice | presentation/src/test/java/com/ahn/presentation/ui/screen/exchange/ExchangeViewModelTest.kt:113-132 | swapping twice restores the pair |
| Exchange.NoRateNoResult | presentation/src/main/java/com/ahn/presentation/ui/screen/exchange/ExchangeViewModel.kt:115-123 | until a positive rate arrives no converted amount is shown |
| Exchange.InitialDistinct | presentation/src/main/java/com/ahn/presentation/ui/screen/exchange/ExchangeContract.kt:4-11 | the form opens with USD into KRW, amount `1` and nothing converted |
| Exchange.ThousandAtRate | presentation/src/test/java/com/ahn/presentation/ui/screen/exchange/ExchangeViewModelTest.kt:53-66 | `1000` at rate 1333.33 is converted by formatting 1 333 330 |

## Left out

- Engine.Evaluate: computes over exact reals. It does not model IEEE rounding, overflow to infinity, or `toDouble` rounding of long literals. Only the special values a division by zero produces are modelled.
- Engine.Calculate: `String.format` digit rendering (`%.10E`, `%.0f`, `%.10f`) is a parameter, not a model. The model fixes which form is chosen and the string-level trims that follow.
- Exchange.CalculateExchange: the `%.2f` rendering of the converted amount is a parameter, for the same reason.
- Exchange.AmountValue: `toDoubleOrNull` also accepts texts outside the amount pattern, such as `Infinity` or `1e5`. The model reads any text outside the pattern as 0. Typed amounts always match the pattern, so this affects only a converted amount that the formatter rendered outside it.
- Exchange.RateReceived: the rate request is asynchronous. A rate for an older currency pair that arrives late is not modelled: the model applies each rate to the current pair. The snackbar message is an effect and is not modelled.
- DisplayFormat.Group: `DecimalFormat` uses the locale's grouping separator. The model fixes it to `,`, which is also the character the offset mapping skips.
- Chars.IsDigit: Kotlin's `isDigit` also accepts non-ASCII decimal digits. The model accepts ASCII `0`-`9` only.
- LegacyScreen.LegacyNormalize: the legacy `calculate` leaves line breaks in place. The model keeps them too, and `LegacyAgreesWithEngine` assumes text without them.
- CalculatorViewModel.Apply: side effects go out on a coroutine channel. The model returns them with the step.
- The Compose layout, fonts, focus handling, the showing of toasts and snackbars, and the press-and-hold repeat of the delete button are UI and are not modelled. The effects that ask for a toast or snackbar are modelled.
- CalculatorViewModel.Apply: the calculator view model sends a `ShowToast` effect (CalculatorViewModel.kt:56 and :165), but its contract declares only `ShowSnackBar` (CalculatorContract.kt:23), and the screen handles only that (CalculatorScreen.kt:65). The model follows the view model and has a `ShowToast` effect. It does not model how the screen would treat it.
- The `com.ahn` selection screen and the legacy screen declare their own copies of `calculate` and `eval`. The selection screen also copies the display formatter and the preview gate. These copies are modelled by the same members as the originals (`Engine`, `DisplayFormat`, `Editing.Preview`), except where the legacy copy differs (`LegacyScreen`).
- The network layer (`ExchangeRateApi`, the repository, dependency injection) is not part of this model. A rate is an input of `Exchange.RateReceived`.
- presentation/src/main/java/com/ahn/presentation/viewmodel/CalculatorViewModel.kt refers to types that the repository does not define. It is not part of this model.

## Findings

| source | as written | input that shows it | evidently intended | confidence | as-written member | corrected member |
|---|---|---|---|---|---|---|
| presentation/src/main/java/com/ahn/presentation/screen/calculator/CalculatorScreen.kt:248-253 | the 15-character limit is measured at `selection.min` in the text before the selection is replaced | `12345678+12345678` with `+` selected, then `0`: the result is one 17-digit number and no toast is shown | measure the block after the selection is removed | high; not executed | SelectionScreen.SelectionBypassesLimit | SelectionScreen.Insert |
| presentation/src/main/java/com/example/presentation/screen/calculator/CalculatorScreen.kt:276 | the replace test uses the class `[+\-×÷]`, but the minus key types `−` (U+2212) | `5−` then `+` gives `5−+` | an operator key replaces any operator the keypad typed | high; not executed | LegacyScreen.OperatorAfterMinusAppends | LegacyScreen.AddOperator |
| presentation/src/main/java/com/example/presentation/screen/calculator/CalculatorScreen.kt:237 | the number before the point is found by splitting at `[+\-×÷]`, which does not split at `−` | `1.5−2` then `.`: the point is refused | split at every operator the keypad types | high; not executed | LegacyScreen.PointRefusedAfterMinus | LegacyScreen.Dot |
| presentation/src/main/java/com/example/presentation/screen/calculator/CalculatorScreen.kt:320 | a whole result goes through `toInt()`, which saturates at 2^31-1 | `50000×50000` shows `2147483647` | print the whole value exactly, as the new engine's `%.0f` does | high; not executed | LegacyScreen.LargeProductSaturates | LegacyScreen.LegacyCalculate |

=== FILE: calculator_view_model.dfy ===
/**
 * The calculator editor of `ui/screen/calculator`: a text expression with a cursor, edited by
 * keypad intents. Each keypad intent is split in two: a text-level `Edit` (what happens to the
 * expression and the cursor) and `Apply`, which stores the edit, recomputes the preview and clears
 * the error flag. The engine is an uninterpreted `string -> string` parameter.
 */
module CalculatorViewModel {
  import opened Wrappers
  import opened Chars
  import opened Editing

  /** `CalculatorContract.State`. */
  datatype State = State(
    expression: string,
    cursorPosition: int,
    previewResult: string,
    isError: bool,
    errorMessage: Option<string>)

  /** `CalculatorToken`: what a keypad button sends. */
  datatype Token =
    | Number(digits: string)
    | Operator(symbol: char)
    | Dot
    | Parenthesis

  /** `CalculatorContract.Intent`. */
  datatype Intent = Input(token: Token) | Delete | Clear | Calculate

  /** The one-shot side effect the editor emits. */
  datatype SideEffect = ShowToast(message: string)

  /** The state after an intent and the side effect it sent, if any. */
  datatype Step = Step(state: State, effect: Option<SideEffect>)

  /**
   * What a keypad intent does to the text: nothing (`Keep`, no state update at all), refuse a
   * number that would overflow the block (`TooLong`), or write new text and cursor.
   */
  datatype Edit = Keep | TooLong | Write(text: string, cursor: nat)

  const TooLongMessage: string := "숫자는 최대 15 자리까지 입력 가능합니다."
  const CannotCalculateMessage: string := "계산할 수 없는 수식입니다."
  const CalculationErrorMessage: string := "계산 오류"

  /** `State()`: the defaults of the contract. */
  const Initial: State := State("", 0, "", false, None)

  /** The cursor is a position of the expression: `0 <= cursorPosition <= |expression|`. */
  predicate Valid(st: State) {
    0 <= st.cursorPosition <= |st.expression|
  }

  /** A written cursor lies inside the written text. */
  predicate Fits(edit: Edit) {
    edit.Write? ==> edit.cursor <= |edit.text|
  }

  /** `insertText`: `t` spliced in at the cursor, the cursor moved past it. */
  function Insert(e: string, c: nat, t: string): (r: Edit)
    requires c <= |e|
    ensures r.Write? && r.cursor == c + |t| <= |r.text|
    ensures RemoveRange(r.text, c, r.cursor) == e
    ensures r.text[c..r.cursor] == t
  {
    RemoveSplice(e, c, t);
    SpliceSlice(e, c, t, c, c);
    Write(Splice(e, c, t), c + |t|)
  }

  /** `canInsertNumber`: the block around the cursor is shorter than the limit. */
  predicate CanInsertNumber(e: string, c: nat)
    requires c <= |e|
  {
    |NumberBlock(e, c, IsBlockSeparator)| < MaxNumberLength
  }

  /**
   * `handleNumberInput`: refused when the block is full; `"0"` is replaced by any other number;
   * otherwise the digits are inserted at the cursor.
   */
  function NumberEdit(e: string, c: nat, digits: string): (r: Edit)
    requires c <= |e|
    ensures Fits(r) && r != Keep
    ensures r == TooLong <==> !CanInsertNumber(e, c)
    ensures r.Write? && e == "0" && digits != "0" ==> r == Write(digits, |digits|)
    ensures r.Write? && (e != "0" || digits == "0") ==> r == Insert(e, c, digits)
  {
    if !CanInsertNumber(e, c) then TooLong
    else if e == "0" && digits != "0" then Write(digits, |digits|)
    else Insert(e, c, digits)
  }

  /**
   * `handleOperatorInput`: ignored at the start (which covers the empty text) and right after
   * `(`; right after another operator it replaces that operator in place; otherwise inserted.
   */
  function OperatorEdit(e: string, c: nat, op: char): (r: Edit)
    requires c <= |e|
    ensures Fits(r) && r != TooLong
    ensures r == Keep <==> c == 0 || (!IsOperatorGlyph(e[c - 1]) && e[c - 1] == '(')
    ensures r.Write? && IsOperatorGlyph(e[c - 1]) ==>
              && r.cursor == c
              && |r.text| == |e|
              && r.text[c - 1] == op
              && forall k :: 0 <= k < |e| && k != c - 1 ==> r.text[k] == e[k]
    ensures r.Write? && !IsOperatorGlyph(e[c - 1]) ==> r == Insert(e, c, [op])
  {
    if e == [] || c == 0 then Keep
    else if IsOperatorGlyph(e[c - 1]) then Write(e[..c - 1] + [op] + e[c..], c)
    else if e[c - 1] == '(' then Keep
    else Insert(e, c, [op])
  }

  /** The text the point key inserts: `0.` after an operator or `(`, `.` elsewhere. */
  function PointText(e: string, c: nat): (t: string)
    requires c <= |e|
    ensures t == "0." || t == "."
  {
    if c > 0 && (IsOperatorGlyph(e[c - 1]) || e[c - 1] == '(') then "0." else "."
  }

  /**
   * `handleDotInput`: `"0."` on an empty expression; ignored when the block around the cursor
   * already has a point; otherwise `PointText` is inserted.
   */
  function DotEdit(e: string, c: nat): (r: Edit)
    requires c <= |e|
    ensures Fits(r) && r != TooLong
    ensures r == Keep <==> e != [] && '.' in NumberBlock(e, c, IsBlockSeparator)
    ensures e == [] ==> r == Write("0.", 2)
    ensures e != [] && r.Write? ==> r == Insert(e, c, PointText(e, c))
  {
    if e == [] then Write("0.", 2)
    else if '.' in NumberBlock(e, c, IsBlockSeparator) then Keep
    else Insert(e, c, PointText(e, c))
  }

  /** `handleParenthesisInput`: the three-way choice of `ParenthesisToInsert`, inserted. */
  function ParenthesisEdit(e: string, c: nat): (r: Edit)
    requires c <= |e|
    ensures r.Write? && r.cursor == c + |ParenthesisToInsert(e, c)| <= |r.text|
    ensures RemoveRange(r.text, c, r.cursor) == e
    ensures r.text[c..r.cursor] == ParenthesisToInsert(e, c)
  {
    Insert(e, c, ParenthesisToInsert(e, c))
  }

  /** `handleDelete`: the character before the cursor removed; nothing at the start. */
  function DeleteEdit(e: string, c: nat): (r: Edit)
    requires c <= |e|
    ensures Fits(r) && r != TooLong
    ensures r == Keep <==> c == 0
    ensures r.Write? ==> r.cursor == c - 1 && Splice(r.text, r.cursor, [e[c - 1]]) == e
  {
    if e == [] || c == 0 then Keep
    else
      SpliceRemove(e, c - 1, c);
      assert e[c - 1..c] == [e[c - 1]];
      Write(RemoveRange(e, c - 1, c), c - 1)
  }

  /**
   * `updateState` applied to an edit: written text and cursor are stored, the preview is
   * recomputed and the error cleared; `Keep` changes nothing; `TooLong` only sends the toast.
   */
  function Apply(st: State, edit: Edit, engine: string -> string): (r: Step)
    requires Valid(st) && Fits(edit)
    ensures Valid(r.state)
    ensures r.effect.Some? <==> edit == TooLong
    ensures r.effect.Some? ==> r.effect == Some(ShowToast(TooLongMessage))
    ensures !edit.Write? ==> r.state == st
    ensures edit.Write? ==>
              && r.state.expression == edit.text
              && r.state.cursorPosition == edit.cursor
              && r.state.previewResult == Preview(edit.text, engine)
              && !r.state.isError && r.state.errorMessage == None
  {
    match edit
    case Keep => Step(st, None)
    case TooLong => Step(st, Some(ShowToast(TooLongMessage)))
    case Write(text, cursor) =>
      Step(st.(expression := text, cursorPosition := cursor, previewResult := Preview(text, engine),
               isError := false, errorMessage := None), None)
  }

  /**
   * `handleCalculate`: nothing on an empty expression; an "Error" result keeps the text, sets the
   * error flag and sends a toast; any other result becomes the expression, cursor at its end.
   */
  function HandleCalculate(st: State, engine: string -> string): (r: Step)
    requires Valid(st)
    ensures Valid(r.state)
    ensures st.expression == [] ==> r == Step(st, None)
    ensures st.expression != [] && engine(st.expression) == ErrorText ==>
              && r.state == st.(isError := true, errorMessage := Some(CalculationErrorMessage))
              && r.effect == Some(ShowToast(CannotCalculateMessage))
    ensures st.expression != [] && engine(st.expression) != ErrorText ==>
              r == Step(State(engine(st.expression), |engine(st.expression)|, "", false, None), None)
  {
    if st.expression == [] then Step(st, None)
    else
      var result := engine(st.expression);
      if result == ErrorText then
        Step(st.(isError := true, errorMessage := Some(CalculationErrorMessage)), Some(ShowToast(CannotCalculateMessage)))
      else
        Step(State(result, |result|, "", false, None), None)
  }

  /** The edit a keypad token makes at the cursor. */
  function TokenEdit(e: string, c: nat, token: Token): (r: Edit)
    requires c <= |e|
    ensures Fits(r)
  {
    match token
    case Number(d) => NumberEdit(e, c, d)
    case Operator(op) => OperatorEdit(e, c, op)
    case Dot => DotEdit(e, c)
    case Parenthesis => ParenthesisEdit(e, c)
  }

  /**
   * `processIntent`: every intent keeps the cursor inside the expression; Clear restores the
   * defaults; an input or a deletion that changes anything refreshes the preview and clears the
   * error.
   */
  function ProcessIntent(st: State, intent: Intent, engine: string -> string): (r: Step)
    requires Valid(st)
    ensures Valid(r.state)
    ensures intent == Clear ==> r == Step(Initial, None)
    ensures (intent.Input? || intent == Delete) && r.state != st ==>
              r.state.previewResult == Preview(r.state.expression, engine) && !r.state.isError
  {
    var e, c := st.expression, st.cursorPosition;
    match intent
    case Input(token) => Apply(st, TokenEdit(e, c, token), engine)
    case Delete => Apply(st, DeleteEdit(e, c), engine)
    case Clear => Step(Initial, None)
    case Calculate => HandleCalculate(st, engine)
  }

  /** `coerceIn(lo, hi)`. */
  function Clamp(n: int, lo: int, hi: int): int
    requires lo <= hi
  {
    if n < lo then lo else if n > hi then hi else n
  }

  /** `updateCursorPosition`: the requested position clamped into the expression. */
  function UpdateCursorPosition(st: State, n: int): (r: State)
    ensures Valid(r)
    ensures 0 <= n <= |st.expression| ==> r.cursorPosition == n
    ensures n < 0 ==> r.cursorPosition == 0
    ensures n > |st.expression| ==> r.cursorPosition == |st.expression|
    ensures r == st.(cursorPosition := r.cursorPosition)
  {
    st.(cursorPosition := Clamp(n, 0, |st.expression|))
  }

  /** The state after a sequence of intents. */
  function Run(st: State, intents: seq<Intent>, engine: string -> string): (r: State)
    requires Valid(st)
    ensures Valid(r)
    decreases |intents|
  {
    if intents == [] then st
    else Run(ProcessIntent(st, intents[0], engine).state, intents[1..], engine)
  }

  /** Deleting right after typing a character gives back the text and the cursor. */
  lemma {:induction false} DeleteUndoesInsert(e: string, c: nat, x: char)
    requires c <= |e|
    ensures var typed := Insert(e, c, [x]);
            DeleteEdit(typed.text, typed.cursor) == Write(e, c)
  {
    var typed := Insert(e, c, [x]);
    assert typed.text[c..c + 1] == [x];
  }

  /**
   * The 15-character limit holds for keypad digits: after a single digit is written, the number
   * block around the new cursor has at most 15 characters.
   */
  lemma {:induction false} DigitRespectsLimit(e: string, c: nat, d: char)
    requires c <= |e| && IsDigit(d)
    ensures var r := NumberEdit(e, c, [d]);
            r.Write? ==> |NumberBlock(r.text, r.cursor, IsBlockSeparator)| <= MaxNumberLength
  {
    if CanInsertNumber(e, c) {
      if e == "0" && [d] != "0" {
        BlockIsMaximalSpan([d], 1, IsBlockSeparator, 0, 1);
      } else {
        SpliceBlockLength(e, c, [d], IsBlockSeparator);
      }
    }
  }

  /** A written point leaves exactly one point in the number block around the cursor. */
  lemma {:induction false} DotLeavesOnePoint(e: string, c: nat)
    requires c <= |e|
    ensures var r := DotEdit(e, c);
            r.Write? ==> Count(NumberBlock(r.text, r.cursor, IsBlockSeparator), '.') == 1
  {
    if e == [] {
      FreshPointBlock();
    } else if '.' !in NumberBlock(e, c, IsBlockSeparator) {
      InsertedPointBlock(e, c, PointText(e, c));
    }
  }

  /** On an empty expression the point key writes the block `0.`. */
  lemma {:induction false} FreshPointBlock()
    ensures Count(NumberBlock("0.", 2, IsBlockSeparator), '.') == 1
  {
    BlockIsMaximalSpan("0.", 2, IsBlockSeparator, 0, 2);
    assert "0."[1..] == ".";
  }

  /** Inserting `.` or `0.` into a block without a point gives it exactly one. */
  lemma {:induction false} InsertedPointBlock(e: string, c: nat, t: string)
    requires c <= |e| && '.' !in NumberBlock(e, c, IsBlockSeparator)
    requires t == "0." || t == "."
    ensures Count(NumberBlock(Splice(e, c, t), c + |t|, IsBlockSeparator), '.') == 1
  {
    assert Count(t, '.') == 1 by {
      if t == "0." {
        assert t[1..] == ".";
      }
    }
    SpliceBlockCount(e, c, t, IsBlockSeparator, '.');
  }

  /** The parenthesis key never closes more parentheses than are open. */
  lemma {:induction false} ParenthesisKeepsBalance(e: string, c: nat)
    requires c <= |e| && ClosesCovered(e)
    ensures ClosesCovered(ParenthesisEdit(e, c).text)
  {
    ParenthesisKeepsCover(e, c);
  }

  /**
   * A written operator never follows another operator or `(`: the character before it is
   * something else, or the operator replaced the one that was there.
   */
  lemma {:induction false} OperatorNeverFollowsOperator(e: string, c: nat, op: char)
    requires c <= |e|
    ensures var r := OperatorEdit(e, c, op);
            r.Write? ==>
              && r.cursor > 0 && r.text[r.cursor - 1] == op
              && (|r.text| == |e| ||
                  (r.cursor > 1 && !IsOperatorGlyph(r.text[r.cursor - 2]) && r.text[r.cursor - 2] != '('))
  {
    if c > 0 && !IsOperatorGlyph(e[c - 1]) && e[c - 1] != '(' {
      SpliceAt(e, c, [op], c);
      SpliceAt(e, c, [op], c - 1);
    }
  }
}

=== FILE: calculator_view_model_examples.dfy ===
/** The editor's documented behaviour on concrete keypad sequences. */
module CalculatorViewModelExamples {
  import opened Wrappers
  import opened Chars
  import opened Editing
  import opened CalculatorViewModel

  /** Typing `5` on the empty editor writes `5` with the cursor after it. */
  lemma TypingFive(engine: string -> string)
    ensures var st := ProcessIntent(Initial, Input(Number("5")), engine).state;
            st.expression == "5" && st.cursorPosition == 1
  {
    BlockIsMaximalSpan("", 0, IsBlockSeparator, 0, 0);
  }

  /** Typing `0` on the empty editor writes `0`. */
  lemma TypingZero(engine: string -> string)
    ensures ProcessIntent(Initial, Input(Number("0")), engine).state.expression == "0"
  {
    BlockIsMaximalSpan("", 0, IsBlockSeparator, 0, 0);
  }

  /** An operator on the empty editor is ignored. */
  lemma LeadingOperatorIgnored(engine: string -> string)
    ensures ProcessIntent(Initial, Input(Operator('+')), engine) == Step(Initial, None)
  {
  }

  /** A digit typed over a lone `0` replaces it. */
  lemma DigitReplacesZero(st: State, engine: string -> string)
    requires st.expression == "0" && st.cursorPosition == 1
    ensures var r := ProcessIntent(st, Input(Number("7")), engine).state;
            r.expression == "7" && r.cursorPosition == 1
  {
    BlockIsMaximalSpan("0", 1, IsBlockSeparator, 0, 1);
  }

  /** Clear after `123` gives the empty editor. */
  lemma ClearEmpties(st: State, engine: string -> string)
    requires st.expression == "123" && st.cursorPosition == 3
    ensures ProcessIntent(st, Clear, engine).state == Initial
  {
  }

  /** Delete after `123` removes the `3`. */
  lemma DeleteDropsLast(st: State, engine: string -> string)
    requires st.expression == "123" && st.cursorPosition == 3
    ensures var r := ProcessIntent(st, Delete, engine).state;
            r.expression == "12" && r.cursorPosition == 2
  {
    assert RemoveRange("123", 2, 3) == "12";
  }

  /** Calculate replaces `10+20` by the engine's answer, cursor at its end. */
  lemma CalculateShowsResult(st: State, engine: string -> string)
    requires st.expression == "10+20" && st.cursorPosition == 5
    requires engine("10+20") == "30"
    ensures var r := ProcessIntent(st, Calculate, engine);
            r.state.expression == "30" && r.state.cursorPosition == 2 && r.effect == None
  {
  }

  /** An engine error keeps the text and flags the error. */
  lemma CalculateErrorKeepsText(st: State, engine: string -> string)
    requires Valid(st) && st.expression == "1+" && engine("1+") == ErrorText
    ensures var r := ProcessIntent(st, Calculate, engine);
            r.state.expression == "1+" && r.state.isError && r.effect == Some(ShowToast(CannotCalculateMessage))
  {
  }
}

=== FILE: chars.dfy ===
/** Character classes and small sequence helpers shared by every component. */
module Chars {

  const Times: char := '\U{00D7}'          // the multiplication glyph shown on the keypad
  const Divide: char := '\U{00F7}'         // the division glyph
  const UnicodeMinus: char := '\U{2212}'   // the minus glyph of the legacy keypad
  const ZeroWidthSpace: char := '\U{200B}' // line-break hint of the display formatter
  const Newline: char := '\n'

  /** `Char.isDigit`, restricted to ASCII digits. */
  predicate IsDigit(c: char) {
    '0' <= c <= '9'
  }

  /** A character that may appear in a number run: a digit or the decimal point. */
  predicate IsNumChar(c: char) {
    IsDigit(c) || c == '.'
  }

  /** Every character is a digit or a point. */
  predicate AllNumChars(s: string) {
    forall k :: 0 <= k < |s| ==> IsNumChar(s[k])
  }

  /** The four operator glyphs of the editors: `+ - × ÷` (ASCII hyphen). */
  predicate IsOperatorGlyph(c: char) {
    c == '+' || c == '-' || c == Times || c == Divide
  }

  /** Number of occurrences of `c` in `s` (Kotlin `count { it == c }`). */
  function Count(s: string, c: char): (n: nat)
    ensures n <= |s|
    ensures n == 0 <==> c !in s
  {
    if s == [] then 0 else (if s[0] == c then 1 else 0) + Count(s[1..], c)
  }

  /** Number of operator glyphs in `s`. */
  function CountOperators(s: string): (n: nat)
    ensures n <= |s|
  {
    if s == [] then 0 else (if IsOperatorGlyph(s[0]) then 1 else 0) + CountOperators(s[1..])
  }

  /** No operator is counted exactly when no character is an operator glyph. */
  lemma {:induction false} NoOperatorsCounted(s: string)
    ensures CountOperators(s) == 0 <==> forall i :: 0 <= i < |s| ==> !IsOperatorGlyph(s[i])
  {
    if s != [] {
      NoOperatorsCounted(s[1..]);
      assert forall i :: 1 <= i < |s| ==> s[i] == s[1..][i - 1];
    }
  }

  /** `String.dropLast(1)` for a non-empty string. */
  function DropLast(s: string): string
    requires |s| > 0
  {
    s[..|s| - 1]
  }

  /** The text before the first `c` (all of it when there is none): the first part of `split`. */
  function Before(s: string, c: char): (r: string)
    ensures r <= s && c !in r
    ensures |r| < |s| ==> s[|r|] == c
    decreases |s|
  {
    if s == [] || s[0] == c then [] else [s[0]] + Before(s[1..], c)
  }

  lemma CountAppend(a: string, b: string, c: char)
    ensures Count(a + b, c) == Count(a, c) + Count(b, c)
  {
    if a != [] {
      assert (a + b)[1..] == a[1..] + b;
      CountAppend(a[1..], b, c);
    } else {
      assert a + b == b;
    }
  }
}

=== FILE: digits.dfy ===
/**
 * Decimal numerals of natural numbers: `Long.toString()` for a non-negative value, and the value
 * `toLongOrNull` reads from a string of ASCII digits.
 */
module Digits {
  import opened Chars

  predicate AllDigits(s: string) {
    forall k :: 0 <= k < |s| ==> IsDigit(s[k])
  }

  /** A numeral as `toString` writes it: non-empty, and no leading zero unless it is `0`. */
  predicate Canonical(s: string) {
    AllDigits(s) && |s| > 0 && (s[0] == '0' ==> |s| == 1)
  }

  function DigitChar(d: nat): (c: char)
    requires d < 10
    ensures IsDigit(c) && c as int - '0' as int == d
  {
    ('0' as int + d) as char
  }

  /** The decimal numeral of `n`. */
  function NatText(n: nat): (s: string)
    ensures Canonical(s)
    ensures n > 0 ==> s[0] != '0'
    decreases n
  {
    if n < 10 then [DigitChar(n)] else NatText(n / 10) + [DigitChar(n % 10)]
  }

  /** The number a string of digits denotes, leading zeros allowed. */
  function NumeralValue(s: string): nat
    requires AllDigits(s)
    decreases |s|
  {
    if s == [] then 0 else NumeralValue(DropLast(s)) * 10 + (s[|s| - 1] as int - '0' as int)
  }

  /** Reading a written number gives the number back. */
  lemma {:induction false} ValueOfText(n: nat)
    ensures NumeralValue(NatText(n)) == n
    decreases n
  {
    if n >= 10 {
      ValueOfText(n / 10);
      assert DropLast(NatText(n)) == NatText(n / 10);
    }
  }

  /** A numeral without a leading zero denotes a positive number. */
  lemma {:induction false} LeadingDigitPositive(s: string)
    requires AllDigits(s) && |s| > 0 && s[0] != '0'
    ensures NumeralValue(s) >= 1
    decreases |s|
  {
    if |s| > 1 {
      LeadingDigitPositive(DropLast(s));
    }
  }

  /** Writing the value of a canonical numeral gives the numeral back. */
  lemma {:induction false} TextOfValue(s: string)
    requires Canonical(s)
    ensures NatText(NumeralValue(s)) == s
    decreases |s|
  {
    var n := NumeralValue(s);
    if |s| == 1 {
      assert DropLast(s) == [];
    } else {
      var p := DropLast(s);
      LeadingDigitPositive(p);
      TextOfValue(p);
      assert n / 10 == NumeralValue(p) && n % 10 == s[|s| - 1] as int - '0' as int;
      assert p + [s[|s| - 1]] == s;
    }
  }
}

=== FILE: display_format.dfy ===
/**
 * The calculator's display formatting (`util/CalculatorVisualTransformation.kt`): every run of
 * digits and points is grouped in threes with `,`, a zero-width space is put before each operator
 * as a line-break hint, and an offset mapping moves the cursor between the typed text and the
 * displayed text by skipping those inserted characters.
 */
module DisplayFormat {
  import opened Chars
  import opened Digits
  import opened Editing

  /** `Long.MAX_VALUE`: `toLongOrNull` gives up above it. */
  const LongMax: nat := 0x7FFF_FFFF_FFFF_FFFF

  /** The characters the display adds and the offset mapping skips: `,` and the zero-width space. */
  predicate IsHint(c: char) {
    c == ',' || c == ZeroWidthSpace
  }

  predicate NoHints(s: string) {
    forall k :: 0 <= k < |s| ==> !IsHint(s[k])
  }

  /** The text with every `,` and zero-width space removed. */
  function Strip(s: string): (r: string)
    ensures |r| <= |s|
    decreases |s|
  {
    if s == [] then []
    else
      var c := s[|s| - 1];
      Strip(DropLast(s)) + (if IsHint(c) then [] else [c])
  }

  /** The number of characters of `s` that the mapping counts, i.e. those that are not hints. */
  function Visible(s: string): (n: nat)
    ensures n <= |s|
    decreases |s|
  {
    if s == [] then 0 else Visible(DropLast(s)) + (if IsHint(s[|s| - 1]) then 0 else 1)
  }

  lemma {:induction false} StripAppend(a: string, b: string)
    ensures Strip(a + b) == Strip(a) + Strip(b)
    decreases |b|
  {
    if b == [] {
      assert a + b == a;
    } else {
      assert DropLast(a + b) == a + DropLast(b);
      StripAppend(a, DropLast(b));
    }
  }

  lemma {:induction false} StripKeeps(s: string)
    requires NoHints(s)
    ensures Strip(s) == s
    decreases |s|
  {
    if s != [] {
      StripKeeps(DropLast(s));
    }
  }

  /** What the mapping counts is what stripping keeps. */
  lemma {:induction false} VisibleIsStripped(s: string)
    ensures Visible(s) == |Strip(s)|
    decreases |s|
  {
    if s != [] {
      VisibleIsStripped(DropLast(s));
    }
  }

  lemma {:induction false} VisibleStep(s: string, j: nat)
    requires j < |s|
    ensures Visible(s[..j + 1]) == Visible(s[..j]) + (if IsHint(s[j]) then 0 else 1)
  {
    assert DropLast(s[..j + 1]) == s[..j];
  }

  /** Counting more of the text never counts fewer characters. */
  lemma {:induction false} VisibleGrows(s: string, i: nat, j: nat)
    requires i <= j <= |s|
    ensures Visible(s[..i]) <= Visible(s[..j])
    decreases j - i
  {
    if i < j {
      VisibleStep(s, j - 1);
      VisibleGrows(s, i, j - 1);
    }
  }

  // ---------------------------------------------------------------------------------------------
  // One number run
  // ---------------------------------------------------------------------------------------------

  /** A comma before every third digit from the right, none before the first digit. */
  predicate GroupedInThrees(r: string) {
    forall k :: 0 <= k < |r| ==> (r[k] == ',' <==> k > 0 && (|r| - k) % 4 == 0)
  }

  /** `DecimalFormat("#,###")` applied to the digits of a number: `,` between groups of three. */
  function Group(d: string): (r: string)
    requires AllDigits(d)
    ensures |r| >= |d|
    ensures forall k :: 0 <= k < |r| ==> IsDigit(r[k]) || r[k] == ','
    ensures GroupedInThrees(r)
    decreases |d|
  {
    if |d| <= 3 then d
    else
      var g := Group(d[..|d| - 3]);
      var r := g + "," + d[|d| - 3..];
      assert forall k :: 0 <= k < |g| ==> r[k] == g[k] && (|r| - k) % 4 == (|g| - k) % 4;
      r
  }

  lemma {:induction false} StripAroundComma(x: string, y: string)
    ensures Strip(x + "," + y) == Strip(x) + Strip(y)
  {
    StripAppend(x + ",", y);
    StripAppend(x, ",");
    assert DropLast(",") == [];
  }

  /** Removing the commas of a grouped numeral gives the digits back. */
  lemma {:induction false} StripGroup(d: string)
    requires AllDigits(d)
    ensures Strip(Group(d)) == d
    decreases |d|
  {
    if |d| <= 3 {
      StripKeeps(d);
    } else {
      var p, t := d[..|d| - 3], d[|d| - 3..];
      assert Group(d) == Group(p) + "," + t;
      StripGroup(p);
      StripAroundComma(Group(p), t);
      StripKeeps(t);
      assert p + t == d;
    }
  }

  /**
   * A whole part as the formatter writes it: grouped when `toLongOrNull` reads it (non-empty and
   * at most `Long.MAX_VALUE`), left as it is otherwise.
   */
  function GroupWhole(d: string): (r: string)
    requires AllDigits(d)
    ensures forall k :: 0 <= k < |r| ==> IsDigit(r[k]) || r[k] == ','
  {
    if d != [] && NumeralValue(d) <= LongMax then Group(NatText(NumeralValue(d))) else d
  }

  /**
   * `formatNumber`: without a point the run is `GroupWhole`d; with one it is split at every
   * point, the part before the first is `GroupWhole`d and only the part after it is kept.
   */
  function FormatNumber(run: string): (r: string)
    requires AllNumChars(run)
    ensures forall k :: 0 <= k < |r| ==> IsNumChar(r[k]) || r[k] == ','
  {
    var whole := Before(run, '.');
    assert AllDigits(whole) by {
      assert forall k :: 0 <= k < |whole| ==> whole[k] == run[k] && whole[k] != '.';
    }
    if '.' in run then
      var fraction := Before(run[|whole| + 1..], '.');
      assert forall k :: 0 <= k < |fraction| ==> fraction[k] == run[|whole| + 1 + k];
      GroupWhole(whole) + "." + fraction
    else GroupWhole(whole)
  }

  /** A run the formatter gives back intact: at most one point, and a whole part that is empty or canonical. */
  predicate RunKept(run: string) {
    Count(run, '.') <= 1 && (Before(run, '.') == [] || Canonical(Before(run, '.')))
  }

  lemma {:induction false} StripGroupWhole(d: string)
    requires AllDigits(d) && (d == [] || Canonical(d))
    ensures Strip(GroupWhole(d)) == d
  {
    if d != [] && NumeralValue(d) <= LongMax {
      TextOfValue(d);
      StripGroup(d);
    } else {
      StripKeeps(d);
    }
  }

  /** With at most one point, the run is its whole part, the point and a point-free rest. */
  lemma {:induction false} SplitAtPoint(run: string)
    requires AllNumChars(run) && Count(run, '.') <= 1 && '.' in run
    ensures var whole := Before(run, '.');
            |whole| < |run| && run == whole + "." + run[|whole| + 1..] &&
            Before(run[|whole| + 1..], '.') == run[|whole| + 1..] && NoHints(run[|whole| + 1..])
  {
    var whole := Before(run, '.');
    var rest := run[|whole| + 1..];
    assert run == whole + "." + rest;
    CountAppend(whole + ".", rest, '.');
    CountAppend(whole, ".", '.');
    assert forall k :: 0 <= k < |rest| ==> rest[k] == run[|whole| + 1 + k];
  }

  /** Stripping passes over a point between two texts. */
  lemma {:induction false} StripAroundPoint(x: string, y: string)
    ensures Strip(x + "." + y) == Strip(x) + "." + Strip(y)
  {
    StripAppend(x + ".", y);
    StripAppend(x, ".");
    assert DropLast(".") == [];
  }

  /** A kept run survives formatting up to the inserted commas. */
  lemma {:induction false} StripFormatNumber(run: string)
    requires AllNumChars(run) && RunKept(run)
    ensures Strip(FormatNumber(run)) == run
  {
    var whole := Before(run, '.');
    assert AllDigits(whole) by {
      assert forall k :: 0 <= k < |whole| ==> whole[k] == run[k] && whole[k] != '.';
    }
    StripGroupWhole(whole);
    if '.' in run {
      SplitAtPoint(run);
      var rest := run[|whole| + 1..];
      StripKeeps(rest);
      StripAroundPoint(GroupWhole(whole), rest);
    }
  }

  /** A run of digits that `toLongOrNull` reads is written as its value, grouped in threes. */
  lemma {:induction false} NumberIsGrouped(run: string)
    requires run != [] && AllDigits(run) && NumeralValue(run) <= LongMax
    ensures Strip(FormatNumber(run)) == NatText(NumeralValue(run))
    ensures GroupedInThrees(FormatNumber(run))
  {
    assert Before(run, '.') == run;
    StripGroup(NatText(NumeralValue(run)));
  }

  /** A run of digits past `Long.MAX_VALUE` is shown as typed. */
  lemma {:induction false} HugeNumberKept(run: string)
    requires AllDigits(run) && NumeralValue(run) > LongMax
    ensures FormatNumber(run) == run
  {
    assert Before(run, '.') == run;
  }

  /** A second point and whatever follows it are dropped: `1.2.3` is shown as `1.2`. */
  lemma SecondPointDropped(run: string)
    requires run == "1.2.3"
    ensures FormatNumber(run) == "1.2"
  {
    assert run[1] == '.';
    assert Before(run, '.') == "1";
    assert run[2..] == "2.3";
    assert Before("2.3", '.') == "2";
    assert NumeralValue("1") == 1 by {
      assert DropLast("1") == [];
    }
    assert NatText(1) == "1";
  }

  // ---------------------------------------------------------------------------------------------
  // Whole texts
  // ---------------------------------------------------------------------------------------------

  /** The pending number run, formatted once a non-number character or the end is reached. */
  function Flush(cur: string): (r: string)
    requires AllNumChars(cur)
    ensures forall k :: 0 <= k < |r| ==> IsNumChar(r[k]) || r[k] == ','
  {
    if cur == [] then [] else FormatNumber(cur)
  }

  /**
   * The loop shared by both formatters: number characters collect in `cur`; any other character
   * flushes the run and is copied, after a zero-width space when `breaks` is set and it is one of
   * `+ - × ÷`.
   */
  function Format(t: string, cur: string, breaks: bool): string
    requires AllNumChars(cur)
    decreases |t|
  {
    if t == [] then Flush(cur)
    else if IsNumChar(t[0]) then Format(t[1..], cur + [t[0]], breaks)
    else
      Flush(cur) + (if breaks && IsOperatorGlyph(t[0]) then [ZeroWidthSpace] else []) + [t[0]]
        + Format(t[1..], [], breaks)
  }

  /** `formatWithThousandSeparatorAndBreaks`: the text the calculator shows. */
  function FormatWithBreaks(text: string): (r: string)
    ensures r == [] <==> text == []
  {
    if text == [] then text else FormatLoopNonEmpty(text, [], true); Format(text, [], true)
  }

  /** `formatNumberWithCommas`: the same grouping without break hints; "Error" passes through. */
  function FormatNumberWithCommas(text: string): (r: string)
    ensures text == [] || text == ErrorText ==> r == text
    ensures r == [] <==> text == []
  {
    if text == [] || text == ErrorText then text else FormatLoopNonEmpty(text, [], false); Format(text, [], false)
  }

  lemma {:induction false} FormatLoopNonEmpty(t: string, cur: string, breaks: bool)
    requires AllNumChars(cur) && t + cur != []
    ensures Format(t, cur, breaks) != []
    decreases |t|
  {
    if t == [] {
      assert cur != [];
      var whole := Before(cur, '.');
      if '.' !in cur {
        assert whole == cur;
        assert |GroupWhole(whole)| > 0 by {
          if whole != [] && NumeralValue(whole) <= LongMax {
            assert |NatText(NumeralValue(whole))| > 0;
          }
        }
      }
    } else if IsNumChar(t[0]) {
      FormatLoopNonEmpty(t[1..], cur + [t[0]], breaks);
    }
  }

  /** Every run the loop will flush, from `cur` on, is one the formatter keeps intact. */
  predicate RunsKept(t: string, cur: string)
    decreases |t|
  {
    if t == [] then RunKept(cur)
    else if IsNumChar(t[0]) then RunsKept(t[1..], cur + [t[0]])
    else RunKept(cur) && RunsKept(t[1..], [])
  }

  /** Stripping a flushed run, an optional hint, a copied character and the rest, piece by piece. */
  lemma {:induction false} StripCopied(x: string, hint: string, c: char, z: string)
    requires hint == [] || hint == [ZeroWidthSpace]
    requires !IsHint(c)
    ensures Strip(x + hint + [c] + z) == Strip(x) + [c] + Strip(z)
  {
    assert Strip(hint) == [] by {
      if hint != [] {
        assert DropLast(hint) == [];
      }
    }
    assert Strip([c]) == [c] by {
      assert DropLast([c]) == [];
    }
    StripAppend(x + hint + [c], z);
    StripAppend(x + hint, [c]);
    StripAppend(x, hint);
  }

  lemma {:induction false} HeadTail(cur: string, t: string)
    requires t != []
    ensures cur + [t[0]] + t[1..] == cur + t
  {
  }

  lemma {:induction false} NoHintsTail(t: string)
    requires t != [] && NoHints(t)
    ensures NoHints(t[1..]) && !IsHint(t[0])
  {
    assert forall k :: 0 <= k < |t[1..]| ==> t[1..][k] == t[k + 1];
  }

  /** One step of the loop on a copied character, given the claim for the rest of the text. */
  lemma {:induction false} StripFormatCopied(t: string, cur: string, breaks: bool)
    requires AllNumChars(cur) && t != [] && !IsNumChar(t[0]) && !IsHint(t[0])
    requires cur != [] ==> RunKept(cur)
    requires Strip(Format(t[1..], [], breaks)) == t[1..]
    ensures Strip(Format(t, cur, breaks)) == cur + t
  {
    var hint: string := if breaks && IsOperatorGlyph(t[0]) then [ZeroWidthSpace] else [];
    var flushed, rest := Flush(cur), Format(t[1..], [], breaks);
    assert Format(t, cur, breaks) == flushed + hint + [t[0]] + rest;
    assert Strip(flushed) == cur by {
      if cur != [] {
        StripFormatNumber(cur);
      }
    }
    StripCopied(flushed, hint, t[0], rest);
    HeadTail(cur, t);
  }

  /** Stripping the hints from the loop's output gives the pending run and the rest of the text. */
  lemma {:induction false} StripFormat(t: string, cur: string, breaks: bool)
    requires AllNumChars(cur) && NoHints(t) && RunsKept(t, cur)
    ensures Strip(Format(t, cur, breaks)) == cur + t
    decreases |t|
  {
    if t == [] {
      if cur != [] {
        StripFormatNumber(cur);
      }
      assert cur + t == cur;
    } else {
      NoHintsTail(t);
      if IsNumChar(t[0]) {
        StripFormat(t[1..], cur + [t[0]], breaks);
        HeadTail(cur, t);
      } else {
        StripFormat(t[1..], [], breaks);
        StripFormatCopied(t, cur, breaks);
      }
    }
  }

  /** The input the display can give back: no hint characters, every number run kept intact. */
  predicate Displayable(text: string) {
    NoHints(text) && RunsKept(text, [])
  }

  /** Removing `,` and the zero-width spaces from the display gives back the typed text. */
  lemma {:induction false} DisplayRoundTrip(text: string)
    requires Displayable(text)
    ensures Strip(FormatWithBreaks(text)) == text
  {
    if text != [] {
      StripFormat(text, [], true);
    }
  }

  /** The same for the result formatter. */
  lemma {:induction false} CommasRoundTrip(text: string)
    requires Displayable(text) && text != ErrorText
    ensures Strip(FormatNumberWithCommas(text)) == text
  {
    if text != [] {
      StripFormat(text, [], false);
    }
  }

  /**
   * Each zero-width space stands right before an operator, and each operator right after one:
   * the text neither ends in a hint nor starts with an operator, and between neighbours a hint
   * comes first exactly when an operator comes second.
   */
  predicate HintsBeforeOperators(r: string) {
    (|r| > 0 ==> r[|r| - 1] != ZeroWidthSpace && !IsOperatorGlyph(r[0])) &&
    forall k :: 0 < k < |r| ==> (r[k - 1] == ZeroWidthSpace <==> IsOperatorGlyph(r[k]))
  }

  lemma {:induction false} HintsJoin(a: string, b: string)
    requires HintsBeforeOperators(a) && HintsBeforeOperators(b)
    requires b == [] || !IsOperatorGlyph(b[0])
    ensures HintsBeforeOperators(a + b)
  {
    var r := a + b;
    forall k | 0 < k < |r|
      ensures r[k - 1] == ZeroWidthSpace <==> IsOperatorGlyph(r[k])
    {
      if k < |a| {
        assert r[k - 1] == a[k - 1] && r[k] == a[k];
      } else if k == |a| {
        assert r[k - 1] == a[|a| - 1] && r[k] == b[0];
      } else {
        assert r[k - 1] == b[k - 1 - |a|] && r[k] == b[k - |a|];
      }
    }
    if |r| > 0 {
      if a != [] {
        assert r[0] == a[0];
      }
      if b != [] {
        assert r[|r| - 1] == b[|b| - 1];
      }
    }
  }

  /** The loop's output never starts with an operator: one is always preceded by its hint. */
  lemma {:induction false} FormatStart(t: string, cur: string)
    requires AllNumChars(cur)
    ensures var r := Format(t, cur, true); r == [] || !IsOperatorGlyph(r[0])
    decreases |t|
  {
    if t != [] && IsNumChar(t[0]) {
      FormatStart(t[1..], cur + [t[0]]);
    }
  }

  /** An optional hint and a copied character keep hints before operators. */
  lemma {:induction false} CopiedHints(c: char)
    requires c != ZeroWidthSpace
    ensures HintsBeforeOperators((if IsOperatorGlyph(c) then [ZeroWidthSpace] else []) + [c])
  {
    var piece := (if IsOperatorGlyph(c) then [ZeroWidthSpace] else []) + [c];
    if IsOperatorGlyph(c) {
      assert piece[0] == ZeroWidthSpace && piece[1] == c;
    }
  }

  /** One step of the loop on a copied character, given the claim for the rest of the text. */
  lemma {:induction false} FormatHintsCopied(t: string, cur: string)
    requires AllNumChars(cur) && t != [] && !IsNumChar(t[0]) && t[0] != ZeroWidthSpace
    requires var rest := Format(t[1..], [], true);
             HintsBeforeOperators(rest) && (rest == [] || !IsOperatorGlyph(rest[0]))
    ensures HintsBeforeOperators(Format(t, cur, true))
  {
    var piece := (if IsOperatorGlyph(t[0]) then [ZeroWidthSpace] else []) + [t[0]];
    var flushed, rest := Flush(cur), Format(t[1..], [], true);
    assert Format(t, cur, true) == flushed + piece + rest;
    FlushHints(cur);
    CopiedHints(t[0]);
    HintsJoin(flushed, piece);
    HintsJoin(flushed + piece, rest);
  }

  lemma {:induction false} FormatHints(t: string, cur: string)
    requires AllNumChars(cur) && ZeroWidthSpace !in t
    ensures HintsBeforeOperators(Format(t, cur, true))
    decreases |t|
  {
    if t == [] {
      FlushHints(cur);
    } else {
      assert ZeroWidthSpace !in t[1..] && t[0] != ZeroWidthSpace by {
        assert t == [t[0]] + t[1..];
      }
      if IsNumChar(t[0]) {
        FormatHints(t[1..], cur + [t[0]]);
      } else {
        FormatHints(t[1..], []);
        FormatStart(t[1..], []);
        FormatHintsCopied(t, cur);
      }
    }
  }

  /** With no zero-width space typed, the display has one exactly before each operator. */
  lemma {:induction false} BreakHintsPlaced(text: string)
    requires ZeroWidthSpace !in text
    ensures HintsBeforeOperators(FormatWithBreaks(text))
  {
    if text != [] {
      FormatHints(text, []);
    }
  }

  lemma {:induction false} FormatAddsNoBreaks(t: string, cur: string)
    requires AllNumChars(cur) && ZeroWidthSpace !in t
    ensures ZeroWidthSpace !in Format(t, cur, false)
    decreases |t|
  {
    if t == [] {
      FlushHints(cur);
    } else {
      assert ZeroWidthSpace !in t[1..] by {
        assert forall k :: 0 <= k < |t[1..]| ==> t[1..][k] == t[k + 1];
      }
      if IsNumChar(t[0]) {
        FormatAddsNoBreaks(t[1..], cur + [t[0]]);
      } else {
        FlushHints(cur);
        FormatAddsNoBreaks(t[1..], []);
        assert t[0] in t;
      }
    }
  }

  /** A flushed run holds digits, points and commas only: no hint, no operator. */
  lemma FlushHints(cur: string)
    requires AllNumChars(cur)
    ensures ZeroWidthSpace !in Flush(cur)
    ensures HintsBeforeOperators(Flush(cur))
  {
  }

  /** The result formatter never adds a line-break hint. */
  lemma {:induction false} ResultHasNoBreaks(text: string)
    requires ZeroWidthSpace !in text
    ensures ZeroWidthSpace !in FormatNumberWithCommas(text)
  {
    if text != [] && text != ErrorText {
      FormatAddsNoBreaks(text, []);
    }
  }

  // ---------------------------------------------------------------------------------------------
  // Offset mapping
  // ---------------------------------------------------------------------------------------------

  /**
   * The cursor position `p` in the display `f` for position `offset` in the typed text: the
   * scan stopped there (the end, or `offset` counted characters passed), and not before.
   */
  predicate MapsToDisplay(f: string, offset: int, p: int) {
    0 <= p <= |f| &&
    (p == |f| || Visible(f[..p]) >= offset) &&
    forall j :: 0 <= j < p ==> Visible(f[..j]) < offset
  }

  /** `originalToTransformed`: walk the display, skipping hints, until `offset` characters are passed. */
  method OriginalToTransformed(f: string, offset: int) returns (p: int)
    ensures MapsToDisplay(f, offset, p)
    ensures offset <= 0 ==> p == 0
    ensures 0 <= offset <= Visible(f) ==> Visible(f[..p]) == offset
  {
    var transformed := 0;
    var original := 0;
    while original < offset && transformed < |f|
      invariant 0 <= transformed <= |f|
      invariant original == Visible(f[..transformed])
      invariant forall j :: 0 <= j < transformed ==> Visible(f[..j]) < offset
      decreases |f| - transformed
    {
      VisibleStep(f, transformed);
      if f[transformed] == ZeroWidthSpace || f[transformed] == ',' {
        transformed := transformed + 1;
        continue;
      }
      original := original + 1;
      transformed := transformed + 1;
    }
    p := if transformed < |f| then transformed else |f|;
    if 0 <= offset <= Visible(f) {
      assert f[..|f|] == f;
      if p > 0 {
        VisibleStep(f, p - 1);
      }
    }
  }

  function Min(a: int, b: int): int {
    if a <= b then a else b
  }

  /** `transformedToOriginal`: the characters counted in the display before `offset`, at most `n`. */
  method TransformedToOriginal(f: string, n: nat, offset: int) returns (q: int)
    ensures 0 <= q <= n
    ensures offset <= 0 ==> q == 0
    ensures q == Min(Visible(f[..if offset <= 0 then 0 else Min(offset, |f|)]), n)
  {
    var original := 0;
    var transformed := 0;
    while transformed < offset && transformed < |f|
      invariant 0 <= transformed <= |f|
      invariant offset > 0 ==> transformed <= offset
      invariant offset <= 0 ==> transformed == 0
      invariant original == Visible(f[..transformed])
      decreases |f| - transformed
    {
      VisibleStep(f, transformed);
      if f[transformed] == ZeroWidthSpace || f[transformed] == ',' {
        transformed := transformed + 1;
        continue;
      }
      original := original + 1;
      transformed := transformed + 1;
    }
    q := Min(original, n);
  }

  /** A later typed position is never shown before an earlier one. */
  lemma {:induction false} ToDisplayMonotone(f: string, a: int, b: int, p: int, q: int)
    requires a <= b && MapsToDisplay(f, a, p) && MapsToDisplay(f, b, q)
    ensures p <= q
  {
  }

  /** A later display position never maps before an earlier one. */
  lemma {:induction false} ToOriginalMonotone(f: string, n: nat, a: nat, b: nat)
    requires a <= b <= |f|
    ensures Min(Visible(f[..a]), n) <= Min(Visible(f[..b]), n)
  {
    VisibleGrows(f, a, b);
  }

  /**
   * Mapping a typed position to the display and back gives it again, whenever the display's
   * counted characters are exactly the typed text's.
   */
  lemma {:induction false} OffsetRoundTrip(f: string, n: nat, k: int, p: int)
    requires Visible(f) == n && 0 <= k <= n && MapsToDisplay(f, k, p)
    ensures Min(Visible(f[..p]), n) == k
  {
    assert f[..|f|] == f;
    if p > 0 {
      VisibleStep(f, p - 1);
    }
  }

  /** For a displayable text the two mappings are inverse on every typed position. */
  lemma {:induction false} DisplayOffsetRoundTrip(text: string, k: int, p: int)
    requires Displayable(text) && 0 <= k <= |text|
    requires MapsToDisplay(FormatWithBreaks(text), k, p)
    ensures Min(Visible(FormatWithBreaks(text)[..p]), |text|) == k
  {
    DisplayRoundTrip(text);
    VisibleIsStripped(FormatWithBreaks(text));
    OffsetRoundTrip(FormatWithBreaks(text), |text|, k, p);
  }
}

=== FILE: editing.dfy ===
/**
 * Text-editing rules shared by the calculator editors: splicing text in at a cursor, the number
 * block around the cursor (the span the 15-character limit and the one-point rule look at), the
 * three-way parenthesis choice and the preview gate.
 */
module Editing {
  import opened Chars

  /** `MAX_NUMBER_LENGTH`: a number block may not grow past this many characters. */
  const MaxNumberLength: nat := 15

  /** The separators that bound a number block in the view model: `+ - × ÷ ( )`. */
  predicate IsBlockSeparator(c: char) {
    IsOperatorGlyph(c) || c == '(' || c == ')'
  }

  /** The selection screen's separators: the same plus the line break. */
  predicate IsScreenSeparator(c: char) {
    IsBlockSeparator(c) || c == Newline
  }

  /** `StringBuilder(e).insert(c, t)`: `t` placed at `c`, everything else kept in order. */
  function Splice(e: string, c: nat, t: string): (r: string)
    requires c <= |e|
    ensures |r| == |e| + |t|
  {
    e[..c] + t + e[c..]
  }

  /** `removeRange(i, j)` / `deleteCharAt`: the characters at `[i, j)` removed. */
  function RemoveRange(e: string, i: nat, j: nat): (r: string)
    requires i <= j <= |e|
    ensures |r| == |e| - (j - i)
    ensures r[..i] == e[..i] && r[i..] == e[j..]
  {
    e[..i] + e[j..]
  }

  /** Deleting what was just spliced in gives the text back. */
  lemma {:induction false} RemoveSplice(e: string, c: nat, t: string)
    requires c <= |e|
    ensures RemoveRange(Splice(e, c, t), c, c + |t|) == e
  {
    var r := Splice(e, c, t);
    assert r[..c] + r[c + |t|..] == e[..c] + e[c..];
    assert e[..c] + e[c..] == e;
  }

  /** Splicing back what was removed gives the text back. */
  lemma {:induction false} SpliceRemove(e: string, i: nat, j: nat)
    requires i <= j <= |e|
    ensures Splice(RemoveRange(e, i, j), i, e[i..j]) == e
  {
    var r := RemoveRange(e, i, j);
    assert r[..i] + e[i..j] + r[i..] == e[..i] + e[i..j] + e[j..];
    assert e[..i] + e[i..j] + e[j..] == e;
  }

  /**
   * The start of the number block: one past the last separator before the cursor
   * (`indexOfLast` on `take(c)`, or 0 when there is none).
   */
  function BlockStart(e: string, c: nat, isSep: char -> bool): (b: nat)
    requires c <= |e|
    ensures b <= c
    ensures b == 0 || isSep(e[b - 1])
    ensures forall k :: b <= k < c ==> !isSep(e[k])
    decreases c
  {
    if c == 0 || isSep(e[c - 1]) then c else BlockStart(e, c - 1, isSep)
  }

  /**
   * The end of the number block: the first separator at or after the cursor (`indexOfFirst`
   * on `drop(c)`, or the length when there is none).
   */
  function BlockEnd(e: string, c: nat, isSep: char -> bool): (b: nat)
    requires c <= |e|
    ensures c <= b <= |e|
    ensures b == |e| || isSep(e[b])
    ensures forall k :: c <= k < b ==> !isSep(e[k])
    decreases |e| - c
  {
    if c == |e| || isSep(e[c]) then c else BlockEnd(e, c + 1, isSep)
  }

  /** `getCurrentNumberBlock`: the separator-free span of `e` that contains the cursor. */
  function NumberBlock(e: string, c: nat, isSep: char -> bool): (r: string)
    requires c <= |e|
    ensures |r| <= |e|
    ensures var a := BlockStart(e, c, isSep);
            a <= c <= a + |r| && IsBlockSpan(e, a, a + |r|, isSep) && r == e[a..a + |r|]
  {
    e[BlockStart(e, c, isSep)..BlockEnd(e, c, isSep)]
  }

  /** `[a, b)` holds no separator and is bounded by separators or the ends of `e`. */
  predicate IsBlockSpan(e: string, a: nat, b: nat, isSep: char -> bool) {
    && a <= b <= |e|
    && (a == 0 || isSep(e[a - 1]))
    && (b == |e| || isSep(e[b]))
    && forall k :: a <= k < b ==> !isSep(e[k])
  }

  /**
   * The number block is THE maximal separator-free span around the cursor: any span `[a, b)`
   * that contains `c`, holds no separator and is bounded by separators or the ends is it.
   */
  lemma {:induction false} BlockIsMaximalSpan(e: string, c: nat, isSep: char -> bool, a: nat, b: nat)
    requires a <= c <= b && IsBlockSpan(e, a, b, isSep)
    ensures BlockStart(e, c, isSep) == a && BlockEnd(e, c, isSep) == b
    ensures NumberBlock(e, c, isSep) == e[a..b]
  {
  }

  /** The block is the text between its start and its end. */
  lemma {:induction false} BlockBetween(e: string, c: nat, isSep: char -> bool, a: nat, b: nat)
    requires c <= |e| && BlockStart(e, c, isSep) == a && BlockEnd(e, c, isSep) == b
    ensures a <= b <= |e| && NumberBlock(e, c, isSep) == e[a..b]
  {
  }

  /** Where each character of a spliced text comes from. */
  lemma {:induction false} SpliceAt(e: string, c: nat, t: string, k: nat)
    requires c <= |e| && k < |e| + |t|
    ensures Splice(e, c, t)[k] == if k < c then e[k] else if k < c + |t| then t[k - c] else e[k - |t|]
  {
  }

  /**
   * Splicing separator-free text in at the cursor grows the number block around the new cursor
   * by exactly that text, at the cursor's place in the block.
   */
  lemma {:induction false} SpliceGrowsBlock(e: string, c: nat, t: string, isSep: char -> bool)
    requires c <= |e|
    requires forall k :: 0 <= k < |t| ==> !isSep(t[k])
    ensures NumberBlock(Splice(e, c, t), c + |t|, isSep) ==
              e[BlockStart(e, c, isSep)..c] + t + e[c..BlockEnd(e, c, isSep)]
  {
    var a := BlockStart(e, c, isSep);
    var b := BlockEnd(e, c, isSep);
    SpliceBlockIs(e, c, t, isSep);
    BlockBetween(Splice(e, c, t), c + |t|, isSep, a, b + |t|);
    SpliceSlice(e, c, t, a, b);
  }

  /** After the splice the block around the new cursor is the old block's span, widened by `|t|`. */
  lemma {:induction false} SpliceBlockIs(e: string, c: nat, t: string, isSep: char -> bool)
    requires c <= |e|
    requires forall k :: 0 <= k < |t| ==> !isSep(t[k])
    ensures BlockStart(Splice(e, c, t), c + |t|, isSep) == BlockStart(e, c, isSep)
    ensures BlockEnd(Splice(e, c, t), c + |t|, isSep) == BlockEnd(e, c, isSep) + |t|
  {
    var a := BlockStart(e, c, isSep);
    var b := BlockEnd(e, c, isSep);
    var r := Splice(e, c, t);
    if a > 0 {
      SpliceAt(e, c, t, a - 1);
    }
    if b < |e| {
      SpliceAt(e, c, t, b + |t|);
    }
    forall k | a <= k < b + |t|
      ensures !isSep(r[k])
    {
      SpliceAt(e, c, t, k);
    }
    BlockIsMaximalSpan(r, c + |t|, isSep, a, b + |t|);
  }

  /** A slice of a spliced text around the splice point. */
  lemma {:induction false} SpliceSlice(e: string, c: nat, t: string, a: nat, b: nat)
    requires a <= c <= b <= |e|
    ensures Splice(e, c, t)[a..b + |t|] == e[a..c] + t + e[c..b]
  {
    var r := Splice(e, c, t);
    assert r[a..b + |t|] == r[a..c] + r[c..c + |t|] + r[c + |t|..b + |t|];
    assert r[a..c] == r[..c][a..];
    assert r[c + |t|..b + |t|] == r[c + |t|..][..b - c];
    assert e[c..b] == e[c..][..b - c];
    assert e[a..c] == e[..c][a..];
  }

  /** The same, stated on lengths: the block grows by `|t|`. */
  lemma {:induction false} SpliceBlockLength(e: string, c: nat, t: string, isSep: char -> bool)
    requires c <= |e|
    requires forall k :: 0 <= k < |t| ==> !isSep(t[k])
    ensures |NumberBlock(Splice(e, c, t), c + |t|, isSep)| == |NumberBlock(e, c, isSep)| + |t|
  {
    SpliceGrowsBlock(e, c, t, isSep);
  }

  /** Counting one character: the block gains exactly the occurrences in `t`. */
  lemma {:induction false} SpliceBlockCount(e: string, c: nat, t: string, isSep: char -> bool, x: char)
    requires c <= |e|
    requires forall k :: 0 <= k < |t| ==> !isSep(t[k])
    ensures Count(NumberBlock(Splice(e, c, t), c + |t|, isSep), x) == Count(NumberBlock(e, c, isSep), x) + Count(t, x)
  {
    var a, b := BlockStart(e, c, isSep), BlockEnd(e, c, isSep);
    SpliceGrowsBlock(e, c, t, isSep);
    assert e[a..b] == e[a..c] + e[c..b];
    CountAppend(e[a..c], e[c..b], x);
    CountAppend(e[a..c] + t, e[c..b], x);
    CountAppend(e[a..c], t, x);
  }

  /** A character after which a `(` implies multiplication and a `)` may close: a digit or `)`. */
  predicate EndsOperand(c: char) {
    IsDigit(c) || c == ')'
  }

  /**
   * The parenthesis rule of the editors: `)` when more `(` than `)` are open and the character
   * before the cursor ends an operand, `×(` when it ends an operand and nothing is open, `(`
   * otherwise.
   */
  function ParenthesisToInsert(e: string, c: nat): (r: string)
    requires c <= |e|
    ensures r == ")" <==> Count(e, '(') > Count(e, ')') && c > 0 && EndsOperand(e[c - 1])
    ensures r == [Times, '('] <==> Count(e, '(') <= Count(e, ')') && c > 0 && EndsOperand(e[c - 1])
    ensures r == "(" <==> c == 0 || !EndsOperand(e[c - 1])
  {
    if Count(e, '(') > Count(e, ')') && c > 0 && EndsOperand(e[c - 1]) then ")"
    else if c > 0 && EndsOperand(e[c - 1]) then [Times, '(']
    else "("
  }

  /** Parentheses are balanced-so-far: no more `)` than `(`. */
  predicate ClosesCovered(e: string) {
    Count(e, ')') <= Count(e, '(')
  }

  /**
   * The parenthesis rule never closes more than it opened: splicing its choice in at the cursor
   * keeps the count of `)` at most that of `(`.
   */
  lemma {:induction false} ParenthesisKeepsCover(e: string, c: nat)
    requires c <= |e| && ClosesCovered(e)
    ensures ClosesCovered(Splice(e, c, ParenthesisToInsert(e, c)))
  {
    var t := ParenthesisToInsert(e, c);
    SpliceCount(e, c, t, '(');
    SpliceCount(e, c, t, ')');
    if t == ")" {
      assert Count(t, ')') == 1 && Count(t, '(') == 0;
    } else if t == "(" {
      assert Count(t, ')') == 0 && Count(t, '(') == 1;
    } else {
      assert t == [Times, '('];
      assert t[1..] == "(";
      assert Count(t, ')') == 0 && Count(t, '(') == 1;
    }
  }

  /** Splicing adds the spliced text's occurrences to the count. */
  lemma {:induction false} SpliceCount(e: string, c: nat, t: string, x: char)
    requires c <= |e|
    ensures Count(Splice(e, c, t), x) == Count(e, x) + Count(t, x)
  {
    CountAppend(e[..c] + t, e[c..], x);
    CountAppend(e[..c], t, x);
    CountAppend(e[..c], e[c..], x);
    assert e[..c] + e[c..] == e;
  }

  /** The text the engine answers with when it cannot compute. */
  const ErrorText: string := "Error"

  /** `expression.startsWith("-")` with exactly one operator: a lone negative number. */
  predicate IsJustNegativeNumber(e: string) {
    |e| > 0 && e[0] == '-' && CountOperators(e) == 1
  }

  /**
   * The preview gate: something to show only when the text has an operator, does not end in
   * one, and is not a lone negative number.
   */
  predicate PreviewGate(e: string) {
    |e| > 0 && CountOperators(e) > 0 && !IsOperatorGlyph(e[|e| - 1]) && !IsJustNegativeNumber(e)
  }

  /**
   * `calculatePreview`: the engine's result behind the gate, with the error text shown as nothing.
   * The engine is a parameter.
   */
  function Preview(e: string, engine: string -> string): (r: string)
    ensures r != ErrorText
    ensures r != "" ==> PreviewGate(e) && r == engine(e)
    ensures PreviewGate(e) && engine(e) != ErrorText ==> r == engine(e)
  {
    if !PreviewGate(e) then ""
    else
      var result := engine(e);
      if result == ErrorText then "" else result
  }

  /** Text without any operator glyph never shows a preview, whatever the engine says. */
  lemma {:induction false} NoOperatorNoPreview(e: string, engine: string -> string)
    requires forall i :: 0 <= i < |e| ==> !IsOperatorGlyph(e[i])
    ensures Preview(e, engine) == ""
  {
    NoOperatorsCounted(e);
  }

  /** Text ending in an operator glyph never shows a preview. */
  lemma {:induction false} TrailingOperatorNoPreview(e: string, engine: string -> string)
    requires |e| > 0 && IsOperatorGlyph(e[|e| - 1])
    ensures Preview(e, engine) == ""
  {
  }
}

=== FILE: engine.dfy ===
/**
 * `CalculatorEngine.calculate`: normalise, drop one trailing operator, parse, evaluate, and pick
 * a display form. Every exception of the source (an unexpected character, a malformed number,
 * leftover input) is one `Failure` of the parser here, and `calculate`'s catch-all turns it into
 * the text "Error". Digit rendering by `String.format` is a parameter (`Renderer`); the choice of
 * form and the string edits around the rendering are modelled.
 */
module Engine {
  import opened Wrappers
  import opened Chars
  import opened Numeric
  import opened Parser
  import opened Printer
  import opened Normalization

  // ---------------------------------------------------------------------------------------------
  // Number literals (`String.toDouble` on a run of digits and points)
  // ---------------------------------------------------------------------------------------------

  /** `m` divided by ten `k` times. */
  function Shift(m: real, k: nat): (r: real)
    ensures m >= 0.0 ==> r >= 0.0
  {
    if k == 0 then m else Shift(m, k - 1) / 10.0
  }

  lemma {:induction false} ShiftScales(m: real, k: nat)
    ensures Shift(10.0 * m, k) == 10.0 * Shift(m, k)
  {
    if k > 0 {
      ShiftScales(m, k - 1);
    }
  }

  function DigitValue(c: char): real
    requires IsDigit(c)
  {
    (c as int - '0' as int) as real
  }

  /** All digits of `l` read as one whole number, points skipped. */
  function Mantissa(l: string): (m: real)
    ensures m >= 0.0
    decreases |l|
  {
    if l == [] then 0.0
    else
      var c := l[|l| - 1];
      if IsDigit(c) then 10.0 * Mantissa(l[..|l| - 1]) + DigitValue(c) else Mantissa(l[..|l| - 1])
  }

  /** The number of characters after the point (0 when there is none). */
  function FractionLength(l: string): nat
    decreases |l|
  {
    if l == [] || '.' !in l || l[|l| - 1] == '.' then 0 else 1 + FractionLength(l[..|l| - 1])
  }

  /**
   * The exact value of a literal; `Double` rounding is not modelled. A literal never denotes a
   * negative number: a sign is a factor of its own.
   */
  function LiteralValue(l: string): (v: real)
    ensures v >= 0.0
  {
    Shift(Mantissa(l), FractionLength(l))
  }

  /** A zero after the point does not change a literal's value (`1.50` is `1.5`). */
  lemma TrailingZeroAfterPoint(l: string)
    requires '.' in l
    ensures LiteralValue(l + "0") == LiteralValue(l)
  {
    var l0 := l + "0";
    assert l0[..|l0| - 1] == l;
    assert l0[|l0| - 1] == '0';
    assert '.' in l0 by {
      var i :| 0 <= i < |l| && l[i] == '.';
      assert l0[i] == '.';
    }
    var m := Mantissa(l);
    assert Mantissa(l0) == 10.0 * m;
    ShiftScales(m, FractionLength(l));
  }

  /** Without a point a literal is the integer its digits spell. */
  lemma {:induction false} WholeLiteral(l: string)
    requires '.' !in l
    ensures LiteralValue(l) == Mantissa(l)
  {
  }

  // ---------------------------------------------------------------------------------------------
  // Evaluation
  // ---------------------------------------------------------------------------------------------

  /**
   * The fold `eval` performs while parsing, over `Double`; `EvalAgreesWithExact` relates it to
   * exact arithmetic.
   */
  function Eval(e: Expr): Value {
    match e
    case Num(l) => Fin(LiteralValue(l))
    case Neg(x) => Numeric.Neg(Eval(x))
    case Add(a, b) => Numeric.Add(Eval(a), Eval(b))
    case Sub(a, b) => Numeric.Sub(Eval(a), Eval(b))
    case Mul(a, b) => Numeric.Mul(Eval(a), Eval(b))
    case Div(a, b) => Numeric.Div(Eval(a), Eval(b))
  }

  /** Exact product, kept behind a name so that the solver expands it only where it is used. */
  function Product(x: real, y: real): real {
    x * y
  }

  /** Exact division, kept behind a name so that the solver expands it only where it is used. */
  function Quotient(x: real, y: real): real
    requires y != 0.0
  {
    x / y
  }

  /** Reference semantics in exact arithmetic; `None` when some divisor is zero. */
  function Exact(e: Expr): Option<real> {
    match e
    case Num(l) => Some(LiteralValue(l))
    case Neg(x) => if Exact(x).Some? then Some(-Exact(x).value) else None
    case Add(a, b) =>
      if Exact(a).Some? && Exact(b).Some? then Some(Exact(a).value + Exact(b).value) else None
    case Sub(a, b) =>
      if Exact(a).Some? && Exact(b).Some? then Some(Exact(a).value - Exact(b).value) else None
    case Mul(a, b) =>
      if Exact(a).Some? && Exact(b).Some? then Some(Product(Exact(a).value, Exact(b).value)) else None
    case Div(a, b) =>
      if Exact(a).Some? && Exact(b).Some? && Exact(b).value != 0.0 then Some(Quotient(Exact(a).value, Exact(b).value))
      else None
  }

  /**
   * Whenever exact arithmetic never divides by zero, the engine's value is finite and equal to
   * the exact value (up to the sign of a zero).
   */
  lemma {:induction false} EvalAgreesWithExact(e: Expr)
    requires Exact(e).Some?
    ensures Eval(e).IsFinite() && Eval(e).Real() == Exact(e).value
  {
    match e
    case Num(l) =>
    case Neg(x) =>
      EvalAgreesWithExact(x);
    case Add(a, b) =>
      EvalAgreesWithExact(a);
      EvalAgreesWithExact(b);
    case Sub(a, b) =>
      EvalAgreesWithExact(a);
      EvalAgreesWithExact(b);
    case Mul(a, b) =>
      EvalAgreesWithExact(a);
      EvalAgreesWithExact(b);
      MulAgrees(Eval(a), Eval(b), Exact(a).value, Exact(b).value);
    case Div(a, b) =>
      EvalAgreesWithExact(a);
      EvalAgreesWithExact(b);
      DivAgrees(Eval(a), Eval(b), Exact(a).value, Exact(b).value);
  }

  lemma MulAgrees(u: Value, v: Value, x: real, y: real)
    requires u.IsFinite() && u.Real() == x && v.IsFinite() && v.Real() == y
    ensures Numeric.Mul(u, v).IsFinite() && Numeric.Mul(u, v).Real() == Product(x, y)
  {
  }

  lemma DivAgrees(u: Value, v: Value, x: real, y: real)
    requires u.IsFinite() && u.Real() == x && v.IsFinite() && v.Real() == y && y != 0.0
    ensures Numeric.Div(u, v).IsFinite() && Numeric.Div(u, v).Real() == Quotient(x, y)
  {
  }

  /** A non-zero value divided by an exact zero is an infinity, not an error. */
  lemma DivisionByZeroIsInfinite(a: Expr, b: Expr)
    requires Exact(a).Some? && Exact(a).value != 0.0 && Exact(b) == Some(0.0)
    ensures Eval(Div(a, b)).Inf?
  {
    EvalAgreesWithExact(a);
    EvalAgreesWithExact(b);
  }

  /** Zero divided by an exact zero is NaN, not an error. */
  lemma ZeroOverZeroIsNaN(a: Expr, b: Expr)
    requires Exact(a) == Some(0.0) && Exact(b) == Some(0.0)
    ensures Eval(Div(a, b)).NaN?
  {
    EvalAgreesWithExact(a);
    EvalAgreesWithExact(b);
  }

  // ---------------------------------------------------------------------------------------------
  // The pipeline of `calculate`
  // ---------------------------------------------------------------------------------------------

  /** The class `[+\-*\/]` of the trailing-operator test. */
  predicate IsArithmetic(c: char) {
    c == '+' || c == '-' || c == '*' || c == '/'
  }

  /** Drop the last character when it is one of `+ - * /`; only one is dropped. */
  function DropTrailingOperator(s: string): (r: string)
    ensures r <= s && |s| - 1 <= |r|
    ensures |r| < |s| <==> |s| > 0 && IsArithmetic(s[|s| - 1])
  {
    if |s| > 0 && IsArithmetic(s[|s| - 1]) then DropLast(s) else s
  }

  /** Where `calculate` ends up before rendering. */
  datatype Outcome =
    | Blank                           // the normalised input is empty: "0"
    | Failed(message: string)         // an exception reached the catch-all: "Error"
    | Computed(value: Value, form: Form)

  function Evaluate(expression: string): (o: Outcome)
    ensures o.Blank? <==> Normalize(expression) == []
    ensures o.Computed? ==> o.form == ChooseForm(o.value)
    ensures o.Computed? <==>
              Normalize(expression) != [] && Parse(DropTrailingOperator(Normalize(expression))).Success?
  {
    var normalized := Normalize(expression);
    if normalized == [] then Blank
    else
      match Parse(DropTrailingOperator(normalized))
      case Failure(m) => Failed(m)
      case Success(e) =>
        var v := Eval(e);
        Computed(v, ChooseForm(v))
  }

  /** `String.format` for the three forms: `%.10E`, `%.0f` and `%.10f` (Locale.US). */
  type Renderer = (Form, Value) -> string

  /** `trimEnd(c)`: drop every trailing `c`. */
  function TrimEnd(t: string, c: char): (r: string)
    ensures r <= t
    ensures r == [] || r[|r| - 1] != c
    ensures forall i :: |r| <= i < |t| ==> t[i] == c
    decreases |t|
  {
    if t != [] && t[|t| - 1] == c then TrimEnd(DropLast(t), c) else t
  }

  /** `trimEnd('0').trimEnd('.')` of the fixed-decimal form. */
  function TrimDecimal(t: string): (r: string)
    ensures r <= t
    ensures r == [] || r[|r| - 1] != '.'
    ensures forall i :: |r| <= i < |t| ==> t[i] == '0' || t[i] == '.'
  {
    TrimEnd(TrimEnd(t, '0'), '.')
  }

  /**
   * Trimming a fixed-decimal text `i.f` never reaches the integer part `i` (which ends in a
   * digit): the result is `i` followed by the fraction without its trailing zeros, and without
   * the point when nothing of the fraction is left.
   */
  lemma {:induction false} TrimDecimalKeepsInteger(i: string, f: string)
    requires |i| > 0 && IsDigit(i[|i| - 1])
    requires forall k :: 0 <= k < |f| ==> IsDigit(f[k])
    ensures var g := TrimEnd(f, '0');
            TrimDecimal(i + "." + f) == if g == [] then i else i + "." + g
  {
    var g := TrimEnd(f, '0');
    TrimZerosAfter(i + ".", f);
    var t := i + "." + g;
    assert TrimDecimal(i + "." + f) == TrimEnd(t, '.');
    if g == [] {
      assert t == i + ".";
      PointDropped(i);
    } else {
      assert t[|t| - 1] == g[|g| - 1] == f[|g| - 1];
      TrimEndStops(t, '.');
    }
  }

  /** A point left bare after trimming goes too, and the digit before it stops the trim. */
  lemma {:induction false} PointDropped(i: string)
    requires |i| > 0 && IsDigit(i[|i| - 1])
    ensures TrimEnd(i + ".", '.') == i
  {
    var t := i + ".";
    assert t[|t| - 1] == '.';
    assert DropLast(t) == i;
    TrimEndStops(i, '.');
  }

  /** `trimEnd` leaves a text alone when it does not end in the trimmed character. */
  lemma {:induction false} TrimEndStops(t: string, c: char)
    requires t == [] || t[|t| - 1] != c
    ensures TrimEnd(t, c) == t
  {
  }

  /** Trimming zeros off `p + f` stops inside `f` when `p` ends in something other than `0`. */
  lemma {:induction false} TrimZerosAfter(p: string, f: string)
    requires |p| > 0 && p[|p| - 1] != '0'
    ensures TrimEnd(p + f, '0') == p + TrimEnd(f, '0')
    decreases |f|
  {
    if f == [] {
      assert p + f == p;
    } else if f[|f| - 1] == '0' {
      assert DropLast(p + f) == p + DropLast(f);
      TrimZerosAfter(p, DropLast(f));
    } else {
      assert (p + f)[|p + f| - 1] == f[|f| - 1];
    }
  }

  /**
   * The text of a computed result in its form: the scientific text with any decimal comma turned
   * into a point, the whole text as rendered, the fixed-decimal text with its trailing zeros and
   * bare point trimmed.
   */
  function Display(form: Form, v: Value, render: Renderer): (r: string)
    ensures form == Scientific ==> |r| == |render(Scientific, v)| && ',' !in r
    ensures form == Scientific ==>
              forall i :: 0 <= i < |r| && render(Scientific, v)[i] != ',' ==> r[i] == render(Scientific, v)[i]
    ensures form == Whole ==> r == render(Whole, v)
    ensures form == Decimal ==> r <= render(Decimal, v) && (r == [] || r[|r| - 1] != '.')
  {
    match form
    case Scientific => ReplaceChar(render(Scientific, v), ',', '.')
    case Whole => render(Whole, v)
    case Decimal => TrimDecimal(render(Decimal, v))
  }

  /**
   * `calculate`: "0" for blank input, "Error" for anything the parser rejects (the one catch
   * point), and otherwise the value in the form `ChooseForm` picks.
   */
  function Calculate(expression: string, render: Renderer): (r: string)
    ensures Normalize(expression) == [] ==> r == "0"
    ensures Evaluate(expression).Failed? ==> r == "Error"
    ensures Evaluate(expression).Computed? ==>
              r == Display(ChooseForm(Evaluate(expression).value), Evaluate(expression).value, render)
  {
    match Evaluate(expression)
    case Blank => "0"
    case Failed(_) => "Error"
    case Computed(v, f) => Display(f, v, render)
  }

  // ---------------------------------------------------------------------------------------------
  // The engine on printed expressions
  // ---------------------------------------------------------------------------------------------

  /** Every character of `w` is left alone by normalisation. */
  predicate KeptText(w: string) {
    forall i :: 0 <= i < |w| ==> IsKept(w[i])
  }

  lemma KeptConcat(u: string, v: string)
    requires KeptText(u) && KeptText(v)
    ensures KeptText(u + v)
  {
    forall i | 0 <= i < |u + v|
      ensures IsKept((u + v)[i])
    {
      if i < |u| {
        assert (u + v)[i] == u[i];
      } else {
        assert (u + v)[i] == v[i - |u|];
      }
    }
  }

  /** A printed literal, and so a printed tree, has only digits, points, operators and parentheses. */
  lemma {:induction false} ExprPrintsKept(e: Expr)
    requires WellFormed(e)
    ensures KeptText(PrintExpr(e))
    decreases e, Rank(e, ExprLevel)
  {
    match e
    case Add(a, b) => ExprPrintsKept(a); TermPrintsKept(b); KeptConcat(PrintExpr(a), "+"); KeptConcat(PrintExpr(a) + "+", PrintTerm(b));
    case Sub(a, b) => ExprPrintsKept(a); TermPrintsKept(b); KeptConcat(PrintExpr(a), "-"); KeptConcat(PrintExpr(a) + "-", PrintTerm(b));
    case _ => assert Rank(e, ExprLevel) > Rank(e, TermLevel); TermPrintsKept(e);
  }

  lemma {:induction false} TermPrintsKept(e: Expr)
    requires WellFormed(e)
    ensures KeptText(PrintTerm(e))
    decreases e, Rank(e, TermLevel)
  {
    match e
    case Mul(a, b) => TermPrintsKept(a); FactorPrintsKept(b); KeptConcat(PrintTerm(a), "*"); KeptConcat(PrintTerm(a) + "*", PrintFactor(b));
    case Div(a, b) => TermPrintsKept(a); FactorPrintsKept(b); KeptConcat(PrintTerm(a), "/"); KeptConcat(PrintTerm(a) + "/", PrintFactor(b));
    case _ => assert Rank(e, TermLevel) > Rank(e, FactorLevel); FactorPrintsKept(e);
  }

  lemma {:induction false} FactorPrintsKept(e: Expr)
    requires WellFormed(e)
    ensures KeptText(PrintFactor(e))
    decreases e, Rank(e, FactorLevel)
  {
    match e
    case Num(l) =>
    case Neg(x) => FactorPrintsKept(x); KeptConcat("-", PrintFactor(x));
    case _ =>
      assert Rank(e, FactorLevel) > Rank(e, ExprLevel);
      ExprPrintsKept(e);
      KeptConcat("(", PrintExpr(e));
      KeptConcat("(" + PrintExpr(e), ")");
  }

  /** The last character of a non-empty text. */
  function Last(w: string): char
    requires |w| > 0
  {
    w[|w| - 1]
  }

  /** A printed factor is non-empty and ends in a digit, a point or `)`. */
  lemma {:induction false} FactorPrintEnds(e: Expr)
    requires WellFormed(e)
    ensures |PrintFactor(e)| > 0 && (IsNumChar(Last(PrintFactor(e))) || Last(PrintFactor(e)) == ')')
  {
    match e
    case Num(l) =>
    case Neg(x) =>
      FactorPrintEnds(x);
      assert Last(PrintFactor(e)) == Last(PrintFactor(x));
    case _ =>
  }

  /** So is every printed expression, since it ends with a printed factor. */
  lemma {:induction false} ExprPrintEnds(e: Expr)
    requires WellFormed(e)
    ensures |PrintExpr(e)| > 0 && (IsNumChar(Last(PrintExpr(e))) || Last(PrintExpr(e)) == ')')
    decreases e, Rank(e, ExprLevel)
  {
    match e
    case Add(a, b) => TermPrintEnds(b); assert Last(PrintExpr(e)) == Last(PrintTerm(b));
    case Sub(a, b) => TermPrintEnds(b); assert Last(PrintExpr(e)) == Last(PrintTerm(b));
    case _ => assert Rank(e, ExprLevel) > Rank(e, TermLevel); TermPrintEnds(e);
  }

  lemma {:induction false} TermPrintEnds(e: Expr)
    requires WellFormed(e)
    ensures |PrintTerm(e)| > 0 && (IsNumChar(Last(PrintTerm(e))) || Last(PrintTerm(e)) == ')')
    decreases e, Rank(e, TermLevel)
  {
    match e
    case Mul(a, b) => FactorPrintEnds(b); assert Last(PrintTerm(e)) == Last(PrintFactor(b));
    case Div(a, b) => FactorPrintEnds(b); assert Last(PrintTerm(e)) == Last(PrintFactor(b));
    case _ => FactorPrintEnds(e);
  }

  /**
   * Any keypad text that normalises to a printed expression is computed to that expression's
   * value, in the form `ChooseForm` picks: normalisation, the trailing-operator drop and the
   * parser together recover the tree.
   */
  lemma {:induction false} EvaluatePrinted(expression: string, e: Expr)
    requires WellFormed(e) && Normalize(expression) == PrintExpr(e)
    ensures Evaluate(expression) == Computed(Eval(e), ChooseForm(Eval(e)))
  {
    ExprPrintEnds(e);
    assert DropTrailingOperator(PrintExpr(e)) == PrintExpr(e);
    ParsePrintRoundTrip(e);
  }

  /** A printed expression is already normal, so it is computed to its own value. */
  lemma {:induction false} EvaluatePrintExpr(e: Expr)
    requires WellFormed(e)
    ensures Evaluate(PrintExpr(e)) == Computed(Eval(e), ChooseForm(Eval(e)))
  {
    ExprPrintsKept(e);
    NormalizeKeeps(PrintExpr(e));
    EvaluatePrinted(PrintExpr(e), e);
  }

  /** A factor that spans the whole text is the whole parse. */
  lemma {:induction false} WholeFactorParses(s: string, e: Expr)
    requires ParsesFactor(s, 0, e, |s|)
    ensures Parse(s) == Success(e)
  {
    TermAfterFactor(s, 0, e, |s|);
    TermTailAtOther(s, e, |s|);
    ExpressionAfterTerm(s, 0, e, |s|);
    ExpressionTailAtOther(s, e, |s|);
  }

  /** A printed expression in one more pair of parentheses parses as the expression itself. */
  lemma {:induction false} WrappedParses(e: Expr, s: string)
    requires WellFormed(e) && s == "(" + PrintExpr(e) + ")"
    ensures Parse(s) == Success(e)
  {
    var p := PrintExpr(e);
    AtSuffix(s, 0);
    assert s[0..] == s;
    AtSplit(s, 0, "(" + p, ")");
    assert s[1 + |p|] == ')';
    ParseParenthesised(e, s, 0);
    WholeFactorParses(s, e);
  }

  /** Redundant parentheses keep the value: a printed expression computes as it does in a group. */
  lemma {:induction false} ParenthesesKeepValue(e: Expr)
    requires WellFormed(e)
    ensures Evaluate("(" + PrintExpr(e) + ")") == Evaluate(PrintExpr(e))
  {
    var p := PrintExpr(e);
    var s := "(" + p + ")";
    ExprPrintsKept(e);
    KeptConcat("(", p);
    KeptConcat("(" + p, ")");
    NormalizeKeeps(s);
    assert DropTrailingOperator(s) == s by {
      assert s[|s| - 1] == ')';
    }
    WrappedParses(e, s);
    EvaluatePrintExpr(e);
  }

  /** Normalising a kept text followed by one operator key leaves the text and an operator to drop. */
  lemma {:induction false} KeptThenOperator(s: string, op: char)
    requires KeptText(s)
    requires IsArithmetic(op) || op == Times || op == Divide || op == UnicodeMinus
    ensures Normalize(s + [op]) != [] && DropTrailingOperator(Normalize(s + [op])) == s
  {
    NormalizeKeeps(s);
    NormalizeAppend(s, [op]);
    NormalizeOne(op);
    var o := NormalizeChar(op);
    assert |o| == 1 && IsArithmetic(o[0]);
    var n := s + o;
    assert n[|n| - 1] == o[0];
    assert DropLast(n) == s;
  }

  /** An operator key after a complete expression is ignored: `10+` computes as `10`. */
  lemma {:induction false} TrailingOperatorIgnored(e: Expr, op: char)
    requires WellFormed(e)
    requires IsArithmetic(op) || op == Times || op == Divide || op == UnicodeMinus
    ensures Evaluate(PrintExpr(e) + [op]) == Evaluate(PrintExpr(e))
  {
    ExprPrintsKept(e);
    KeptThenOperator(PrintExpr(e), op);
    ParsePrintRoundTrip(e);
    EvaluatePrintExpr(e);
  }

  /** Blank input (spaces and line breaks only, or nothing) is "0" whatever the renderer. */
  lemma BlankIsZero(expression: string, render: Renderer)
    requires forall i :: 0 <= i < |expression| ==> expression[i] == ' ' || expression[i] == Newline
    ensures Calculate(expression, render) == "0"
  {
    BlankNormalizesToEmpty(expression);
  }
}

=== FILE: engine_examples.dfy ===
/**
 * The engine's documented cases, at the level the model fixes: the value and display form a
 * keypad text computes to, or the catch-all "Error"/"0" where no rendering is involved.
 */
module EngineExamples {
  import opened Wrappers
  import opened Chars
  import opened Numeric
  import opened Parser
  import opened Printer
  import opened Normalization
  import opened Engine

  /** A printed tree whose exact value is a non-zero `v` computes to `Fin(v)`. */
  lemma Computes(e: Expr, text: string, v: real)
    requires WellFormed(e) && PrintExpr(e) == text && Exact(e) == Some(v) && v != 0.0
    ensures Evaluate(text) == Computed(Fin(v), ChooseForm(Fin(v)))
  {
    EvalAgreesWithExact(e);
    EvaluatePrintExpr(e);
  }

  /** The same for keypad text that normalises to the printed tree. */
  lemma KeypadComputes(e: Expr, text: string, v: real)
    requires WellFormed(e) && Normalize(text) == PrintExpr(e) && Exact(e) == Some(v) && v != 0.0
    ensures Evaluate(text) == Computed(Fin(v), ChooseForm(Fin(v)))
  {
    EvalAgreesWithExact(e);
    EvaluatePrinted(text, e);
  }

  lemma AddsLeftToRight()
    ensures Evaluate("1+2") == Computed(Fin(3.0), Whole)
  {
    var e := Parser.Add(Num("1"), Num("2"));
    assert PrintExpr(e) == "1+2";
    assert Exact(e) == Some(3.0);
    Computes(e, "1+2", 3.0);
  }

  lemma Subtracts()
    ensures Evaluate("10-3") == Computed(Fin(7.0), Whole)
  {
    var e := Parser.Sub(Num("10"), Num("3"));
    assert PrintExpr(e) == "10-3";
    Ten();
    assert Exact(e) == Some(7.0);
    Computes(e, "10-3", 7.0);
  }

  /** The keypad's `×` is read as `*`. */
  lemma MultipliesKeypadGlyph()
    ensures Evaluate("4" + [Times] + "5") == Computed(Fin(20.0), Whole)
  {
    var e := Parser.Mul(Num("4"), Num("5"));
    assert PrintExpr(e) == "4*5";
    KeypadOperator("4", Times, "5");
    assert Exact(e) == Some(20.0);
    KeypadComputes(e, "4" + [Times] + "5", 20.0);
  }

  /** The keypad's `÷` is read as `/`; a non-whole quotient takes the decimal form. */
  lemma DividesKeypadGlyph()
    ensures Evaluate("10" + [Divide] + "3") == Computed(Fin(10.0 / 3.0), Decimal)
  {
    var e := Parser.Div(Num("10"), Num("3"));
    assert PrintExpr(e) == "10/3";
    KeypadOperator("10", Divide, "3");
    Ten();
    assert Exact(e) == Some(10.0 / 3.0);
    KeypadComputes(e, "10" + [Divide] + "3", 10.0 / 3.0);
  }

  /** `10÷2` is whole: the quotient takes the whole-number form. */
  lemma DividesToWhole()
    ensures Evaluate("10" + [Divide] + "2") == Computed(Fin(5.0), Whole)
  {
    var e := Parser.Div(Num("10"), Num("2"));
    assert PrintExpr(e) == "10/2";
    KeypadOperator("10", Divide, "2");
    Ten();
    assert Exact(e) == Some(5.0);
    KeypadComputes(e, "10" + [Divide] + "2", 5.0);
  }

  /** Ten to the `k`. */
  function Pow10(k: nat): real {
    if k == 0 then 1.0 else 10.0 * Pow10(k - 1)
  }

  /** A run of `k` nines spells `10^k - 1`. */
  lemma {:induction false} MantissaNines(l: string)
    requires forall i :: 0 <= i < |l| ==> l[i] == '9'
    ensures Mantissa(l) == Pow10(|l|) - 1.0
    decreases |l|
  {
    if l != [] {
      var p := l[..|l| - 1];
      assert forall i :: 0 <= i < |p| ==> p[i] == l[i];
      MantissaNines(p);
    }
  }

  /** `999999999999999` is a valid literal of fifteen nines. */
  lemma FifteenNines(l: string)
    requires l == "999999999999999"
    ensures ValidLiteral(l) && LiteralValue(l) == 999999999999999.0
    ensures forall i :: 0 <= i < |l| ==> IsDigit(l[i])
  {
    assert forall i :: 0 <= i < |l| ==> l[i] == '9';
    MantissaNines(l);
    Pow10Fifteen();
    assert '.' !in l;
    WholeLiteral(l);
    NinesCounted(l);
  }

  /** The counts `ValidLiteral` asks for, on a run of digits. */
  lemma {:induction false} NinesCounted(l: string)
    requires forall i :: 0 <= i < |l| ==> IsDigit(l[i])
    ensures CountDigits(l) == |l| && Count(l, '.') == 0
    decreases |l|
  {
    if l != [] {
      assert forall i :: 0 <= i < |l[1..]| ==> l[1..][i] == l[i + 1];
      NinesCounted(l[1..]);
    }
  }

  /** Two literals around the keypad `×` print as their product. */
  lemma {:induction false} ProductPrint(a: string, b: string, e: Expr)
    requires e == Parser.Mul(Num(a), Num(b))
    ensures PrintExpr(e) == a + "*" + b
  {
    assert PrintFactor(Num(a)) == a && PrintFactor(Num(b)) == b;
    assert PrintTerm(Num(a)) == a;
    assert PrintTerm(e) == a + "*" + b;
  }

  /** Kept text on both sides of the keypad `×` normalises to the same text around `*`. */
  lemma {:induction false} KeptAroundTimes(u: string, v: string)
    requires KeptText(u) && KeptText(v)
    ensures Normalize(u + [Times] + v) == u + "*" + v
  {
    NormalizeIsPerCharacter(u + [Times] + v);
    KeypadEach(u, Times, v);
    assert NormalizeChar(Times) == "*";
  }

  /** Two digit literals around the keypad `×` compute to their exact product. */
  lemma {:induction false} KeypadProduct(a: string, b: string)
    requires ValidLiteral(a) && ValidLiteral(b)
    requires forall i :: 0 <= i < |a| ==> IsDigit(a[i])
    requires forall i :: 0 <= i < |b| ==> IsDigit(b[i])
    ensures var v := Product(LiteralValue(a), LiteralValue(b));
            v != 0.0 ==> Evaluate(a + [Times] + b) == Computed(Fin(v), ChooseForm(Fin(v)))
  {
    var e := Parser.Mul(Num(a), Num(b));
    ProductPrint(a, b, e);
    KeypadOperator(a, Times, b);
    assert NormalizeChar(Times) == "*";
    var v := Product(LiteralValue(a), LiteralValue(b));
    if v != 0.0 {
      KeypadComputes(e, a + [Times] + b, v);
    }
  }

  /** Ten to the fifteenth: the threshold of the scientific form. */
  lemma Pow10Fifteen()
    ensures Pow10(15) == Large
  {
    assert Pow10(5) == 100000.0;
    assert Pow10(10) == 10000000000.0;
  }

  /** A finite result of at least 10^15 takes the scientific form: `999999999999999×10`. */
  lemma LargeProductIsScientific(s: string)
    requires s == "999999999999999" + [Times] + "10"
    ensures Evaluate(s) == Computed(Fin(9999999999999990.0), Scientific)
  {
    var l := "999999999999999";
    FifteenNines(l);
    Ten();
    TenIsLiteral();
    KeypadProduct(l, "10");
    var v := Product(LiteralValue(l), LiteralValue("10"));
    assert v == 9999999999999990.0;
    assert ChooseForm(Fin(v)) == Scientific;
    assert s == l + [Times] + "10";
    assert Evaluate(l + [Times] + "10") == Computed(Fin(v), Scientific);
  }

  /** `10` is a valid literal of digits. */
  lemma TenIsLiteral()
    ensures ValidLiteral("10") && forall i :: 0 <= i < |"10"| ==> IsDigit("10"[i])
  {
    NinesCounted("10");
  }

  /** A printed factor in one more pair of parentheses is a factor that ends after the `)`. */
  lemma {:induction false} InnerGroupFactor(a: Expr, s: string, q: nat)
    requires WellFormed(a) && q == 1 + |PrintFactor(a)| && q < |s|
    requires At(s, 1, PrintFactor(a)) && s[0] == '(' && s[q] == ')'
    ensures ParsesFactor(s, 0, a, q + 1)
  {
    ParseFactorOfPrint(a, s, 1);
    TermAfterFactor(s, 1, a, q);
    TermTailAtOther(s, a, q);
    ExpressionAfterTerm(s, 1, a, q);
    ExpressionTailAtOther(s, a, q);
    GroupParses(s, 0, a, q);
  }

  /** A factor, `*`, and a factor that runs to the end parse as the product. */
  lemma {:induction false} FactorTimesFactor(s: string, a: Expr, q: nat, b: Expr)
    requires q < |s| && s[q] == '*' && ParsesFactor(s, 0, a, q) && ParsesFactor(s, q + 1, b, |s|)
    ensures Parse(s) == Success(Parser.Mul(a, b))
  {
    TermAfterFactor(s, 0, a, q);
    TermTailAtTimes(s, a, q, b, |s|);
    TermTailAtOther(s, Parser.Mul(a, b), |s|);
    ExpressionAfterTerm(s, 0, Parser.Mul(a, b), |s|);
    ExpressionTailAtOther(s, Parser.Mul(a, b), |s|);
  }

  /** Where the parts of `(` `pa` `)*` `pb` sit. */
  lemma {:induction false} RedundantGroupLayout(pa: string, pb: string, s: string)
    requires s == "(" + pa + ")*" + pb
    ensures |s| == 3 + |pa| + |pb| && s[0] == '(' && s[1 + |pa|] == ')' && s[2 + |pa|] == '*'
    ensures At(s, 1, pa) && At(s, 3 + |pa|, pb)
  {
    var q := 1 + |pa|;
    assert s == "(" + (pa + (")*" + pb));
    AtSuffix(s, 0);
    assert s[0..] == s;
    AtSplit(s, 0, "(", pa + (")*" + pb));
    AtSplit(s, 1, pa, ")*" + pb);
    AtSplit(s, q, ")*", pb);
    AtIndex(s, q, ")*");
  }

  /** A printed factor in one more pair of parentheses, times a printed factor, parses as the product. */
  lemma {:induction false} RedundantGroupParses(a: Expr, b: Expr, s: string)
    requires WellFormed(a) && WellFormed(b)
    requires s == "(" + PrintFactor(a) + ")*" + PrintFactor(b)
    ensures Parse(s) == Success(Parser.Mul(a, b))
  {
    var q := 1 + |PrintFactor(a)|;
    RedundantGroupLayout(PrintFactor(a), PrintFactor(b), s);
    InnerGroupFactor(a, s, q);
    ParseFactorOfPrint(b, s, q + 2);
    FactorTimesFactor(s, a, q + 1, b);
  }

  /** A printed factor with parentheses around it is kept by normalisation. */
  lemma {:induction false} GroupKept(a: Expr)
    requires WellFormed(a)
    ensures KeptText("(" + PrintFactor(a) + ")")
  {
    FactorPrintsKept(a);
    KeptConcat("(", PrintFactor(a));
    KeptConcat("(" + PrintFactor(a), ")");
  }

  /** On the keypad: redundant parentheses before `×` change nothing. */
  lemma {:induction false} RedundantGroupTimes(a: Expr, b: Expr)
    requires WellFormed(a) && WellFormed(b)
    ensures var v := Eval(Parser.Mul(a, b));
            Evaluate("(" + PrintFactor(a) + ")" + [Times] + PrintFactor(b)) == Computed(v, ChooseForm(v))
  {
    var u := "(" + PrintFactor(a) + ")";
    var n := u + "*" + PrintFactor(b);
    GroupKept(a);
    FactorPrintsKept(b);
    KeptAroundTimes(u, PrintFactor(b));
    FactorPrintEnds(b);
    assert DropTrailingOperator(n) == n by {
      assert n[|n| - 1] == Last(PrintFactor(b));
    }
    assert n == "(" + PrintFactor(a) + ")*" + PrintFactor(b);
    RedundantGroupParses(a, b, n);
  }

  /** `2+3` prints in factor position as `(2+3)`. */
  lemma SumPrintsGrouped(a: Expr)
    requires a == Parser.Add(Num("2"), Num("3"))
    ensures PrintFactor(a) == "(2+3)" && WellFormed(a)
  {
    assert PrintTerm(Num("3")) == "3";
    assert PrintExpr(Num("2")) == "2";
    assert PrintExpr(a) == "2+3";
  }

  /** The value of a redundantly grouped product whose exact value is a non-zero `v`. */
  lemma {:induction false} RedundantGroupValue(a: Expr, b: Expr, text: string, v: real)
    requires WellFormed(a) && WellFormed(b)
    requires text == "(" + PrintFactor(a) + ")" + [Times] + PrintFactor(b)
    requires Exact(Parser.Mul(a, b)) == Some(v) && v != 0.0
    ensures Evaluate(text) == Computed(Fin(v), ChooseForm(Fin(v)))
  {
    RedundantGroupTimes(a, b);
    EvalAgreesWithExact(Parser.Mul(a, b));
  }

  /** `((2+3))×2` is ten. */
  lemma RedundantGroupBeforeProduct(s: string)
    requires s == "((2+3))" + [Times] + "2"
    ensures Evaluate(s) == Computed(Fin(10.0), Whole)
  {
    var a := Parser.Add(Num("2"), Num("3"));
    SumPrintsGrouped(a);
    assert PrintFactor(Num("2")) == "2" && WellFormed(Num("2"));
    assert Exact(Parser.Mul(a, Num("2"))) == Some(10.0);
    RedundantGroupValue(a, Num("2"), s, 10.0);
  }



  /** A literal `d.f` of two digits is `d + f/10`. */
  lemma OneDecimal(d: char, f: char)
    requires IsDigit(d) && IsDigit(f)
    ensures LiteralValue([d, '.', f]) == DigitValue(d) + DigitValue(f) / 10.0
  {
    var l := [d, '.', f];
    assert l[..2] == [d, '.'];
    assert [d, '.'][..1] == [d];
    assert [d][..0] == [];
    assert l[1] == '.';
    assert Mantissa([d]) == DigitValue(d);
    assert Mantissa([d, '.']) == DigitValue(d);
    assert Mantissa(l) == 10.0 * DigitValue(d) + DigitValue(f);
    assert FractionLength([d, '.']) == 0;
    assert FractionLength(l) == 1;
    assert Shift(Mantissa(l), 1) == Mantissa(l) / 10.0;
  }

  lemma AddsDecimals()
    ensures Evaluate("1.5+2.5") == Computed(Fin(4.0), Whole)
  {
    var e := Parser.Add(Num("1.5"), Num("2.5"));
    assert PrintExpr(e) == "1.5+2.5";
    OneDecimal('1', '5');
    OneDecimal('2', '5');
    assert Exact(e) == Some(4.0);
    Computes(e, "1.5+2.5", 4.0);
  }

  /** Parentheses group before the product. */
  lemma GroupsBeforeProduct()
    ensures Evaluate("(1+2)*3") == Computed(Fin(9.0), Whole)
  {
    var e := Parser.Mul(Parser.Add(Num("1"), Num("2")), Num("3"));
    assert PrintExpr(e) == "(1+2)*3";
    assert Exact(e) == Some(9.0);
    Computes(e, "(1+2)*3", 9.0);
  }

  /** `*` binds tighter than `+`. */
  lemma ProductBeforeSum()
    ensures Evaluate("1+2*3") == Computed(Fin(7.0), Whole)
  {
    var e := Parser.Add(Num("1"), Parser.Mul(Num("2"), Num("3")));
    assert PrintExpr(e) == "1+2*3";
    assert Exact(e) == Some(7.0);
    Computes(e, "1+2*3", 7.0);
  }

  /** `-` folds to the left: `8-3-2` is `(8-3)-2`. */
  lemma SubtractsLeftToRight()
    ensures Evaluate("8-3-2") == Computed(Fin(3.0), Whole)
  {
    var e := Parser.Sub(Parser.Sub(Num("8"), Num("3")), Num("2"));
    assert PrintExpr(e) == "8-3-2";
    assert Exact(e) == Some(3.0);
    Computes(e, "8-3-2", 3.0);
  }

  /** Unary minus nests. */
  lemma DoubleNegation()
    ensures Evaluate("--5") == Computed(Fin(5.0), Whole)
  {
    var e := Parser.Neg(Parser.Neg(Num("5")));
    assert PrintExpr(e) == "--5";
    assert Exact(e) == Some(5.0);
    Computes(e, "--5", 5.0);
  }

  /** Division of a non-zero number by zero is an infinity, not an error. */
  lemma DivisionByZero()
    ensures Evaluate("1/0") == Computed(Inf(false), Scientific)
  {
    var e := Parser.Div(Num("1"), Num("0"));
    assert PrintExpr(e) == "1/0";
    assert Eval(e) == Numeric.Div(Fin(1.0), Fin(0.0)) == Inf(false);
    EvaluatePrintExpr(e);
  }

  /** Zero over zero is NaN, not an error. */
  lemma ZeroOverZero()
    ensures Evaluate("0/0") == Computed(NaN, Decimal)
  {
    var e := Parser.Div(Num("0"), Num("0"));
    assert PrintExpr(e) == "0/0";
    assert Eval(e) == Numeric.Div(Fin(0.0), Fin(0.0)) == NaN;
    EvaluatePrintExpr(e);
  }

  /** Empty input is "0". */
  lemma EmptyIsZero(render: Renderer)
    ensures Calculate("", render) == "0"
  {
  }

  /** A trailing operator is dropped: `10+` computes as `10`. */
  lemma TrailingPlusDropped()
    ensures Evaluate("10+") == Evaluate("10")
  {
    assert PrintExpr(Num("10")) == "10";
    assert "10" + ['+'] == "10+";
    TrailingOperatorIgnored(Num("10"), '+');
  }

  lemma ComputesTen()
    ensures Evaluate("10") == Computed(Fin(10.0), Whole)
  {
    var e := Num("10");
    assert PrintExpr(e) == "10";
    Ten();
    Computes(e, "10", 10.0);
  }

  lemma Ten()
    ensures LiteralValue("10") == 10.0
  {
    assert "10"[..1] == "1";
    assert Mantissa("10") == 10.0;
    assert FractionLength("10") == 0;
  }

  /** `+` alone: the operator drop leaves nothing, and an empty expression is an error. */
  lemma LoneOperatorIsError(render: Renderer)
    ensures Calculate("+", render) == "Error"
  {
    assert DropTrailingOperator("+") == [];
    FactorRejects([], 0);
  }

  /** `++`: only one operator is dropped, and `+` with nothing after it is an error. */
  lemma DoubleOperatorIsError(s: string, render: Renderer)
    requires s == "++"
    ensures Calculate(s, render) == "Error"
  {
    NormalizeKeeps(s);
    var d := DropTrailingOperator(s);
    assert d == "+";
    FactorRejects(d, 1);
    assert SkipSpaces(d, 0) == 0;
    assert Eat(d, 0, '+') == (true, 1);
    assert ParseFactor(d, 0) == ParseFactor(d, 1);
    FailurePropagates(d, 0);
  }

  /** Input left over after a complete expression is an error. */
  lemma LeftoverIsError(s: string)
    requires s == "1)"
    ensures Evaluate(s).Failed?
  {
    NormalizeKeeps(s);
    assert DropTrailingOperator(s) == s;
    LiteralParses(s, 0, 1);
    var e := Num(s[0..1]);
    TermStarts(s, 0, e, 1);
    TermEnds(s, 0, e, 1);
    ExpressionStarts(s, 0, e, 1);
    ExpressionEnds(s, 0, e, 1);
  }

  /** `()`: a group needs an expression inside. */
  lemma EmptyGroupIsError(s: string)
    requires s == "()"
    ensures Evaluate(s).Failed?
  {
    NormalizeKeeps(s);
    assert DropTrailingOperator(s) == s;
    FactorRejects(s, 1);
    FailurePropagates(s, 1);
    assert SkipSpaces(s, 0) == 0;
    FactorAtOpen(s, 0);
    FailurePropagates(s, 0);
  }

  /** Text that is one run of digits and points, but not a valid literal, does not parse. */
  lemma MalformedRunFails(s: string)
    requires s != [] && !ValidLiteral(s)
    requires forall i :: 0 <= i < |s| ==> IsNumChar(s[i])
    ensures ParseExpression(s, 0).Failure?
  {
    ScanNumberRun(s, 0, |s|);
    assert s[0..|s|] == s;
    assert SkipSpaces(s, 0) == 0;
    FactorAtNumber(s, 0);
    FailurePropagates(s, 0);
  }

  /** `1.2.3` has two points. */
  lemma TwoPointsMalformed(s: string)
    requires s == "1.2.3"
    ensures !ValidLiteral(s)
  {
    assert Count(".3", '.') == 1;
    assert ".2.3"[1..] == "2.3";
    assert Count(".2.3", '.') == 2;
    assert s[1..] == ".2.3";
  }

  /** A run of digits and points with two points is not a number. */
  lemma TwoPointsIsError(s: string)
    requires s == "1.2.3"
    ensures Evaluate(s).Failed?
  {
    NormalizeKeeps(s);
    assert DropTrailingOperator(s) == s;
    TwoPointsMalformed(s);
    MalformedRunFails(s);
  }

  /** A point alone is not a number. */
  lemma PointAloneIsError(s: string)
    requires s == "."
    ensures Evaluate(s).Failed?
  {
    NormalizeKeeps(s);
    assert DropTrailingOperator(s) == s;
    assert s[1..] == [];
    assert CountDigits(s) == 0;
    MalformedRunFails(s);
  }
}

=== FILE: exchange.dfy ===
/**
 * The currency converter's form (`ExchangeViewModel`): an amount typed in one currency, its
 * converted value in another, and the rules for choosing and swapping the two currencies. The
 * rate request runs on the network; here it is an effect the step asks for (`fetch`) and the
 * events that finish it (`RateReceived`, `FetchFailed`).
 */
module Exchange {
  import opened Chars
  import opened Digits
  import opened Engine

  datatype Currency = KRW | USD | JPY | EUR | CNY | GBP | AUD | CAD | CHF | HKD

  /** The ISO code sent to the rate service. */
  function Code(c: Currency): (r: string)
    ensures |r| == 3
  {
    match c
    case KRW => "KRW"
    case USD => "USD"
    case JPY => "JPY"
    case EUR => "EUR"
    case CNY => "CNY"
    case GBP => "GBP"
    case AUD => "AUD"
    case CAD => "CAD"
    case CHF => "CHF"
    case HKD => "HKD"
  }

  datatype State = State(
    fromAmount: string,
    toAmount: string,
    fromCurrency: Currency,
    toCurrency: Currency,
    exchangeRate: real,
    isLoading: bool)

  /** The form as it opens: one US dollar into won, no rate yet. */
  const Initial: State := State("1", "", USD, KRW, 0.0, false)

  datatype Intent =
    | UpdateFromAmount(amount: string)
    | SelectFromCurrency(currency: Currency)
    | SelectToCurrency(currency: Currency)
    | SwapCurrencies

  /** The state after an intent, and whether a new rate is requested for its currency pair. */
  datatype Step = Step(state: State, fetch: bool)

  /** `String.format(Locale.US, "%.2f", x)`: digit rendering is not modelled. */
  type Formatter = real -> string

  // ---------------------------------------------------------------------------------------------
  // Amounts
  // ---------------------------------------------------------------------------------------------

  /** The pattern `^\d*\.?\d*$`: digits, at most one point, digits. */
  predicate MatchesAmount(s: string) {
    var whole := Before(s, '.');
    AllDigits(whole) && (|whole| == |s| || AllDigits(s[|whole| + 1..]))
  }


  /** The pattern accepts exactly the strings of digits and points with at most one point. */
  lemma {:induction false} AmountPattern(s: string)
    ensures MatchesAmount(s) <==> AllNumChars(s) && Count(s, '.') <= 1
  {
    var whole := Before(s, '.');
    assert forall k :: 0 <= k < |whole| ==> whole[k] == s[k];
    if |whole| < |s| {
      var rest := s[|whole| + 1..];
      assert s == whole + "." + rest;
      CountAppend(whole + ".", rest, '.');
      CountAppend(whole, ".", '.');
      assert forall k :: 0 <= k < |rest| ==> rest[k] == s[|whole| + 1 + k];
      if AllNumChars(s) && Count(s, '.') <= 1 {
        assert AllDigits(rest);
      }
      if MatchesAmount(s) {
        assert forall k :: 0 <= k < |s| ==>
          (k < |whole| && s[k] == whole[k]) || k == |whole| || s[k] == rest[k - |whole| - 1];
      }
    } else {
      assert whole == s;
    }
  }

  /** `toDoubleOrNull() ?: 0.0` on a typed amount: its exact value, 0 for "" and "." and anything else. */
  function AmountValue(s: string): (v: real)
    ensures v >= 0.0
  {
    if MatchesAmount(s) && s != [] && s != "." then LiteralValue(s) else 0.0
  }

  // ---------------------------------------------------------------------------------------------
  // Operations
  // ---------------------------------------------------------------------------------------------

  /** `calculateExchange`: the converted amount, shown only when it is positive. */
  function CalculateExchange(st: State, format: Formatter): (r: State)
    ensures r.(toAmount := st.toAmount) == st
    ensures AmountValue(st.fromAmount) * st.exchangeRate > 0.0 ==>
              r.toAmount == format(AmountValue(st.fromAmount) * st.exchangeRate)
    ensures AmountValue(st.fromAmount) * st.exchangeRate <= 0.0 ==> r.toAmount == ""
  {
    var result := AmountValue(st.fromAmount) * st.exchangeRate;
    st.(toAmount := if result > 0.0 then format(result) else "")
  }

  /** `updateFromAmount`: an amount matching the pattern is taken and converted; any other is ignored. */
  function UpdateAmount(st: State, amount: string, format: Formatter): (r: State)
    ensures MatchesAmount(amount) ==> r.fromAmount == amount && r == CalculateExchange(st.(fromAmount := amount), format)
    ensures !MatchesAmount(amount) ==> r == st
  {
    if amount == [] || MatchesAmount(amount) then CalculateExchange(st.(fromAmount := amount), format) else st
  }

  /** `swapCurrencies`: the currencies trade places and the converted amount becomes the typed one. */
  function Swap(st: State): (r: State)
    ensures r.fromCurrency == st.toCurrency && r.toCurrency == st.fromCurrency
    ensures r.fromAmount == if st.toAmount == [] then "1" else st.toAmount
    ensures r.toAmount == st.toAmount && r.exchangeRate == st.exchangeRate && r.isLoading == st.isLoading
  {
    st.(fromCurrency := st.toCurrency, toCurrency := st.fromCurrency,
        fromAmount := if st.toAmount == [] then "1" else st.toAmount)
  }

  /** `selectFromCurrency`: choosing the target currency as the source swaps the two. */
  function SelectFrom(st: State, c: Currency): (r: State)
    ensures c == st.toCurrency ==> r == Swap(st)
    ensures c != st.toCurrency ==> r == st.(fromCurrency := c)
  {
    if c == st.toCurrency then Swap(st) else st.(fromCurrency := c)
  }

  /** `selectToCurrency`: choosing the source currency as the target swaps the two. */
  function SelectTo(st: State, c: Currency): (r: State)
    ensures c == st.fromCurrency ==> r == Swap(st)
    ensures c != st.fromCurrency ==> r == st.(toCurrency := c)
  {
    if c == st.fromCurrency then Swap(st) else st.(toCurrency := c)
  }

  /** `processIntent`: every intent but a new amount asks for a fresh rate. */
  function ProcessIntent(st: State, intent: Intent, format: Formatter): (r: Step)
    ensures r.fetch <==> !intent.UpdateFromAmount?
    ensures intent.UpdateFromAmount? ==> r.state.fromCurrency == st.fromCurrency && r.state.toCurrency == st.toCurrency
  {
    match intent
    case UpdateFromAmount(amount) => Step(UpdateAmount(st, amount, format), false)
    case SelectFromCurrency(c) => Step(SelectFrom(st, c), true)
    case SelectToCurrency(c) => Step(SelectTo(st, c), true)
    case SwapCurrencies => Step(Swap(st), true)
  }

  /** The request for a rate has been sent. */
  function FetchStarted(st: State): (r: State)
    ensures r.isLoading && r.(isLoading := st.isLoading) == st
  {
    st.(isLoading := true)
  }

  /** The rate arrived: it is stored, loading ends and the amount is converted again. */
  function RateReceived(st: State, rate: real, format: Formatter): (r: State)
    ensures !r.isLoading && r.exchangeRate == rate
    ensures r.fromAmount == st.fromAmount && r.fromCurrency == st.fromCurrency && r.toCurrency == st.toCurrency
    ensures AmountValue(st.fromAmount) * rate > 0.0 ==> r.toAmount == format(AmountValue(st.fromAmount) * rate)
    ensures AmountValue(st.fromAmount) * rate <= 0.0 ==> r.toAmount == ""
  {
    var loaded := st.(exchangeRate := rate, isLoading := false);
    assert loaded.fromAmount == st.fromAmount && loaded.exchangeRate == rate;
    CalculateExchange(loaded, format)
  }

  /** The request failed: loading ends and nothing else changes (the message is an effect). */
  function FetchFailed(st: State): (r: State)
    ensures !r.isLoading && r.(isLoading := st.isLoading) == st
  {
    st.(isLoading := false)
  }

  // ---------------------------------------------------------------------------------------------
  // Properties
  // ---------------------------------------------------------------------------------------------

  predicate Distinct(st: State) {
    st.fromCurrency != st.toCurrency
  }

  /** No intent ever makes the two currencies equal. */
  lemma {:induction false} IntentKeepsDistinct(st: State, intent: Intent, format: Formatter)
    requires Distinct(st)
    ensures Distinct(ProcessIntent(st, intent, format).state)
  {
    match intent
    case UpdateFromAmount(amount) =>
    case SelectFromCurrency(c) =>
      if c != st.toCurrency {
        assert SelectFrom(st, c).fromCurrency == c;
      }
    case SelectToCurrency(c) =>
      if c != st.fromCurrency {
        assert SelectTo(st, c).toCurrency == c;
      }
    case SwapCurrencies =>
  }

  /** Nor does a rate arriving or failing. */
  lemma {:induction false} FetchKeepsDistinct(st: State, rate: real, format: Formatter)
    requires Distinct(st)
    ensures Distinct(FetchStarted(st)) && Distinct(RateReceived(st, rate, format)) && Distinct(FetchFailed(st))
  {
  }

  /** Swapping twice brings both currencies back, and the typed amount is the converted one or "1". */
  lemma {:induction false} SwapTwice(st: State)
    ensures Swap(Swap(st)).fromCurrency == st.fromCurrency && Swap(Swap(st)).toCurrency == st.toCurrency
    ensures Swap(Swap(st)).fromAmount == Swap(st).fromAmount
  {
  }

  /** Until a positive rate arrives nothing converted is shown, whatever the amount. */
  lemma {:induction false} NoRateNoResult(st: State, amount: string, format: Formatter)
    requires st.exchangeRate <= 0.0
    ensures UpdateAmount(st, amount, format).toAmount == "" || !MatchesAmount(amount)
  {
    var v := AmountValue(amount);
    assert v * st.exchangeRate <= 0.0;
  }

  /** Ten currencies with ten different codes. */
  lemma CodesDistinct(a: Currency, b: Currency)
    requires a != b
    ensures Code(a) != Code(b)
  {
  }

  /** The form opens with distinct currencies. */
  lemma InitialDistinct()
    ensures Distinct(Initial) && Initial.fromAmount == "1" && Initial.toAmount == ""
  {
  }

  /** A thousand dollars at 1333.33 won is converted to 1 333 330. */
  lemma ThousandAtRate(st: State, format: Formatter)
    requires st.exchangeRate == 1333.33
    ensures UpdateAmount(st, "1000", format).toAmount == format(1333330.0)
  {
    var s := "1000";
    assert Before(s, '.') == s;
    assert DropLast("1000") == "100" && DropLast("100") == "10" && DropLast("10") == "1";
    assert Mantissa(s) == 1000.0 by {
      assert s[..3] == "100" && "100"[..2] == "10" && "10"[..1] == "1" && "1"[..0] == [];
    }
    assert FractionLength(s) == 0;
    assert AmountValue(s) == 1000.0;
  }
}

=== FILE: legacy_screen.dfy ===
/**
 * The legacy calculator screen (`com/example/presentation/screen/calculator`): the input is a
 * plain string that starts as "0"; keys append to its end, and its own `calculate` evaluates it
 * with the same recursive-descent grammar as the engine, but with its own normalisation, its own
 * trailing-character rule and a whole-number display through `Double.toInt()`.
 */
module LegacyScreen {
  import opened Wrappers
  import opened Chars
  import opened Numeric
  import opened Parser
  import opened Printer
  import opened Normalization
  import opened Engine
  import opened Editing
  import opened Digits

  // ---------------------------------------------------------------------------------------------
  // Keys
  // ---------------------------------------------------------------------------------------------

  /** The initial input and the text `AC` restores. */
  const Start: string := "0"

  /**
   * The character class `[+\-×÷]` the legacy code tests operators with. The minus key inserts
   * `−` (U+2212), which this class does not contain.
   */
  predicate InOperatorClass(c: char) {
    IsOperatorGlyph(c)
  }

  /** The four operator keys' characters: `+ × ÷` and the keypad minus `−`, plus ASCII `-`. */
  predicate IsKeypadOperator(c: char) {
    IsOperatorGlyph(c) || c == UnicodeMinus
  }

  /** `addNumber`: a lone `0` is replaced, anything else is appended to. */
  function AddNumber(s: string, n: string): (r: string)
    ensures s == Start ==> r == n
    ensures s != Start ==> |r| == |s| + |n| && r[..|s|] == s && r[|s|..] == n
  {
    if s == Start then n else s + n
  }

  /**
   * `addOperator`, as written: empty input or "Error" becomes "0"; an operator of the class
   * `[+\-×÷]` at the end is replaced; otherwise the operator is appended.
   */
  function AddOperatorAsWritten(s: string, op: char): (r: string)
    ensures s == [] || s == ErrorText ==> r == Start
    ensures s != [] && s != ErrorText ==> |r| >= 1 && r[|r| - 1] == op
    ensures s != [] && s != ErrorText && InOperatorClass(s[|s| - 1]) ==> r == DropLast(s) + [op]
    ensures s != [] && s != ErrorText && !InOperatorClass(s[|s| - 1]) ==> r == s + [op]
  {
    if s == [] || s == ErrorText then Start
    else if InOperatorClass(s[|s| - 1]) then DropLast(s) + [op]
    else s + [op]
  }

  /** `addOperator` with the class widened to every operator key, the keypad minus included. */
  function AddOperator(s: string, op: char): (r: string)
    ensures s == [] || s == ErrorText ==> r == Start
    ensures s != [] && s != ErrorText ==>
              |r| >= 1 && r[|r| - 1] == op && r[..|r| - 1] <= s && |s| <= |r| <= |s| + 1
    ensures s != [] && s != ErrorText ==> (|r| == |s| <==> IsKeypadOperator(s[|s| - 1]))
  {
    if s == [] || s == ErrorText then Start
    else if IsKeypadOperator(s[|s| - 1]) then DropLast(s) + [op]
    else s + [op]
  }

  /** `addParentheses`: the parenthesis choice of `Editing`, made at the end of the input. */
  function AddParentheses(s: string): (r: string)
    ensures r == Splice(s, |s|, ParenthesisToInsert(s, |s|))
  {
    assert s[..|s|] == s && s[|s|..] == [];
    s + ParenthesisToInsert(s, |s|)
  }

  /** `split(regex).last()`: the text after the last separator. */
  function LastNumber(s: string, isSep: char -> bool): (r: string)
    ensures forall k :: 0 <= k < |r| ==> !isSep(r[k])
    ensures |r| <= |s| && r == s[|s| - |r|..]
    ensures |r| == |s| || isSep(s[|s| - |r| - 1])
  {
    var b := BlockStart(s, |s|, isSep);
    BlockBetween(s, |s|, isSep, b, BlockEnd(s, |s|, isSep));
    NumberBlock(s, |s|, isSep)
  }

  /** The point key, as written: `.` is appended when the text after the last `[+\-×÷]` has none. */
  function DotAsWritten(s: string): (r: string)
    ensures r == s || r == s + "."
    ensures r == s + "." <==> '.' !in LastNumber(s, InOperatorClass)
  {
    if '.' !in LastNumber(s, InOperatorClass) then s + "." else s
  }

  /** The point key with the last number found after any operator key's character. */
  function Dot(s: string): (r: string)
    ensures r == s || r == s + "."
    ensures r == s + "." <==> '.' !in LastNumber(s, IsKeypadOperator)
  {
    if '.' !in LastNumber(s, IsKeypadOperator) then s + "." else s
  }

  /** `⌫`: the last character dropped, or "0" when at most one is left. */
  function Delete(s: string): (r: string)
    ensures |r| >= 1
    ensures |s| > 1 ==> r + [s[|s| - 1]] == s
    ensures |s| <= 1 ==> r == Start
  {
    if |s| > 1 then DropLast(s) else Start
  }

  // ---------------------------------------------------------------------------------------------
  // The legacy `calculate`
  // ---------------------------------------------------------------------------------------------

  /** The legacy normalisation: spaces removed and the three glyphs replaced; line breaks stay. */
  function LegacyNormalize(s: string): (r: string)
    ensures ' ' !in r && Times !in r && Divide !in r && UnicodeMinus !in r
  {
    var s1 := RemoveChar(s, ' ');
    var s2 := ReplaceChar(s1, Times, '*');
    var s3 := ReplaceChar(s2, Divide, '/');
    var s4 := ReplaceChar(s3, UnicodeMinus, '-');
    ReplaceCharAlphabet(s1, Times, '*');
    ReplaceCharAlphabet(s2, Divide, '/');
    ReplaceCharAlphabet(s3, UnicodeMinus, '-');
    s4
  }

  /** The last character is dropped whenever it is not a digit (an operator, `)`, `.` ...). */
  function DropNonDigit(s: string): (r: string)
    requires |s| > 0
    ensures IsDigit(s[|s| - 1]) ==> r == s
    ensures !IsDigit(s[|s| - 1]) ==> r + [s[|s| - 1]] == s
  {
    if IsDigit(s[|s| - 1]) then s else DropLast(s)
  }

  /** The legacy pipeline up to the value; its forms are whole or fixed-decimal only. */
  function LegacyEvaluate(expression: string): (o: Outcome)
    ensures o.Blank? <==> LegacyNormalize(expression) == []
    ensures o.Computed? ==> o.form == if IsWhole(o.value) then Whole else Decimal
    ensures o.Computed? <==>
              LegacyNormalize(expression) != [] && Parse(DropNonDigit(LegacyNormalize(expression))).Success?
  {
    var normalized := LegacyNormalize(expression);
    if normalized == [] then Blank
    else
      match Parse(DropNonDigit(normalized))
      case Failure(m) => Failed(m)
      case Success(e) =>
        var v := Eval(e);
        Computed(v, if IsWhole(v) then Whole else Decimal)
  }

  /** The integer a whole value denotes. */
  function WholeValue(v: Value): (n: int)
    requires IsWhole(v)
    ensures n as real == v.Real()
  {
    if v.Fin? then v.r.Floor else 0
  }

  const IntMin: int := -0x8000_0000
  const IntMax: int := 0x7FFF_FFFF

  /** `Double.toInt()` on a whole value: saturated into the 32-bit range. */
  function ToInt(n: int): (r: int)
    ensures IntMin <= r <= IntMax
    ensures IntMin <= n <= IntMax ==> r == n
    ensures n > IntMax ==> r == IntMax
    ensures n < IntMin ==> r == IntMin
  {
    if n < IntMin then IntMin else if n > IntMax then IntMax else n
  }

  /** `Int.toString()` (or `Long`), for any integer. */
  function IntText(n: int): (r: string)
    ensures |r| > 0 && (r[0] == '-' <==> n < 0)
    ensures n >= 0 ==> Canonical(r)
    ensures n < 0 ==> Canonical(r[1..])
  {
    if n < 0 then "-" + NatText(-n) else NatText(n)
  }

  /**
   * The literal reading `toDouble` applies to a digit run agrees with the integer reading of
   * `Digits`: this bridge lets the `Digits` round trip speak about literal values.
   */
  lemma {:induction false} MantissaIsNumeralValue(s: string)
    requires AllDigits(s)
    ensures Mantissa(s) == NumeralValue(s) as real
    decreases |s|
  {
    if s != [] {
      var p := s[..|s| - 1];
      assert DropLast(s) == p;
      assert AllDigits(p) by {
        assert forall k :: 0 <= k < |p| ==> p[k] == s[k];
      }
      MantissaIsNumeralValue(p);
    }
  }

  /**
   * Reading the digits back as a literal gives the number: the partner of `NatText`, obtained
   * from `Digits.ValueOfText` through the bridge above.
   */
  lemma {:induction false} NatTextReadsBack(n: nat)
    ensures Mantissa(NatText(n)) == n as real
  {
    MantissaIsNumeralValue(NatText(n));
    ValueOfText(n);
  }

  /**
   * The legacy `calculate`, as written: "0" for blank input, "Error" for a parse failure, a whole
   * result through `toInt().toString()` (saturating at the 32-bit bounds), any other result in
   * fixed-decimal form with trailing zeros and point trimmed.
   */
  function LegacyCalculateAsWritten(expression: string, render: Renderer): (r: string)
    ensures LegacyNormalize(expression) == [] ==> r == "0"
    ensures LegacyEvaluate(expression).Failed? ==> r == ErrorText
    ensures var o := LegacyEvaluate(expression);
            o.Computed? && o.form == Whole ==> r == IntText(ToInt(WholeValue(o.value)))
  {
    match LegacyEvaluate(expression)
    case Blank => "0"
    case Failed(_) => ErrorText
    case Computed(v, form) =>
      if form == Whole then IntText(ToInt(WholeValue(v))) else TrimDecimal(render(Decimal, v))
  }

  /** The legacy `calculate` with a whole result printed exactly, as the engine's `%.0f` does. */
  function LegacyCalculate(expression: string, render: Renderer): (r: string)
    ensures LegacyNormalize(expression) == [] ==> r == "0"
    ensures LegacyEvaluate(expression).Failed? ==> r == ErrorText
    ensures var o := LegacyEvaluate(expression);
            o.Computed? && o.form == Whole ==> r == IntText(WholeValue(o.value))
    ensures var o := LegacyEvaluate(expression);
            o.Computed? && o.form == Whole && IntMin <= WholeValue(o.value) <= IntMax ==>
              r == LegacyCalculateAsWritten(expression, render)
  {
    match LegacyEvaluate(expression)
    case Blank => "0"
    case Failed(_) => ErrorText
    case Computed(v, form) =>
      if form == Whole then IntText(WholeValue(v)) else TrimDecimal(render(Decimal, v))
  }

  /**
   * The live preview under the input, from the as-written `calculate`: empty for empty input and
   * in place of "Error", otherwise that result.
   */
  function Preview(s: string, render: Renderer): (r: string)
    ensures r != ErrorText
    ensures s == [] ==> r == ""
    ensures s != [] && LegacyEvaluate(s).Failed? ==> r == ""
    ensures s != [] && LegacyNormalize(s) == [] ==> r == "0"
    ensures s != [] && LegacyCalculateAsWritten(s, render) != ErrorText ==> r == LegacyCalculateAsWritten(s, render)
  {
    if s == [] then ""
    else
      var result := LegacyCalculateAsWritten(s, render);
      if result == ErrorText then "" else result
  }

  /** The preview over the corrected `calculate`: a whole result is shown exactly. */
  function CorrectedPreview(s: string, render: Renderer): (r: string)
    ensures r != ErrorText
    ensures s == [] ==> r == ""
    ensures s != [] && LegacyEvaluate(s).Failed? ==> r == ""
    ensures var o := LegacyEvaluate(s);
            s != [] && o.Computed? && o.form == Whole ==> r == IntText(WholeValue(o.value))
  {
    if s == [] then ""
    else
      var result := LegacyCalculate(s, render);
      if result == ErrorText then "" else result
  }

  /** A key of the legacy keypad. */
  datatype Key = Digit(d: char) | Operator(op: char) | Point | Parentheses | Backspace | AllClear | Equals

  /** No two characters that `isOp` picks stand next to each other. */
  predicate Apart(s: string, isOp: char -> bool) {
    forall i :: 0 <= i < |s| - 1 ==> !(isOp(s[i]) && isOp(s[i + 1]))
  }

  /** No two operator-key characters stand next to each other. */
  predicate OperatorsApart(s: string) {
    Apart(s, IsKeypadOperator)
  }

  /** No two characters of the class `[+\-×÷]` stand next to each other. */
  predicate ClassApart(s: string) {
    Apart(s, InOperatorClass)
  }

  /**
   * What a key does to the input, as the buttons are wired: the operator keys go through the
   * as-written `addOperator`, the point through the as-written `dot`, and `=` through the
   * as-written `calculate`. Every key but `=` keeps the class `[+\-×÷]` apart; the keypad minus is
   * outside that class, so `5−` then `+` gives `5−+` (see `PressAfterMinus`).
   */
  function Press(s: string, key: Key, render: Renderer): (r: string)
    ensures key == Equals ==> r == LegacyCalculateAsWritten(s, render)
    ensures ClassApart(s) && key != Equals && (key.Digit? ==> IsDigit(key.d)) ==> ClassApart(r)
  {
    match key
    case Digit(d) => DigitKeepsApart(s, d, InOperatorClass); AddNumber(s, [d])
    case Operator(op) => OperatorAsWrittenKeepsApart(s, op); AddOperatorAsWritten(s, op)
    case Point => PointKeepsApart(s, InOperatorClass); DotAsWritten(s)
    case Parentheses => ParenthesesKeepApart(s, InOperatorClass); AddParentheses(s)
    case Backspace => DeleteKeepsApart(s, InOperatorClass); Delete(s)
    case AllClear => Start
    case Equals => LegacyCalculateAsWritten(s, render)
  }

  /**
   * The keypad with the corrected operator, point and `=` handling: every key but `=` keeps all
   * operator-key characters apart, the keypad minus included.
   */
  function CorrectedPress(s: string, key: Key, render: Renderer): (r: string)
    ensures key == Equals ==> r == LegacyCalculate(s, render)
    ensures OperatorsApart(s) && key != Equals && (key.Digit? ==> IsDigit(key.d)) ==> OperatorsApart(r)
  {
    match key
    case Digit(d) => DigitKeepsApart(s, d, IsKeypadOperator); AddNumber(s, [d])
    case Operator(op) => OperatorKeepsApart(s, op); AddOperator(s, op)
    case Point => PointKeepsApart(s, IsKeypadOperator); Dot(s)
    case Parentheses => ParenthesesKeepApart(s, IsKeypadOperator); AddParentheses(s)
    case Backspace => DeleteKeepsApart(s, IsKeypadOperator); Delete(s)
    case AllClear => Start
    case Equals => LegacyCalculate(s, render)
  }

  // ---------------------------------------------------------------------------------------------
  // Properties
  // ---------------------------------------------------------------------------------------------

  /** Joining two texts keeps operators apart unless an operator meets an operator at the seam. */
  lemma {:induction false} AppendKeepsApart(s: string, t: string, isOp: char -> bool)
    requires Apart(s, isOp) && Apart(t, isOp)
    requires s == [] || t == [] || !isOp(s[|s| - 1]) || !isOp(t[0])
    ensures Apart(s + t, isOp)
  {
    var r := s + t;
    forall i | 0 <= i < |r| - 1
      ensures !(isOp(r[i]) && isOp(r[i + 1]))
    {
      if i < |s| - 1 {
        assert r[i] == s[i] && r[i + 1] == s[i + 1];
      } else if i == |s| - 1 {
        assert r[i] == s[|s| - 1] && r[i + 1] == t[0];
      } else {
        assert r[i] == t[i - |s|] && r[i + 1] == t[i - |s| + 1];
      }
    }
  }

  /** A prefix keeps operators apart. */
  lemma {:induction false} PrefixKeepsApart(s: string, n: nat, isOp: char -> bool)
    requires Apart(s, isOp) && n <= |s|
    ensures Apart(s[..n], isOp)
  {
    var r := s[..n];
    assert forall i :: 0 <= i < |r| ==> r[i] == s[i];
  }

  /** A digit key keeps operators apart when a digit is not an operator. */
  lemma {:induction false} DigitKeepsApart(s: string, d: char, isOp: char -> bool)
    ensures Apart(s, isOp) && !isOp(d) ==> Apart(AddNumber(s, [d]), isOp)
  {
    if Apart(s, isOp) && !isOp(d) && s != Start {
      AppendKeepsApart(s, [d], isOp);
    }
  }

  /** Appending a point keeps operators apart when a point is not an operator. */
  lemma {:induction false} PointKeepsApart(s: string, isOp: char -> bool)
    ensures Apart(s, isOp) && !isOp('.') ==> Apart(s + ".", isOp)
  {
    if Apart(s, isOp) && !isOp('.') {
      AppendKeepsApart(s, ".", isOp);
    }
  }

  /** `⌫` keeps operators apart. */
  lemma {:induction false} DeleteKeepsApart(s: string, isOp: char -> bool)
    ensures Apart(s, isOp) ==> Apart(Delete(s), isOp)
  {
    if Apart(s, isOp) && |s| > 1 {
      PrefixKeepsApart(s, |s| - 1, isOp);
    }
  }

  /** As written, the operator key never leaves two characters of its own class side by side. */
  lemma {:induction false} OperatorAsWrittenKeepsApart(s: string, op: char)
    ensures ClassApart(s) ==> ClassApart(AddOperatorAsWritten(s, op))
  {
    if ClassApart(s) && s != [] && s != ErrorText {
      if InOperatorClass(s[|s| - 1]) {
        PrefixKeepsApart(s, |s| - 1, InOperatorClass);
        assert |s| >= 2 ==> !InOperatorClass(s[|s| - 2]);
        AppendKeepsApart(DropLast(s), [op], InOperatorClass);
      } else {
        AppendKeepsApart(s, [op], InOperatorClass);
      }
    }
  }

  /** The corrected operator key never leaves two operators side by side. */
  lemma {:induction false} OperatorKeepsApart(s: string, op: char)
    ensures OperatorsApart(s) ==> OperatorsApart(AddOperator(s, op))
  {
    if OperatorsApart(s) && s != [] && s != ErrorText {
      if IsKeypadOperator(s[|s| - 1]) {
        PrefixKeepsApart(s, |s| - 1, IsKeypadOperator);
        assert |s| >= 2 ==> !IsKeypadOperator(s[|s| - 2]);
        AppendKeepsApart(DropLast(s), [op], IsKeypadOperator);
      } else {
        AppendKeepsApart(s, [op], IsKeypadOperator);
      }
    }
  }

  /**
   * The parenthesis key never puts its `×` after an operator, for any notion of operator that
   * leaves out digits and parentheses.
   */
  lemma {:induction false} ParenthesesKeepApart(s: string, isOp: char -> bool)
    ensures Apart(s, isOp) && (forall c :: isOp(c) ==> IsKeypadOperator(c)) ==>
              Apart(AddParentheses(s), isOp)
  {
    if Apart(s, isOp) && (forall c :: isOp(c) ==> IsKeypadOperator(c)) {
      var t := ParenthesisToInsert(s, |s|);
      assert t == "(" || t == ")" || t == [Times, '('];
      AppendKeepsApart(s, t, isOp);
    }
  }

  /**
   * As written, the operator class misses the keypad minus: an operator pressed after `−` is
   * appended instead of replacing it, so two operators stand side by side.
   */
  lemma {:induction false} OperatorAfterMinusAppends(s: string, op: char)
    requires IsKeypadOperator(op)
    ensures AddOperatorAsWritten(s + [UnicodeMinus], op) == s + [UnicodeMinus, op]
    ensures !OperatorsApart(s + [UnicodeMinus, op])
    ensures AddOperator(s + [UnicodeMinus], op) == s + [op]
  {
    var t := s + [UnicodeMinus];
    assert t != ErrorText by {
      assert t[|t| - 1] != ErrorText[|ErrorText| - 1];
    }
    assert DropLast(t) == s;
    assert (s + [UnicodeMinus, op])[|s|] == UnicodeMinus;
    assert (s + [UnicodeMinus, op])[|s| + 1] == op;
  }

  /**
   * On the keypad as wired, `5−` then `+` gives `5−+`: two operators side by side, which the
   * engine's parser rejects; the corrected keypad replaces the minus and gives `5+`.
   */
  lemma PressAfterMinus(s: string, render: Renderer)
    requires s == "5" + [UnicodeMinus]
    ensures Press(s, Operator('+'), render) == s + "+"
    ensures !OperatorsApart(Press(s, Operator('+'), render))
    ensures CorrectedPress(s, Operator('+'), render) == "5+"
  {
    OperatorAfterMinusAppends("5", '+');
    assert "5" + [UnicodeMinus, '+'] == s + "+";
  }

  /** After the corrected point key the last number always holds a point, and a new one only once. */
  lemma {:induction false} DotLeavesOnePoint(s: string)
    ensures '.' in LastNumber(Dot(s), IsKeypadOperator)
    ensures Dot(s) != s ==> Count(LastNumber(Dot(s), IsKeypadOperator), '.') == 1
  {
    if Dot(s) != s {
      assert Splice(s, |s|, ".") == s + "." by {
        assert s[..|s|] == s && s[|s|..] == [];
      }
      SpliceBlockCount(s, |s|, ".", IsKeypadOperator, '.');
      assert Count(".", '.') == 1;
    }
  }

  /**
   * As written, the point key looks for a point after the last `[+\-×÷]`, which does not split at
   * the keypad minus: in `1.5−2` it finds `1.5−2`, sees a point and refuses, so `1.5−2.5` cannot
   * be typed; the corrected key appends the point.
   */
  lemma {:induction false} PointRefusedAfterMinus(s: string)
    requires s == "1.5" + [UnicodeMinus] + "2"
    ensures DotAsWritten(s) == s
    ensures Dot(s) == s + "."
  {
    BlockIsMaximalSpan(s, |s|, InOperatorClass, 0, |s|);
    assert s[1] == '.';
    BlockIsMaximalSpan(s, |s|, IsKeypadOperator, 4, |s|);
    assert s[4..] == "2";
  }

  /** The parenthesis key never closes more parentheses than are open. */
  lemma {:induction false} ParenthesesKeepBalance(s: string)
    requires ClosesCovered(s)
    ensures ClosesCovered(AddParentheses(s))
  {
    ParenthesisKeepsCover(s, |s|);
  }

  /** Deleting right after a digit was appended gives the input back. */
  lemma {:induction false} DeleteUndoesDigit(s: string, d: char)
    requires s != Start && s != []
    ensures Delete(AddNumber(s, [d])) == s
  {
    assert DropLast(s + [d]) == s;
  }

  /** Without line breaks the legacy normalisation is the engine's. */
  lemma {:induction false} LegacyNormalizeAgrees(s: string)
    requires Newline !in s
    ensures LegacyNormalize(s) == Normalize(s)
  {
    RemoveAbsent(s, Newline);
  }

  lemma {:induction false} RemoveAbsent(s: string, c: char)
    requires c !in s
    ensures RemoveChar(s, c) == s
    decreases |s|
  {
    if s != [] {
      assert s[0] != c;
      RemoveAbsent(s[1..], c);
      assert [s[0]] + s[1..] == s;
    }
  }

  /**
   * On text without line breaks whose normal form ends in a digit, the legacy `calculate` and the
   * engine parse the same text: both fail, or both compute the same value.
   */
  lemma {:induction false} LegacyAgreesWithEngine(s: string)
    requires Newline !in s
    requires Normalize(s) != [] && IsDigit(Normalize(s)[|Normalize(s)| - 1])
    ensures LegacyEvaluate(s).Failed? <==> Evaluate(s).Failed?
    ensures LegacyEvaluate(s).Computed? ==> Evaluate(s).Computed? && Evaluate(s).value == LegacyEvaluate(s).value
  {
    LegacyNormalizeAgrees(s);
    var n := Normalize(s);
    assert DropNonDigit(n) == n;
    assert DropTrailingOperator(n) == n;
  }

  /** A whole result is printed exactly: its text reads back as its value. */
  lemma {:induction false} WholeTextReadsBack(n: int)
    ensures n >= 0 ==> Mantissa(IntText(n)) == n as real
    ensures n < 0 ==> IntText(n)[0] == '-' && Mantissa(IntText(n)[1..]) == (-n) as real
  {
    if n >= 0 {
      NatTextReadsBack(n);
    } else {
      NatTextReadsBack(-n);
      assert IntText(n)[1..] == NatText(-n);
    }
  }

  /** `50000` is fifty thousand. */
  lemma FiftyThousand()
    ensures LiteralValue("50000") == 50000.0
  {
    assert "50000"[..4] == "5000";
    assert "5000"[..3] == "500";
    assert "500"[..2] == "50";
    assert "50"[..1] == "5";
    assert Mantissa("50000") == 50000.0;
    assert FractionLength("50000") == 0;
  }

  /** The engine computes `50000×50000` as 2 500 000 000. */
  lemma LargeProductComputes(s: string)
    requires s == "50000" + [Times] + "50000"
    ensures Evaluate(s) == Computed(Fin(2500000000.0), Whole)
  {
    var e := Parser.Mul(Num("50000"), Num("50000"));
    assert PrintExpr(e) == "50000*50000";
    KeypadOperator("50000", Times, "50000");
    FiftyThousand();
    assert Eval(e) == Fin(2500000000.0);
    EvaluatePrinted(s, e);
  }

  /** Whatever the engine computes for such text, the legacy pipeline computes too. */
  lemma {:induction false} LegacyComputes(s: string, v: Value, form: Form)
    requires Newline !in s
    requires Normalize(s) != [] && IsDigit(Normalize(s)[|Normalize(s)| - 1])
    requires Evaluate(s) == Computed(v, form)
    ensures LegacyEvaluate(s) == Computed(v, if IsWhole(v) then Whole else Decimal)
  {
    LegacyAgreesWithEngine(s);
  }

  /** `50000×50000` holds no line break and normalises to text that ends in a digit. */
  lemma LargeProductText(s: string)
    requires s == "50000" + [Times] + "50000"
    ensures Newline !in s
    ensures Normalize(s) != [] && IsDigit(Normalize(s)[|Normalize(s)| - 1])
  {
    KeypadOperator("50000", Times, "50000");
    assert forall i :: 0 <= i < |s| ==> s[i] == '0' || s[i] == '5' || s[i] == Times;
  }

  /** `50000×50000` is whole and evaluates to 2 500 000 000, past the 32-bit range. */
  lemma LargeProduct(s: string)
    requires s == "50000" + [Times] + "50000"
    ensures LegacyEvaluate(s) == Computed(Fin(2500000000.0), Whole)
  {
    LargeProductComputes(s);
    LargeProductText(s);
    LegacyComputes(s, Fin(2500000000.0), Whole);
  }

  /**
   * As written, `50000×50000 =` shows `2147483647`: `toInt()` saturates; the corrected display
   * shows the product.
   */
  lemma {:induction false} LargeProductSaturates(s: string, render: Renderer)
    requires s == "50000" + [Times] + "50000"
    ensures LegacyCalculateAsWritten(s, render) == IntText(IntMax)
    ensures LegacyCalculate(s, render) == IntText(2500000000)
  {
    LargeProduct(s);
    assert WholeValue(Fin(2500000000.0)) == 2500000000;
  }

  /**
   * Under `50000×50000` the preview shows `2147483647`, as `=` does; the corrected preview shows
   * the product.
   */
  lemma {:induction false} LargeProductPreview(s: string, render: Renderer)
    requires s == "50000" + [Times] + "50000"
    ensures Preview(s, render) == IntText(IntMax)
    ensures CorrectedPreview(s, render) == IntText(2500000000)
  {
    LargeProductSaturates(s, render);
    assert IntText(IntMax)[0] != 'E';
  }
}

=== FILE: normalize.dfy ===
/**
 * The first stage of `CalculatorEngine.calculate`: five `String.replace` passes that delete line
 * breaks and spaces and turn the keypad glyphs `×`, `÷`, `−` into the ASCII operators the parser
 * reads. Each pass is a left-to-right scan, so the whole stage is a per-character map
 * (`NormalizeChar`), which `NormalizeIsPerCharacter` proves.
 */
module Normalization {
  import opened Chars

  /** `replace(c.toString(), "")`: every occurrence of `c` removed, the rest in order. */
  function RemoveChar(s: string, c: char): (r: string)
    ensures c !in r
    ensures |r| == |s| - Count(s, c)
    ensures forall x :: x != c ==> Count(r, x) == Count(s, x)
    ensures forall x :: x in r ==> x in s
  {
    if s == [] then []
    else
      var rest := RemoveChar(s[1..], c);
      assert forall x :: x in s[1..] ==> x in s;
      if s[0] == c then rest else [s[0]] + rest
  }

  /** `replace(c.toString(), d.toString())`: every `c` becomes `d`, every other character stays. */
  function ReplaceChar(s: string, c: char, d: char): (r: string)
    ensures |r| == |s|
    ensures forall i :: 0 <= i < |s| ==> r[i] == (if s[i] == c then d else s[i])
  {
    if s == [] then []
    else [if s[0] == c then d else s[0]] + ReplaceChar(s[1..], c, d)
  }

  /** What `ReplaceChar` can leave behind: characters of `s` other than `c`, and `d`. */
  lemma ReplaceCharAlphabet(s: string, c: char, d: char)
    ensures forall x :: x in ReplaceChar(s, c, d) ==> (x in s && x != c) || x == d
  {
    var r := ReplaceChar(s, c, d);
    forall x | x in r
      ensures (x in s && x != c) || x == d
    {
      var i :| 0 <= i < |r| && r[i] == x;
      assert s[i] in s;
    }
  }

  /** The normalised expression (source order of the passes kept). */
  function Normalize(s: string): (r: string)
    ensures Newline !in r && ' ' !in r
    ensures Times !in r && Divide !in r && UnicodeMinus !in r
    ensures |r| <= |s|
  {
    var s1 := RemoveChar(s, Newline);
    var s2 := RemoveChar(s1, ' ');
    var s3 := ReplaceChar(s2, Times, '*');
    var s4 := ReplaceChar(s3, Divide, '/');
    var s5 := ReplaceChar(s4, UnicodeMinus, '-');
    ReplaceCharAlphabet(s2, Times, '*');
    ReplaceCharAlphabet(s3, Divide, '/');
    ReplaceCharAlphabet(s4, UnicodeMinus, '-');
    s5
  }

  /** What normalisation turns one character into. */
  function NormalizeChar(c: char): string {
    if c == Newline || c == ' ' then ""
    else if c == Times then "*"
    else if c == Divide then "/"
    else if c == UnicodeMinus then "-"
    else [c]
  }

  /** The reference definition: normalise each character on its own and concatenate in order. */
  function NormalizeEach(s: string): string {
    if s == [] then [] else NormalizeChar(s[0]) + NormalizeEach(s[1..])
  }

  lemma {:induction false} RemoveCharAppend(u: string, v: string, c: char)
    ensures RemoveChar(u + v, c) == RemoveChar(u, c) + RemoveChar(v, c)
    decreases |u|
  {
    if u == [] {
      assert u + v == v;
    } else {
      assert (u + v)[1..] == u[1..] + v;
      RemoveCharAppend(u[1..], v, c);
    }
  }

  lemma {:induction false} ReplaceCharAppend(u: string, v: string, c: char, d: char)
    ensures ReplaceChar(u + v, c, d) == ReplaceChar(u, c, d) + ReplaceChar(v, c, d)
  {
    var l := ReplaceChar(u + v, c, d);
    var r := ReplaceChar(u, c, d) + ReplaceChar(v, c, d);
    assert |l| == |r|;
    forall i | 0 <= i < |l|
      ensures l[i] == r[i]
    {
      if i < |u| {
        assert (u + v)[i] == u[i];
      } else {
        assert (u + v)[i] == v[i - |u|];
      }
    }
  }

  /** Normalisation distributes over concatenation. */
  lemma NormalizeAppend(u: string, v: string)
    ensures Normalize(u + v) == Normalize(u) + Normalize(v)
  {
    RemoveCharAppend(u, v, Newline);
    var u1, v1 := RemoveChar(u, Newline), RemoveChar(v, Newline);
    RemoveCharAppend(u1, v1, ' ');
    var u2, v2 := RemoveChar(u1, ' '), RemoveChar(v1, ' ');
    ReplaceCharAppend(u2, v2, Times, '*');
    var u3, v3 := ReplaceChar(u2, Times, '*'), ReplaceChar(v2, Times, '*');
    ReplaceCharAppend(u3, v3, Divide, '/');
    var u4, v4 := ReplaceChar(u3, Divide, '/'), ReplaceChar(v3, Divide, '/');
    ReplaceCharAppend(u4, v4, UnicodeMinus, '-');
  }

  /** One character normalises to its `NormalizeChar`. */
  lemma NormalizeOne(c: char)
    ensures Normalize([c]) == NormalizeChar(c)
  {
    assert [c][1..] == [];
  }

  /**
   * The five passes together are the per-character map: line breaks and spaces vanish, the three
   * glyphs become ASCII operators, every other character is kept, and order is preserved.
   */
  lemma {:induction false} NormalizeIsPerCharacter(s: string)
    ensures Normalize(s) == NormalizeEach(s)
  {
    if s != [] {
      assert s == [s[0]] + s[1..];
      NormalizeAppend([s[0]], s[1..]);
      NormalizeOne(s[0]);
      NormalizeIsPerCharacter(s[1..]);
    }
  }

  /** A character normalisation leaves alone. */
  predicate IsKept(c: char) {
    c != Newline && c != ' ' && c != Times && c != Divide && c != UnicodeMinus
  }

  /** Text made only of kept characters is already normal. */
  lemma {:induction false} NormalizeKeeps(s: string)
    requires forall i :: 0 <= i < |s| ==> IsKept(s[i])
    ensures Normalize(s) == s
  {
    NormalizeIsPerCharacter(s);
    KeptEach(s);
  }

  lemma {:induction false} KeptEach(s: string)
    requires forall i :: 0 <= i < |s| ==> IsKept(s[i])
    ensures NormalizeEach(s) == s
  {
    if s != [] {
      KeptEach(s[1..]);
    }
  }

  /** Text of line breaks and spaces only normalises to nothing. */
  lemma {:induction false} BlankNormalizesToEmpty(s: string)
    requires forall i :: 0 <= i < |s| ==> s[i] == ' ' || s[i] == Newline
    ensures Normalize(s) == []
  {
    NormalizeIsPerCharacter(s);
    BlankEach(s);
  }

  lemma {:induction false} BlankEach(s: string)
    requires forall i :: 0 <= i < |s| ==> s[i] == ' ' || s[i] == Newline
    ensures NormalizeEach(s) == []
  {
    if s != [] {
      BlankEach(s[1..]);
    }
  }

  lemma {:induction false} NormalizeEachAppend(u: string, v: string)
    ensures NormalizeEach(u + v) == NormalizeEach(u) + NormalizeEach(v)
  {
    if u != [] {
      assert (u + v)[1..] == u[1..] + v;
      NormalizeEachAppend(u[1..], v);
    } else {
      assert u + v == v;
    }
  }

  lemma {:induction false} KeypadEach(a: string, op: char, b: string)
    requires forall i :: 0 <= i < |a| ==> IsKept(a[i])
    requires forall i :: 0 <= i < |b| ==> IsKept(b[i])
    ensures NormalizeEach(a + [op] + b) == a + NormalizeChar(op) + b
  {
    NormalizeEachAppend(a + [op], b);
    NormalizeEachAppend(a, [op]);
    assert NormalizeEach([op]) == NormalizeChar(op) by {
      assert [op][1..] == [];
    }
    KeptEach(a);
    KeptEach(b);
  }

  /** Normalising `a op b` for digit strings `a`, `b` and a keypad glyph `op`. */
  lemma {:induction false} KeypadOperator(a: string, op: char, b: string)
    requires forall i :: 0 <= i < |a| ==> IsDigit(a[i])
    requires forall i :: 0 <= i < |b| ==> IsDigit(b[i])
    ensures Normalize(a + [op] + b) == a + NormalizeChar(op) + b
  {
    NormalizeIsPerCharacter(a + [op] + b);
    KeypadEach(a, op, b);
  }
}

=== FILE: numeric.dfy ===
/**
 * The calculator's `Double`, modelled as an extended real: exact finite values, a signed zero,
 * the two infinities and NaN. The special-value rules follow IEEE 754 (what the JVM does for
 * `+ - * /` and unary minus); rounding of finite results and overflow to infinity are not
 * modelled.
 */
module Numeric {

  datatype Value =
    | Fin(r: real)          // a finite value; Fin(0.0) is positive zero
    | NegZero               // negative zero
    | Inf(negative: bool)   // positive or negative infinity
    | NaN
  {
    predicate IsFinite() {
      Fin? || NegZero?
    }

    predicate IsZero() {
      (Fin? && r == 0.0) || NegZero?
    }

    /** The sign bit (meaningless for NaN, reported as false). */
    predicate SignBit() {
      match this
      case Fin(x) => x < 0.0
      case NegZero => true
      case Inf(n) => n
      case NaN => false
    }

    /** The real number a finite value denotes. */
    function Real(): real
      requires IsFinite()
    {
      if Fin? then r else 0.0
    }
  }

  function Abs(x: real): real {
    if x < 0.0 then -x else x
  }

  /** A zero carrying the given sign. */
  function Zero(negative: bool): (v: Value)
    ensures v.IsZero() && v.SignBit() == negative
  {
    if negative then NegZero else Fin(0.0)
  }

  /** The finite value `x`; when `x` is zero its sign is `negativeIfZero`. */
  function Finite(x: real, negativeIfZero: bool): (v: Value)
    ensures v.IsFinite() && v.Real() == x
    ensures x != 0.0 ==> v.SignBit() == (x < 0.0)
    ensures x == 0.0 ==> v.SignBit() == negativeIfZero
  {
    if x == 0.0 then Zero(negativeIfZero) else Fin(x)
  }

  /** Unary minus: flips the sign bit of everything but NaN. */
  function Neg(a: Value): (v: Value)
    ensures a.IsFinite() <==> v.IsFinite()
    ensures a.IsFinite() ==> v.Real() == -a.Real() && v.SignBit() == !a.SignBit()
    ensures a.Inf? <==> v.Inf?
    ensures a.Inf? ==> v.negative == !a.negative
    ensures a.NaN? <==> v.NaN?
  {
    match a
    case Fin(x) => if x == 0.0 then NegZero else Fin(-x)
    case NegZero => Fin(0.0)
    case Inf(n) => Inf(!n)
    case NaN => NaN
  }

  function Add(a: Value, b: Value): (v: Value)
    ensures a.IsFinite() && b.IsFinite() ==> v.IsFinite() && v.Real() == a.Real() + b.Real()
    ensures a.NaN? || b.NaN? ==> v.NaN?
    ensures a.Inf? && b.Inf? && a.negative != b.negative ==> v.NaN?
    ensures a.Inf? && !b.NaN? && !(b.Inf? && b.negative != a.negative) ==> v == a
  {
    if a.NaN? || b.NaN? then NaN
    else if a.Inf? && b.Inf? then (if a.negative == b.negative then a else NaN)
    else if a.Inf? then a
    else if b.Inf? then b
    else Finite(a.Real() + b.Real(), a.NegZero? && b.NegZero?)
  }

  /** IEEE subtraction is addition of the negation. */
  function Sub(a: Value, b: Value): (v: Value)
    ensures a.IsFinite() && b.IsFinite() ==> v.IsFinite() && v.Real() == a.Real() - b.Real()
  {
    Add(a, Neg(b))
  }

  function Mul(a: Value, b: Value): (v: Value)
    ensures a.IsFinite() && b.IsFinite() ==> v.IsFinite() && v.Real() == a.Real() * b.Real()
    ensures (a.Inf? && b.IsZero()) || (a.IsZero() && b.Inf?) ==> v.NaN?
    ensures !v.NaN? ==> v.SignBit() == (a.SignBit() != b.SignBit())
  {
    if a.NaN? || b.NaN? then NaN
    else if a.Inf? || b.Inf? then
      (if a.IsZero() || b.IsZero() then NaN else Inf(a.SignBit() != b.SignBit()))
    else
      MulSign(a.Real(), b.Real());
      Finite(a.Real() * b.Real(), a.SignBit() != b.SignBit())
  }

  /**
   * Division. Dividing by zero is not an error: a non-zero finite value over zero is an
   * infinity and zero over zero is NaN.
   */
  function Div(a: Value, b: Value): (v: Value)
    ensures a.IsFinite() && b.IsFinite() && !b.IsZero() ==>
              v.IsFinite() && v.Real() == a.Real() / b.Real()
    ensures a.IsFinite() && !a.IsZero() && b.IsZero() ==> v.Inf?
    ensures a.IsZero() && b.IsZero() ==> v.NaN?
    ensures !v.NaN? ==> v.SignBit() == (a.SignBit() != b.SignBit())
  {
    if a.NaN? || b.NaN? then NaN
    else if a.Inf? && b.Inf? then NaN
    else if a.Inf? then Inf(a.SignBit() != b.SignBit())
    else if b.Inf? then Zero(a.SignBit() != b.SignBit())
    else if b.IsZero() then (if a.IsZero() then NaN else Inf(a.SignBit() != b.SignBit()))
    else
      DivSign(a.Real(), b.Real());
      Finite(a.Real() / b.Real(), a.SignBit() != b.SignBit())
  }

  lemma MulSign(x: real, y: real)
    ensures x * y != 0.0 ==> (x * y < 0.0 <==> (x < 0.0) != (y < 0.0))
  {
  }

  lemma DivSign(x: real, y: real)
    requires y != 0.0
    ensures x / y != 0.0 ==> (x / y < 0.0 <==> (x < 0.0) != (y < 0.0))
  {
    if x / y != 0.0 {
      assert x == (x / y) * y;
    }
  }

  /** 10^15 and 10^-10, the thresholds of scientific notation. */
  const Large: real := 1000000000000000.0
  const Small: real := 0.0000000001

  /** The three display forms of a result. */
  datatype Form = Scientific | Whole | Decimal

  /**
   * The form `calculate` picks: scientific when the magnitude is non-zero and at least 10^15 or
   * below 10^-10 (infinities included, NaN excluded since every comparison with it is false);
   * otherwise the whole-number form when `value % 1.0 == 0.0`; otherwise the fixed-decimal form.
   */
  function ChooseForm(v: Value): (f: Form)
    ensures v.IsFinite() ==>
              (f == Scientific <==> v.Real() != 0.0 && (Abs(v.Real()) >= Large || Abs(v.Real()) < Small))
    ensures v.IsFinite() && f != Scientific ==> (f == Whole <==> v.Real() == v.Real().Floor as real)
    ensures v.Inf? ==> f == Scientific
    ensures v.NaN? ==> f == Decimal
  {
    if IsScientific(v) then Scientific else if IsWhole(v) then Whole else Decimal
  }

  predicate IsScientific(v: Value) {
    match v
    case Fin(x) => x != 0.0 && (Abs(x) >= Large || Abs(x) < Small)
    case NegZero => false
    case Inf(_) => true
    case NaN => false
  }

  /** `v % 1.0 == 0.0`: true of whole finite values (either zero), false of infinities and NaN. */
  predicate IsWhole(v: Value) {
    match v
    case Fin(x) => x == x.Floor as real
    case NegZero => true
    case Inf(_) => false
    case NaN => false
  }

  lemma NegInvolutive(a: Value)
    ensures Neg(Neg(a)) == a
  {
  }
}

=== FILE: parser.dfy ===
/**
 * The recursive-descent parser of `CalculatorEngine.eval`, over the normalised expression as a
 * character sequence with an explicit cursor. The source keeps the cursor `pos` and the current
 * character `ch` in a mutable object; here `ch` is always `s[pos]` (or end of input) and every
 * parsing function returns the new cursor with its result. Instead of folding `Double`s as it
 * goes, the parser builds the expression tree whose evaluation (`Engine.Eval`) is the same fold.
 */
module Parser {
  import opened Wrappers
  import opened Chars

  /** The tree of a parsed expression; unary plus leaves no node, as in the source. */
  datatype Expr =
    | Num(literal: string)
    | Neg(operand: Expr)
    | Add(left: Expr, right: Expr)
    | Sub(left: Expr, right: Expr)
    | Mul(left: Expr, right: Expr)
    | Div(left: Expr, right: Expr)

  /** Every literal in the tree is one `String.toDouble` accepts. */
  predicate WellFormed(e: Expr) {
    match e
    case Num(l) => ValidLiteral(l)
    case Neg(x) => WellFormed(x)
    case Add(a, b) => WellFormed(a) && WellFormed(b)
    case Sub(a, b) => WellFormed(a) && WellFormed(b)
    case Mul(a, b) => WellFormed(a) && WellFormed(b)
    case Div(a, b) => WellFormed(a) && WellFormed(b)
  }

  function CountDigits(s: string): nat {
    if s == [] then 0 else (if IsDigit(s[0]) then 1 else 0) + CountDigits(s[1..])
  }

  /**
   * A run of digits and points that `String.toDouble` accepts: at least one digit and at most
   * one point (`1`, `1.`, `.5`, `1.5`; not `.`, not `1.2.3`).
   */
  predicate ValidLiteral(l: string) {
    && AllNumChars(l)
    && CountDigits(l) >= 1
    && Count(l, '.') <= 1
  }

  type ParseResult = Result<(Expr, nat)>

  /** The cursor after the `while (ch == ' ') nextChar()` loop of `eat`. */
  function SkipSpaces(s: string, pos: nat): (p: nat)
    requires pos <= |s|
    ensures pos <= p <= |s|
    ensures p == |s| || s[p] != ' '
    ensures forall k :: pos <= k < p ==> s[k] == ' '
    decreases |s| - pos
  {
    if pos < |s| && s[pos] == ' ' then SkipSpaces(s, pos + 1) else pos
  }

  /**
   * `eat(c)`: skip spaces, then consume `c` if it is the current character. The cursor moves past
   * the spaces even when `c` is not found.
   */
  function Eat(s: string, pos: nat, c: char): (r: (bool, nat))
    requires pos <= |s|
    ensures pos <= r.1 <= |s|
    ensures r.0 ==> pos < r.1 && s[r.1 - 1] == c && forall k :: pos <= k < r.1 - 1 ==> s[k] == ' '
    ensures !r.0 ==> (r.1 == |s| || s[r.1] != c) && forall k :: pos <= k < r.1 ==> s[k] == ' '
  {
    var p := SkipSpaces(s, pos);
    if p < |s| && s[p] == c then (true, p + 1) else (false, p)
  }

  /** The end of the maximal run of digits and points starting at `pos`. */
  function ScanNumber(s: string, pos: nat): (q: nat)
    requires pos <= |s|
    ensures pos <= q <= |s|
    ensures q == |s| || !IsNumChar(s[q])
    decreases |s| - pos
  {
    if pos < |s| && IsNumChar(s[pos]) then ScanNumber(s, pos + 1) else pos
  }

  /** Only spaces are skipped. */
  lemma {:induction false} SkipsOnlySpaces(s: string, pos: nat)
    requires pos <= |s|
    ensures forall i :: pos <= i < SkipSpaces(s, pos) ==> s[i] == ' '
    decreases |s| - pos
  {
    if pos < |s| && s[pos] == ' ' {
      SkipsOnlySpaces(s, pos + 1);
    }
  }

  /** `ScanNumber` stops at the first character after `pos` that is not a digit or point. */
  lemma {:induction false} ScanNumberRun(s: string, pos: nat, q: nat)
    requires pos <= q <= |s|
    requires forall i :: pos <= i < q ==> IsNumChar(s[i])
    requires q == |s| || !IsNumChar(s[q])
    ensures ScanNumber(s, pos) == q
    decreases q - pos
  {
    if pos < q {
      ScanNumberRun(s, pos + 1, q);
    }
  }

  /** Everything `ScanNumber` passes over is a digit or point. */
  lemma {:induction false} ScanNumberScans(s: string, pos: nat)
    requires pos <= |s|
    ensures forall i :: pos <= i < ScanNumber(s, pos) ==> IsNumChar(s[i])
    decreases |s| - pos
  {
    if pos < |s| && IsNumChar(s[pos]) {
      ScanNumberScans(s, pos + 1);
    }
  }

  /** A character a factor may start with. */
  predicate IsFactorStart(c: char) {
    c == '+' || c == '-' || c == '(' || IsNumChar(c)
  }

  /** `expression := term (('+' | '-') term)*` */
  function ParseExpression(s: string, pos: nat): (r: ParseResult)
    requires pos <= |s|
    ensures r.Success? ==> pos < r.value.1 <= |s|
    decreases |s| - pos, 4
  {
    var t :- ParseTerm(s, pos);
    ExpressionTail(s, t.0, t.1)
  }

  /** The `while (true)` loop of `parseExpression`, folding `acc` to the left. */
  function ExpressionTail(s: string, acc: Expr, pos: nat): (r: ParseResult)
    requires pos <= |s|
    ensures r.Success? ==> pos <= r.value.1 <= |s|
    decreases |s| - pos, 3
  {
    var (plus, p1) := Eat(s, pos, '+');
    if plus then
      var t :- ParseTerm(s, p1);
      ExpressionTail(s, Add(acc, t.0), t.1)
    else
      var (minus, p2) := Eat(s, p1, '-');
      if minus then
        var t :- ParseTerm(s, p2);
        ExpressionTail(s, Sub(acc, t.0), t.1)
      else
        Success((acc, p2))
  }

  /** `term := factor (('*' | '/') factor)*` */
  function ParseTerm(s: string, pos: nat): (r: ParseResult)
    requires pos <= |s|
    ensures r.Success? ==> pos < r.value.1 <= |s|
    decreases |s| - pos, 2
  {
    var f :- ParseFactor(s, pos);
    TermTail(s, f.0, f.1)
  }

  /** The `while (true)` loop of `parseTerm`, folding `acc` to the left. */
  function TermTail(s: string, acc: Expr, pos: nat): (r: ParseResult)
    requires pos <= |s|
    ensures r.Success? ==> pos <= r.value.1 <= |s|
    decreases |s| - pos, 1
  {
    var (times, p1) := Eat(s, pos, '*');
    if times then
      var f :- ParseFactor(s, p1);
      TermTail(s, Mul(acc, f.0), f.1)
    else
      var (over, p2) := Eat(s, p1, '/');
      if over then
        var f :- ParseFactor(s, p2);
        TermTail(s, Div(acc, f.0), f.1)
      else
        Success((acc, p2))
  }

  /**
   * `factor := '+' factor | '-' factor | '(' expression [')'] | number`. A missing `)` is
   * tolerated: its `eat` result is ignored.
   */
  function ParseFactor(s: string, pos: nat): (r: ParseResult)
    requires pos <= |s|
    ensures r.Success? ==> pos < r.value.1 <= |s|
    decreases |s| - pos, 0
  {
    var (plus, p1) := Eat(s, pos, '+');
    if plus then
      ParseFactor(s, p1)
    else
      var (minus, p2) := Eat(s, p1, '-');
      if minus then
        var f :- ParseFactor(s, p2);
        Success((Neg(f.0), f.1))
      else
        var start := p2;
        var (open, p3) := Eat(s, p2, '(');
        if open then
          var e :- ParseExpression(s, p3);
          var (_, p4) := Eat(s, e.1, ')');
          Success((e.0, p4))
        else if p3 < |s| && IsNumChar(s[p3]) then
          var p5 := ScanNumber(s, p3);
          var literal := s[start..p5];
          if ValidLiteral(literal) then Success((Num(literal), p5))
          else Failure("malformed number")
        else
          Failure("unexpected character")
  }

  /**
   * At a digit or a point (after spaces), a factor is the maximal run of digits and points,
   * accepted exactly when it is a valid literal.
   */
  lemma FactorAtNumber(s: string, pos: nat)
    requires pos <= |s|
    requires SkipSpaces(s, pos) < |s| && IsNumChar(s[SkipSpaces(s, pos)])
    ensures var p := SkipSpaces(s, pos);
            var q := ScanNumber(s, p);
            ParseFactor(s, pos) ==
              if ValidLiteral(s[p..q]) then Success((Num(s[p..q]), q)) else Failure("malformed number")
  {
    var p := SkipSpaces(s, pos);
    assert SkipSpaces(s, p) == p;
    assert Eat(s, pos, '+') == (false, p);
    assert Eat(s, p, '-') == (false, p);
    assert Eat(s, p, '(') == (false, p);
  }

  /** At a `-` (after spaces), a factor is the negation of the factor that follows. */
  lemma FactorAtMinus(s: string, pos: nat)
    requires pos <= |s|
    requires SkipSpaces(s, pos) < |s| && s[SkipSpaces(s, pos)] == '-'
    ensures ParseFactor(s, pos) ==
              match ParseFactor(s, SkipSpaces(s, pos) + 1)
              case Success(f) => Success((Neg(f.0), f.1))
              case Failure(m) => Failure(m)
  {
    var p := SkipSpaces(s, pos);
    assert SkipSpaces(s, p) == p;
    assert Eat(s, pos, '+') == (false, p);
    assert Eat(s, p, '-') == (true, p + 1);
  }

  /**
   * At a `(` (after spaces), a factor is the expression that follows, then an optional `)`:
   * a missing `)` is not an error.
   */
  lemma FactorAtOpen(s: string, pos: nat)
    requires pos <= |s|
    requires SkipSpaces(s, pos) < |s| && s[SkipSpaces(s, pos)] == '('
    ensures ParseFactor(s, pos) ==
              match ParseExpression(s, SkipSpaces(s, pos) + 1)
              case Success(e) => Success((e.0, Eat(s, e.1, ')').1))
              case Failure(m) => Failure(m)
  {
    var p := SkipSpaces(s, pos);
    assert SkipSpaces(s, p) == p;
    assert Eat(s, pos, '+') == (false, p);
    assert Eat(s, p, '-') == (false, p);
    assert Eat(s, p, '(') == (true, p + 1);
  }

  /**
   * Where no factor can start (after spaces, the end of input or a character other than
   * `+ - (`, a digit or a point), the factor parser fails.
   */
  lemma FactorRejects(s: string, pos: nat)
    requires pos <= |s|
    requires SkipSpaces(s, pos) == |s| || !IsFactorStart(s[SkipSpaces(s, pos)])
    ensures ParseFactor(s, pos).Failure?
  {
    var p := SkipSpaces(s, pos);
    assert SkipSpaces(s, p) == p;
    assert Eat(s, pos, '+') == (false, p);
    assert Eat(s, p, '-') == (false, p);
    assert Eat(s, p, '(') == (false, p);
  }

  /** At a `*`, the term loop multiplies by the factor that follows. */
  lemma TermTailAtTimes(s: string, acc: Expr, q: nat, b: Expr, q2: nat)
    requires q < |s| && s[q] == '*' && ParseFactor(s, q + 1) == Success((b, q2))
    ensures TermTail(s, acc, q) == TermTail(s, Mul(acc, b), q2)
  {
    assert SkipSpaces(s, q) == q;
    assert Eat(s, q, '*') == (true, q + 1);
  }

  /** At a `/`, the term loop divides by the factor that follows. */
  lemma TermTailAtOver(s: string, acc: Expr, q: nat, b: Expr, q2: nat)
    requires q < |s| && s[q] == '/' && ParseFactor(s, q + 1) == Success((b, q2))
    ensures TermTail(s, acc, q) == TermTail(s, Div(acc, b), q2)
  {
    assert SkipSpaces(s, q) == q;
    assert Eat(s, q, '*') == (false, q);
    assert Eat(s, q, '/') == (true, q + 1);
  }

  /** At the end or at a character other than a space, `*` or `/`, the term loop stops. */
  lemma TermTailAtOther(s: string, acc: Expr, q: nat)
    requires q <= |s| && (q == |s| || (s[q] != ' ' && s[q] != '*' && s[q] != '/'))
    ensures TermTail(s, acc, q) == Success((acc, q))
  {
    assert SkipSpaces(s, q) == q;
    assert Eat(s, q, '*') == (false, q);
    assert Eat(s, q, '/') == (false, q);
  }

  /** At a `+`, the expression loop adds the term that follows. */
  lemma ExpressionTailAtPlus(s: string, acc: Expr, q: nat, b: Expr, q2: nat)
    requires q < |s| && s[q] == '+' && ParseTerm(s, q + 1) == Success((b, q2))
    ensures ExpressionTail(s, acc, q) == ExpressionTail(s, Add(acc, b), q2)
  {
    assert SkipSpaces(s, q) == q;
    assert Eat(s, q, '+') == (true, q + 1);
  }

  /** At a `-`, the expression loop subtracts the term that follows. */
  lemma ExpressionTailAtMinus(s: string, acc: Expr, q: nat, b: Expr, q2: nat)
    requires q < |s| && s[q] == '-' && ParseTerm(s, q + 1) == Success((b, q2))
    ensures ExpressionTail(s, acc, q) == ExpressionTail(s, Sub(acc, b), q2)
  {
    assert SkipSpaces(s, q) == q;
    assert Eat(s, q, '+') == (false, q);
    assert Eat(s, q, '-') == (true, q + 1);
  }

  /** At the end or at a character other than a space, `+` or `-`, the expression loop stops. */
  lemma ExpressionTailAtOther(s: string, acc: Expr, q: nat)
    requires q <= |s| && (q == |s| || (s[q] != ' ' && s[q] != '+' && s[q] != '-'))
    ensures ExpressionTail(s, acc, q) == Success((acc, q))
  {
    assert SkipSpaces(s, q) == q;
    assert Eat(s, q, '+') == (false, q);
    assert Eat(s, q, '-') == (false, q);
  }

  /** A term is its first factor followed by the term loop. */
  lemma TermAfterFactor(s: string, pos: nat, f: Expr, q: nat)
    requires pos <= |s| && ParseFactor(s, pos) == Success((f, q))
    ensures ParseTerm(s, pos) == TermTail(s, f, q)
  {
  }

  /** An expression is its first term followed by the expression loop. */
  lemma ExpressionAfterTerm(s: string, pos: nat, t: Expr, q: nat)
    requires pos <= |s| && ParseTerm(s, pos) == Success((t, q))
    ensures ParseExpression(s, pos) == ExpressionTail(s, t, q)
  {
  }

  /** A factor that fails makes the term, and so the expression, starting there fail too. */
  lemma FailurePropagates(s: string, pos: nat)
    requires pos <= |s| && ParseFactor(s, pos).Failure?
    ensures ParseTerm(s, pos).Failure? && ParseExpression(s, pos).Failure?
  {
  }

  /** The factor at `pos` parses to `e` and leaves the cursor at `q`. */
  predicate ParsesFactor(s: string, pos: nat, e: Expr, q: nat)
    requires pos <= |s|
  {
    ParseFactor(s, pos) == Success((e, q))
  }

  /** The term at `pos` parses to `e` and leaves the cursor at `q`. */
  predicate ParsesTerm(s: string, pos: nat, e: Expr, q: nat)
    requires pos <= |s|
  {
    ParseTerm(s, pos) == Success((e, q))
  }

  /** The expression at `pos` parses to `e` and leaves the cursor at `q`. */
  predicate ParsesExpression(s: string, pos: nat, e: Expr, q: nat)
    requires pos <= |s|
  {
    ParseExpression(s, pos) == Success((e, q))
  }

  /** Parsing a term at `pos` amounts to resuming the term loop at `q` with `e` so far. */
  predicate TermResumes(s: string, pos: nat, e: Expr, q: nat)
    requires pos <= |s| && q <= |s|
  {
    ParseTerm(s, pos) == TermTail(s, e, q)
  }

  /** Parsing an expression at `pos` amounts to resuming the expression loop at `q` with `e`. */
  predicate ExpressionResumes(s: string, pos: nat, e: Expr, q: nat)
    requires pos <= |s| && q <= |s|
  {
    ParseExpression(s, pos) == ExpressionTail(s, e, q)
  }

  /** The term loop at `q1` with `a` so far ends as the term loop at `q` with `e` so far. */
  predicate TermTailsAgree(s: string, a: Expr, q1: nat, e: Expr, q: nat)
    requires q1 <= |s| && q <= |s|
  {
    TermTail(s, a, q1) == TermTail(s, e, q)
  }

  /** The expression loop at `q1` with `a` so far ends as the one at `q` with `e` so far. */
  predicate ExpressionTailsAgree(s: string, a: Expr, q1: nat, e: Expr, q: nat)
    requires q1 <= |s| && q <= |s|
  {
    ExpressionTail(s, a, q1) == ExpressionTail(s, e, q)
  }

  /** A maximal run of digits and points that is a valid literal parses as that number. */
  lemma LiteralParses(s: string, pos: nat, q: nat)
    requires pos < q <= |s| && (q == |s| || !IsNumChar(s[q]))
    requires forall i :: pos <= i < q ==> IsNumChar(s[i])
    requires ValidLiteral(s[pos..q])
    ensures ParsesFactor(s, pos, Num(s[pos..q]), q)
  {
    assert SkipSpaces(s, pos) == pos;
    ScanNumberRun(s, pos, q);
    FactorAtNumber(s, pos);
  }

  /** `-` followed by a factor parses as its negation. */
  lemma NegationParses(s: string, pos: nat, b: Expr, q: nat)
    requires pos < |s| && s[pos] == '-' && ParsesFactor(s, pos + 1, b, q)
    ensures ParsesFactor(s, pos, Neg(b), q)
  {
    assert SkipSpaces(s, pos) == pos;
    FactorAtMinus(s, pos);
  }

  /** `(` followed by an expression parses as that expression; a `)` right after is consumed. */
  lemma GroupParses(s: string, pos: nat, e: Expr, q: nat)
    requires pos < |s| && s[pos] == '(' && ParsesExpression(s, pos + 1, e, q)
    requires q <= |s| && (q == |s| || s[q] != ' ')
    ensures ParsesFactor(s, pos, e, if q < |s| && s[q] == ')' then q + 1 else q)
  {
    assert SkipSpaces(s, pos) == pos;
    assert SkipSpaces(s, q) == q;
    FactorAtOpen(s, pos);
  }

  /** One round of the term loop: a `*` or `/` followed by a factor. */
  lemma TermTailStep(s: string, acc: Expr, q: nat, op: char, b: Expr, e: Expr, q2: nat)
    requires (op == '*' && e == Mul(acc, b)) || (op == '/' && e == Div(acc, b))
    requires q < |s| && s[q] == op && ParsesFactor(s, q + 1, b, q2)
    ensures q2 <= |s| && TermTailsAgree(s, acc, q, e, q2)
  {
    if op == '*' {
      TermTailAtTimes(s, acc, q, b, q2);
    } else {
      TermTailAtOver(s, acc, q, b, q2);
    }
  }

  /** One round of the expression loop: a `+` or `-` followed by a term. */
  lemma ExpressionTailStep(s: string, acc: Expr, q: nat, op: char, b: Expr, e: Expr, q2: nat)
    requires (op == '+' && e == Add(acc, b)) || (op == '-' && e == Sub(acc, b))
    requires q < |s| && s[q] == op && ParsesTerm(s, q + 1, b, q2)
    ensures q2 <= |s| && ExpressionTailsAgree(s, acc, q, e, q2)
  {
    if op == '+' {
      ExpressionTailAtPlus(s, acc, q, b, q2);
    } else {
      ExpressionTailAtMinus(s, acc, q, b, q2);
    }
  }

  /** A term starts with its first factor. */
  lemma TermStarts(s: string, pos: nat, f: Expr, q: nat)
    requires pos <= |s| && ParsesFactor(s, pos, f, q)
    ensures q <= |s| && TermResumes(s, pos, f, q)
  {
    TermAfterFactor(s, pos, f, q);
  }

  /** An expression starts with its first term. */
  lemma ExpressionStarts(s: string, pos: nat, t: Expr, q: nat)
    requires pos <= |s| && ParsesTerm(s, pos, t, q)
    ensures q <= |s| && ExpressionResumes(s, pos, t, q)
  {
    ExpressionAfterTerm(s, pos, t, q);
  }

  lemma TermResumesLater(s: string, pos: nat, a: Expr, q1: nat, e: Expr, q: nat)
    requires pos <= |s| && q1 <= |s| && q <= |s|
    requires TermResumes(s, pos, a, q1) && TermTailsAgree(s, a, q1, e, q)
    ensures TermResumes(s, pos, e, q)
  {
  }

  lemma ExpressionResumesLater(s: string, pos: nat, a: Expr, q1: nat, e: Expr, q: nat)
    requires pos <= |s| && q1 <= |s| && q <= |s|
    requires ExpressionResumes(s, pos, a, q1) && ExpressionTailsAgree(s, a, q1, e, q)
    ensures ExpressionResumes(s, pos, e, q)
  {
  }

  /** A term whose loop stops right away (end of input or not a space, `*`, `/`) is complete. */
  lemma TermEnds(s: string, pos: nat, e: Expr, q: nat)
    requires pos <= |s| && q <= |s| && TermResumes(s, pos, e, q)
    requires q == |s| || (s[q] != ' ' && s[q] != '*' && s[q] != '/')
    ensures ParsesTerm(s, pos, e, q)
  {
    TermTailAtOther(s, e, q);
  }

  /** An expression whose loop stops right away (not a space, `+`, `-`) is complete. */
  lemma ExpressionEnds(s: string, pos: nat, e: Expr, q: nat)
    requires pos <= |s| && q <= |s| && ExpressionResumes(s, pos, e, q)
    requires q == |s| || (s[q] != ' ' && s[q] != '+' && s[q] != '-')
    ensures ParsesExpression(s, pos, e, q)
  {
    ExpressionTailAtOther(s, e, q);
  }

  /** Whatever the expression parser accepts has only valid literals. */
  lemma {:induction false} ExpressionWellFormed(s: string, pos: nat)
    requires pos <= |s|
    ensures ParseExpression(s, pos).Success? ==> WellFormed(ParseExpression(s, pos).value.0)
    decreases |s| - pos, 4
  {
    TermWellFormed(s, pos);
    var t := ParseTerm(s, pos);
    if t.Success? {
      ExpressionTailWellFormed(s, t.value.0, t.value.1);
    }
  }

  lemma {:induction false} ExpressionTailWellFormed(s: string, acc: Expr, pos: nat)
    requires pos <= |s| && WellFormed(acc)
    ensures ExpressionTail(s, acc, pos).Success? ==> WellFormed(ExpressionTail(s, acc, pos).value.0)
    decreases |s| - pos, 3
  {
    var (plus, p1) := Eat(s, pos, '+');
    var (minus, p2) := Eat(s, p1, '-');
    if plus {
      TermWellFormed(s, p1);
      var t := ParseTerm(s, p1);
      if t.Success? {
        ExpressionTailWellFormed(s, Add(acc, t.value.0), t.value.1);
      }
    } else if minus {
      TermWellFormed(s, p2);
      var t := ParseTerm(s, p2);
      if t.Success? {
        ExpressionTailWellFormed(s, Sub(acc, t.value.0), t.value.1);
      }
    }
  }

  lemma {:induction false} TermWellFormed(s: string, pos: nat)
    requires pos <= |s|
    ensures ParseTerm(s, pos).Success? ==> WellFormed(ParseTerm(s, pos).value.0)
    decreases |s| - pos, 2
  {
    FactorWellFormed(s, pos);
    var f := ParseFactor(s, pos);
    if f.Success? {
      TermTailWellFormed(s, f.value.0, f.value.1);
    }
  }

  lemma {:induction false} TermTailWellFormed(s: string, acc: Expr, pos: nat)
    requires pos <= |s| && WellFormed(acc)
    ensures TermTail(s, acc, pos).Success? ==> WellFormed(TermTail(s, acc, pos).value.0)
    decreases |s| - pos, 1
  {
    var (times, p1) := Eat(s, pos, '*');
    var (over, p2) := Eat(s, p1, '/');
    if times {
      FactorWellFormed(s, p1);
      var f := ParseFactor(s, p1);
      if f.Success? {
        TermTailWellFormed(s, Mul(acc, f.value.0), f.value.1);
      }
    } else if over {
      FactorWellFormed(s, p2);
      var f := ParseFactor(s, p2);
      if f.Success? {
        TermTailWellFormed(s, Div(acc, f.value.0), f.value.1);
      }
    }
  }

  lemma {:induction false} FactorWellFormed(s: string, pos: nat)
    requires pos <= |s|
    ensures ParseFactor(s, pos).Success? ==> WellFormed(ParseFactor(s, pos).value.0)
    decreases |s| - pos, 0
  {
    var (plus, p1) := Eat(s, pos, '+');
    var (minus, p2) := Eat(s, p1, '-');
    var (open, p3) := Eat(s, p2, '(');
    if plus {
      FactorWellFormed(s, p1);
    } else if minus {
      FactorWellFormed(s, p2);
    } else if open {
      ExpressionWellFormed(s, p3);
    }
  }

  /** Every tree `Parse` returns has only literals `String.toDouble` accepts. */
  lemma ParseWellFormed(s: string)
    ensures Parse(s).Success? ==> WellFormed(Parse(s).value)
  {
    ExpressionWellFormed(s, 0);
  }

  /** `parse()`: an expression that must consume the whole input. */
  function Parse(s: string): (r: Result<Expr>)
    ensures r.Success? <==> ParseExpression(s, 0).Success? && ParseExpression(s, 0).value.1 == |s|
  {
    var e :- ParseExpression(s, 0);
    if e.1 < |s| then Failure("unexpected character") else Success(e.0)
  }
}

=== FILE: printer.dfy ===
/**
 * A reference printer for the engine's grammar and the theorem that the parser inverts it.
 * The printer writes the fewest parentheses the grammar needs: a sum's right operand is a term,
 * a product's right operand is a factor, and only a compound operand in factor position is
 * parenthesised. Parsing what it prints gives back the same tree, which pins down precedence
 * (`*` `/` over `+` `-`), left-to-right folding, nested unary minus, and the grouping rules.
 */
module Printer {
  import opened Wrappers
  import opened Chars
  import opened Parser

  /** Grammar levels, used to order the mutual recursion on one tree. */
  datatype Level = ExprLevel | TermLevel | FactorLevel | ParenLevel

  predicate IsSum(e: Expr) {
    e.Add? || e.Sub?
  }

  predicate IsProduct(e: Expr) {
    e.Mul? || e.Div?
  }

  /**
   * Which level may call which on the same tree: a sum is printed (and parsed) term -> factor ->
   * parenthesis -> expression; a product factor -> parenthesis -> expression -> term; a number or
   * negation parenthesis -> expression -> term -> factor.
   */
  function Rank(e: Expr, level: Level): nat {
    if IsSum(e) then
      match level
      case ExprLevel => 0
      case ParenLevel => 1
      case FactorLevel => 2
      case TermLevel => 3
    else if IsProduct(e) then
      match level
      case TermLevel => 0
      case ExprLevel => 1
      case ParenLevel => 2
      case FactorLevel => 3
    else
      match level
      case FactorLevel => 0
      case TermLevel => 1
      case ExprLevel => 2
      case ParenLevel => 3
  }

  /** Print at expression level: `expression := term (('+' | '-') term)*` */
  function PrintExpr(e: Expr): string
    decreases e, Rank(e, ExprLevel)
  {
    match e
    case Add(a, b) => PrintExpr(a) + "+" + PrintTerm(b)
    case Sub(a, b) => PrintExpr(a) + "-" + PrintTerm(b)
    case _ => PrintTerm(e)
  }

  /** Print at term level: `term := factor (('*' | '/') factor)*` */
  function PrintTerm(e: Expr): string
    decreases e, Rank(e, TermLevel)
  {
    match e
    case Mul(a, b) => PrintTerm(a) + "*" + PrintFactor(b)
    case Div(a, b) => PrintTerm(a) + "/" + PrintFactor(b)
    case _ => PrintFactor(e)
  }

  /** Print at factor level: a literal, a unary minus, or a parenthesised expression. */
  function PrintFactor(e: Expr): string
    decreases e, Rank(e, FactorLevel)
  {
    match e
    case Num(l) => l
    case Neg(x) => "-" + PrintFactor(x)
    case _ => "(" + PrintExpr(e) + ")"
  }

  /** `w` occurs in `s` at `pos`; recursive, so that it unfolds one character at a time. */
  predicate At(s: string, pos: nat, w: string)
    decreases |w|
  {
    pos + |w| <= |s| && (|w| == 0 || (s[pos] == w[0] && At(s, pos + 1, w[1..])))
  }

  /** The character at `q` cannot extend a number literal. */
  predicate EndsNumber(s: string, q: nat) {
    q == |s| || (q < |s| && !IsNumChar(s[q]))
  }

  /** The character at `q` lets a term end: none of `* /`, a space, or a number character. */
  predicate EndsTerm(s: string, q: nat) {
    EndsNumber(s, q) && (q == |s| || (q < |s| && s[q] != '*' && s[q] != '/' && s[q] != ' '))
  }

  /** The character at `q` lets an expression end: additionally none of `+ -`. */
  predicate EndsExpr(s: string, q: nat) {
    EndsTerm(s, q) && (q == |s| || (q < |s| && s[q] != '+' && s[q] != '-'))
  }

  lemma {:induction false} AtSplit(s: string, pos: nat, u: string, v: string)
    requires At(s, pos, u + v)
    ensures At(s, pos, u) && At(s, pos + |u|, v)
    decreases |u|
  {
    if u != [] {
      assert (u + v)[0] == u[0];
      assert (u + v)[1..] == u[1..] + v;
      AtSplit(s, pos + 1, u[1..], v);
    } else {
      assert u + v == v;
    }
  }

  lemma {:induction false} AtIndex(s: string, pos: nat, w: string)
    requires At(s, pos, w)
    ensures forall i :: 0 <= i < |w| ==> s[pos + i] == w[i]
    decreases |w|
  {
    if w != [] {
      AtIndex(s, pos + 1, w[1..]);
      assert forall i :: 1 <= i < |w| ==> w[i] == w[1..][i - 1];
    }
  }

  lemma {:induction false} AtSuffix(s: string, k: nat)
    requires k <= |s|
    ensures At(s, k, s[k..])
    decreases |s| - k
  {
    if k < |s| {
      assert s[k..][1..] == s[k + 1..];
      AtSuffix(s, k + 1);
    }
  }

  lemma AtChar(s: string, pos: nat, c: char)
    requires At(s, pos, [c])
    ensures pos < |s| && s[pos] == c
  {
  }

  /** A literal printed into `s` is a run of digits and points there. */
  lemma ScanLiteral(s: string, pos: nat, l: string)
    requires At(s, pos, l) && ValidLiteral(l) && EndsNumber(s, pos + |l|)
    ensures pos < pos + |l| <= |s| && s[pos..pos + |l|] == l
    ensures forall i :: pos <= i < pos + |l| ==> IsNumChar(s[i])
  {
    AtIndex(s, pos, l);
    forall i | pos <= i < pos + |l|
      ensures IsNumChar(s[i])
    {
      assert s[i] == l[i - pos];
    }
    assert s[pos..pos + |l|] == l;
  }

  /** Where the parts of a printed product sit. */
  lemma ProductLayout(e: Expr, op: char, a: Expr, b: Expr, s: string, pos: nat)
    requires (op == '*' && e == Mul(a, b)) || (op == '/' && e == Div(a, b))
    requires At(s, pos, PrintTerm(e))
    ensures |PrintTerm(e)| == |PrintTerm(a)| + 1 + |PrintFactor(b)|
    ensures At(s, pos, PrintTerm(a))
    ensures pos + |PrintTerm(a)| < |s| && s[pos + |PrintTerm(a)|] == op
    ensures At(s, pos + |PrintTerm(a)| + 1, PrintFactor(b))
  {
    assert PrintTerm(e) == PrintTerm(a) + [op] + PrintFactor(b);
    AtSplit(s, pos, PrintTerm(a) + [op], PrintFactor(b));
    AtSplit(s, pos, PrintTerm(a), [op]);
  }

  /** Where the parts of a printed sum sit. */
  lemma SumLayout(e: Expr, op: char, a: Expr, b: Expr, s: string, pos: nat)
    requires (op == '+' && e == Add(a, b)) || (op == '-' && e == Sub(a, b))
    requires At(s, pos, PrintExpr(e))
    ensures |PrintExpr(e)| == |PrintExpr(a)| + 1 + |PrintTerm(b)|
    ensures At(s, pos, PrintExpr(a))
    ensures pos + |PrintExpr(a)| < |s| && s[pos + |PrintExpr(a)|] == op
    ensures At(s, pos + |PrintExpr(a)| + 1, PrintTerm(b))
  {
    assert PrintExpr(e) == PrintExpr(a) + [op] + PrintTerm(b);
    AtSplit(s, pos, PrintExpr(a) + [op], PrintTerm(b));
    AtSplit(s, pos, PrintExpr(a), [op]);
  }

  /** Where the parts of a printed negation sit. */
  lemma NegationLayout(e: Expr, s: string, pos: nat)
    requires e.Neg? && At(s, pos, PrintFactor(e))
    ensures |PrintFactor(e)| == 1 + |PrintFactor(e.operand)|
    ensures pos < |s| && s[pos] == '-'
    ensures At(s, pos + 1, PrintFactor(e.operand))
  {
    assert PrintFactor(e) == "-" + PrintFactor(e.operand);
    AtSplit(s, pos, "-", PrintFactor(e.operand));
  }

  /** Where the parts of a parenthesised factor sit. */
  lemma GroupLayout(e: Expr, s: string, pos: nat)
    requires (IsSum(e) || IsProduct(e)) && At(s, pos, PrintFactor(e))
    ensures |PrintFactor(e)| == |PrintExpr(e)| + 2
    ensures At(s, pos, "(" + PrintExpr(e))
    ensures pos + 1 + |PrintExpr(e)| < |s| && s[pos + 1 + |PrintExpr(e)|] == ')'
  {
    assert PrintFactor(e) == "(" + PrintExpr(e) + ")";
    AtSplit(s, pos, "(" + PrintExpr(e), ")");
  }

  /** Where the expression of an opened group sits. */
  lemma OpenLayout(e: Expr, s: string, pos: nat)
    requires At(s, pos, "(" + PrintExpr(e))
    ensures pos < |s| && s[pos] == '('
    ensures At(s, pos + 1, PrintExpr(e))
  {
    AtSplit(s, pos, "(", PrintExpr(e));
  }

  /** A printed expression occupies the whole of its own text. */
  lemma PrintedWhole(e: Expr)
    ensures At(PrintExpr(e), 0, PrintExpr(e))
  {
    AtSuffix(PrintExpr(e), 0);
    assert PrintExpr(e)[0..] == PrintExpr(e);
  }

  /**
   * A printed factor, followed by anything that cannot extend a number, parses back to its tree
   * and leaves the cursor right after it.
   */
  lemma {:induction false} ParseFactorOfPrint(e: Expr, s: string, pos: nat)
    requires WellFormed(e) && At(s, pos, PrintFactor(e)) && EndsNumber(s, pos + |PrintFactor(e)|)
    ensures ParsesFactor(s, pos, e, pos + |PrintFactor(e)|)
    decreases e, Rank(e, FactorLevel), 1
  {
    if e.Num? {
      LiteralOfPrint(e, s, pos);
    } else if e.Neg? {
      NegationOfPrint(e, s, pos);
    } else {
      GroupOfPrint(e, s, pos);
    }
  }

  /** The literal case of `ParseFactorOfPrint`. */
  lemma LiteralOfPrint(e: Expr, s: string, pos: nat)
    requires e.Num?
    requires WellFormed(e) && At(s, pos, PrintFactor(e)) && EndsNumber(s, pos + |PrintFactor(e)|)
    ensures ParsesFactor(s, pos, e, pos + |PrintFactor(e)|)
  {
    var l := e.literal;
    assert PrintFactor(e) == l;
    ScanLiteral(s, pos, l);
    LiteralParses(s, pos, pos + |l|);
    assert Num(s[pos..pos + |l|]) == e;
  }

  /** The negation case of `ParseFactorOfPrint`. */
  lemma {:induction false} NegationOfPrint(e: Expr, s: string, pos: nat)
    requires e.Neg?
    requires WellFormed(e) && At(s, pos, PrintFactor(e)) && EndsNumber(s, pos + |PrintFactor(e)|)
    ensures ParsesFactor(s, pos, e, pos + |PrintFactor(e)|)
    decreases e, Rank(e, FactorLevel), 0
  {
    NegationLayout(e, s, pos);
    ParseFactorOfPrint(e.operand, s, pos + 1);
    NegationParses(s, pos, e.operand, pos + |PrintFactor(e)|);
  }

  /** The parenthesised case of `ParseFactorOfPrint`. */
  lemma {:induction false} GroupOfPrint(e: Expr, s: string, pos: nat)
    requires IsSum(e) || IsProduct(e)
    requires WellFormed(e) && At(s, pos, PrintFactor(e)) && EndsNumber(s, pos + |PrintFactor(e)|)
    ensures ParsesFactor(s, pos, e, pos + |PrintFactor(e)|)
    decreases e, Rank(e, FactorLevel), 0
  {
    GroupLayout(e, s, pos);
    assert Rank(e, FactorLevel) > Rank(e, ParenLevel);
    ParseParenthesised(e, s, pos);
  }

  /**
   * `(` followed by a printed expression parses back to that expression, whether or not a `)`
   * follows; a `)` that follows is consumed.
   */
  lemma {:induction false} ParseParenthesised(e: Expr, s: string, pos: nat)
    requires WellFormed(e) && At(s, pos, "(" + PrintExpr(e))
    requires EndsExpr(s, pos + 1 + |PrintExpr(e)|)
    ensures var q := pos + 1 + |PrintExpr(e)|;
            q <= |s| && ParsesFactor(s, pos, e, if q < |s| && s[q] == ')' then q + 1 else q)
    decreases e, Rank(e, ParenLevel)
  {
    var q := pos + 1 + |PrintExpr(e)|;
    OpenLayout(e, s, pos);
    assert Rank(e, ParenLevel) > Rank(e, ExprLevel);
    ParseWholeExpression(e, s, pos + 1);
    GroupParses(s, pos, e, q);
  }

  /** A printed expression followed by something that ends an expression parses back exactly. */
  lemma {:induction false} ParseWholeExpression(e: Expr, s: string, pos: nat)
    requires WellFormed(e) && At(s, pos, PrintExpr(e)) && EndsExpr(s, pos + |PrintExpr(e)|)
    ensures pos + |PrintExpr(e)| <= |s| && ParsesExpression(s, pos, e, pos + |PrintExpr(e)|)
    decreases e, Rank(e, ExprLevel), 4
  {
    ParseExprOfPrint(e, s, pos);
    ExpressionEnds(s, pos, e, pos + |PrintExpr(e)|);
  }

  /** Parsing a term at a printed term is the term loop resumed right after it with its tree. */
  lemma {:induction false} ParseTermOfPrint(e: Expr, s: string, pos: nat)
    requires WellFormed(e) && At(s, pos, PrintTerm(e)) && EndsNumber(s, pos + |PrintTerm(e)|)
    ensures pos + |PrintTerm(e)| <= |s| && TermResumes(s, pos, e, pos + |PrintTerm(e)|)
    decreases e, Rank(e, TermLevel), 3
  {
    if e.Mul? {
      ProductOfPrint(e, '*', e.left, e.right, s, pos);
    } else if e.Div? {
      ProductOfPrint(e, '/', e.left, e.right, s, pos);
    } else {
      FactorAsTerm(e, s, pos);
      TermStarts(s, pos, e, pos + |PrintTerm(e)|);
    }
  }

  /** A factor that is not a product prints the same at term level. */
  lemma {:induction false} FactorAsTerm(e: Expr, s: string, pos: nat)
    requires !IsProduct(e)
    requires WellFormed(e) && At(s, pos, PrintTerm(e)) && EndsNumber(s, pos + |PrintTerm(e)|)
    ensures pos + |PrintTerm(e)| <= |s| && ParsesFactor(s, pos, e, pos + |PrintTerm(e)|)
    decreases e, Rank(e, TermLevel), 0
  {
    assert PrintTerm(e) == PrintFactor(e);
    assert Rank(e, TermLevel) > Rank(e, FactorLevel);
    ParseFactorOfPrint(e, s, pos);
  }

  /** The product case of `ParseTermOfPrint`. */
  lemma {:induction false} ProductOfPrint(e: Expr, op: char, a: Expr, b: Expr, s: string, pos: nat)
    requires (op == '*' && e == Mul(a, b)) || (op == '/' && e == Div(a, b))
    requires WellFormed(e) && At(s, pos, PrintTerm(e)) && EndsNumber(s, pos + |PrintTerm(e)|)
    ensures pos + |PrintTerm(e)| <= |s| && TermResumes(s, pos, e, pos + |PrintTerm(e)|)
    decreases e, Rank(e, TermLevel), 2
  {
    var q1 := pos + |PrintTerm(a)|;
    var q := pos + |PrintTerm(e)|;
    ProductLeft(e, op, a, b, s, pos);
    ProductLayout(e, op, a, b, s, pos);
    ProductRight(e, op, a, b, s, q1, q);
    TermResumesLater(s, pos, a, q1, e, q);
  }

  /** The left operand of a printed product is a term that runs up to the operator. */
  lemma {:induction false} ProductLeft(e: Expr, op: char, a: Expr, b: Expr, s: string, pos: nat)
    requires (op == '*' && e == Mul(a, b)) || (op == '/' && e == Div(a, b))
    requires WellFormed(e) && At(s, pos, PrintTerm(e))
    ensures pos + |PrintTerm(a)| <= |s| && TermResumes(s, pos, a, pos + |PrintTerm(a)|)
    decreases e, Rank(e, TermLevel), 1
  {
    ProductLayout(e, op, a, b, s, pos);
    assert a < e;
    ParseTermOfPrint(a, s, pos);
  }

  /** After the operator of a printed product, the term loop takes the right operand. */
  lemma {:induction false} ProductRight(e: Expr, op: char, a: Expr, b: Expr, s: string, q1: nat, q: nat)
    requires (op == '*' && e == Mul(a, b)) || (op == '/' && e == Div(a, b))
    requires WellFormed(e) && q1 < |s| && s[q1] == op && q == q1 + 1 + |PrintFactor(b)|
    requires At(s, q1 + 1, PrintFactor(b)) && EndsNumber(s, q)
    ensures q <= |s| && TermTailsAgree(s, a, q1, e, q)
    decreases e, Rank(e, TermLevel), 1
  {
    assert b < e;
    ParseFactorOfPrint(b, s, q1 + 1);
    TermTailStep(s, a, q1, op, b, e, q);
  }

  /**
   * Parsing an expression at a printed expression is the expression loop resumed right after
   * it with its tree.
   */
  lemma {:induction false} ParseExprOfPrint(e: Expr, s: string, pos: nat)
    requires WellFormed(e) && At(s, pos, PrintExpr(e)) && EndsTerm(s, pos + |PrintExpr(e)|)
    ensures pos + |PrintExpr(e)| <= |s| && ExpressionResumes(s, pos, e, pos + |PrintExpr(e)|)
    decreases e, Rank(e, ExprLevel), 3
  {
    if e.Add? {
      SumOfPrint(e, '+', e.left, e.right, s, pos);
    } else if e.Sub? {
      SumOfPrint(e, '-', e.left, e.right, s, pos);
    } else {
      TermAsExpr(e, s, pos);
      ExpressionStarts(s, pos, e, pos + |PrintExpr(e)|);
    }
  }

  /** A term that is not a sum prints the same at expression level. */
  lemma {:induction false} TermAsExpr(e: Expr, s: string, pos: nat)
    requires !IsSum(e)
    requires WellFormed(e) && At(s, pos, PrintExpr(e)) && EndsTerm(s, pos + |PrintExpr(e)|)
    ensures pos + |PrintExpr(e)| <= |s| && ParsesTerm(s, pos, e, pos + |PrintExpr(e)|)
    decreases e, Rank(e, ExprLevel), 0
  {
    assert PrintExpr(e) == PrintTerm(e);
    assert Rank(e, ExprLevel) > Rank(e, TermLevel);
    ParseWholeTerm(e, s, pos);
  }

  /** The sum case of `ParseExprOfPrint`. */
  lemma {:induction false} SumOfPrint(e: Expr, op: char, a: Expr, b: Expr, s: string, pos: nat)
    requires (op == '+' && e == Add(a, b)) || (op == '-' && e == Sub(a, b))
    requires WellFormed(e) && At(s, pos, PrintExpr(e)) && EndsTerm(s, pos + |PrintExpr(e)|)
    ensures pos + |PrintExpr(e)| <= |s| && ExpressionResumes(s, pos, e, pos + |PrintExpr(e)|)
    decreases e, Rank(e, ExprLevel), 2
  {
    var q1 := pos + |PrintExpr(a)|;
    var q := pos + |PrintExpr(e)|;
    SumLeft(e, op, a, b, s, pos);
    SumLayout(e, op, a, b, s, pos);
    SumRight(e, op, a, b, s, q1, q);
    ExpressionResumesLater(s, pos, a, q1, e, q);
  }

  /** The left operand of a printed sum is an expression that runs up to the operator. */
  lemma {:induction false} SumLeft(e: Expr, op: char, a: Expr, b: Expr, s: string, pos: nat)
    requires (op == '+' && e == Add(a, b)) || (op == '-' && e == Sub(a, b))
    requires WellFormed(e) && At(s, pos, PrintExpr(e))
    ensures pos + |PrintExpr(a)| <= |s| && ExpressionResumes(s, pos, a, pos + |PrintExpr(a)|)
    decreases e, Rank(e, ExprLevel), 1
  {
    SumLayout(e, op, a, b, s, pos);
    assert a < e;
    ParseExprOfPrint(a, s, pos);
  }

  /** After the operator of a printed sum, the expression loop takes the right operand. */
  lemma {:induction false} SumRight(e: Expr, op: char, a: Expr, b: Expr, s: string, q1: nat, q: nat)
    requires (op == '+' && e == Add(a, b)) || (op == '-' && e == Sub(a, b))
    requires WellFormed(e) && q1 < |s| && s[q1] == op && q == q1 + 1 + |PrintTerm(b)|
    requires At(s, q1 + 1, PrintTerm(b)) && EndsTerm(s, q)
    ensures q <= |s| && ExpressionTailsAgree(s, a, q1, e, q)
    decreases e, Rank(e, ExprLevel), 1
  {
    assert b < e;
    ParseWholeTerm(b, s, q1 + 1);
    ExpressionTailStep(s, a, q1, op, b, e, q);
  }

  /** A printed term followed by something that ends a term parses back to exactly that term. */
  lemma {:induction false} ParseWholeTerm(e: Expr, s: string, pos: nat)
    requires WellFormed(e) && At(s, pos, PrintTerm(e)) && EndsTerm(s, pos + |PrintTerm(e)|)
    ensures pos + |PrintTerm(e)| <= |s| && ParsesTerm(s, pos, e, pos + |PrintTerm(e)|)
    decreases e, Rank(e, TermLevel), 4
  {
    ParseTermOfPrint(e, s, pos);
    TermEnds(s, pos, e, pos + |PrintTerm(e)|);
  }

  /** The parser inverts the printer on every tree with valid literals. */
  lemma ParsePrintRoundTrip(e: Expr)
    requires WellFormed(e)
    ensures Parse(PrintExpr(e)) == Success(e)
  {
    var s := PrintExpr(e);
    PrintedWhole(e);
    ParseWholeExpression(e, s, 0);
  }
}

=== FILE: selection_screen.dfy ===
/**
 * The first calculator screen (`com/ahn/presentation/screen/calculator`): the keypad edits a
 * text field whose selection may be a caret or a dragged range. Its preview gate and its
 * parenthesis choice are the ones of `Editing`; its engine is a parameter.
 */
module SelectionScreen {
  import opened Wrappers
  import opened Chars
  import opened Editing
  import Parser

  /** `TextFieldValue`: the text and the two ends of the selection, in either order. */
  datatype Field = Field(text: string, start: int, end: int)

  /** A keypad press: the new field and the toast it showed, if any. */
  datatype Outcome = Outcome(field: Field, toast: Option<string>)

  const TooLongToast: string := "숫자는 최대 15자리까지 입력 가능합니다."

  /** Both ends of the selection lie inside the text. */
  predicate Valid(f: Field) {
    0 <= f.start <= |f.text| && 0 <= f.end <= |f.text|
  }

  /** `selection.min`. */
  function Min(f: Field): (m: nat)
    requires Valid(f)
    ensures m <= |f.text| && (m == f.start || m == f.end)
    ensures m <= f.start && m <= f.end
  {
    if f.start <= f.end then f.start else f.end
  }

  /** `selection.max`. */
  function Max(f: Field): (m: nat)
    requires Valid(f)
    ensures Min(f) <= m <= |f.text|
    ensures m == f.start || m == f.end
    ensures m >= f.start && m >= f.end
  {
    if f.start <= f.end then f.end else f.start
  }

  /** `selection.collapsed`. */
  predicate Collapsed(f: Field) {
    f.start == f.end
  }

  /** `TextFieldValue(text, TextRange(c))`: a caret at `c`. */
  function Caret(text: string, c: nat): Field {
    Field(text, c, c)
  }

  /** One of the four operator keys' texts. */
  predicate IsOperatorText(t: string) {
    |t| == 1 && IsOperatorGlyph(t[0])
  }

  /** `StringBuilder.replace(i, j, t)`: `[i, j)` replaced by `t`. */
  function Replace(e: string, i: nat, j: nat, t: string): (r: string)
    requires i <= j <= |e|
    ensures |r| == |e| - (j - i) + |t|
    ensures RemoveRange(r, i, i + |t|) == RemoveRange(e, i, j)
  {
    RemoveSplice(RemoveRange(e, i, j), i, t);
    Splice(RemoveRange(e, i, j), i, t)
  }

  /** `canInsertNumber` of this screen: the block (split also at line breaks) is under 15. */
  predicate CanInsertNumber(e: string, c: nat)
    requires c <= |e|
  {
    |NumberBlock(e, c, IsScreenSeparator)| < MaxNumberLength
  }

  /**
   * `insert`, as written: number text is refused when the block at `selection.min` is full; on
   * empty text an operator is ignored, `.` becomes `0.` and anything else is written; a lone
   * `0` is replaced by anything but an operator or `.`; an operator is ignored at the start and
   * replaces an operator right before the selection; otherwise the text replaces the selection.
   */
  function InsertAsWritten(f: Field, t: string): (r: Outcome)
    requires Valid(f)
    ensures Valid(r.field)
    ensures r.toast.Some? <==> AllNumChars(t) && !CanInsertNumber(f.text, Min(f))
    ensures r.toast.Some? ==> r.field == f
  {
    if AllNumChars(t) && !CanInsertNumber(f.text, Min(f)) then Outcome(f, Some(TooLongToast))
    else Edit(f, t)
  }

  /**
   * `insert` with the limit applied to the text the number will actually join: the block at
   * `selection.min` once the selection has been removed.
   */
  function Insert(f: Field, t: string): (r: Outcome)
    requires Valid(f)
    ensures Valid(r.field)
    ensures r.toast.Some? <==> AllNumChars(t) && !CanInsertNumber(RemoveRange(f.text, Min(f), Max(f)), Min(f))
    ensures r.toast.Some? ==> r.field == f
    ensures Collapsed(f) ==> r == InsertAsWritten(f, t)
  {
    assert Collapsed(f) ==> RemoveRange(f.text, Min(f), Max(f)) == f.text;
    if AllNumChars(t) && !CanInsertNumber(RemoveRange(f.text, Min(f), Max(f)), Min(f)) then
      Outcome(f, Some(TooLongToast))
    else Edit(f, t)
  }

  /** The part of `insert` after the limit check. */
  function Edit(f: Field, t: string): (r: Outcome)
    requires Valid(f)
    ensures Valid(r.field) && r.toast == None
    ensures r.field != f ==> Collapsed(r.field)
  {
    var e, lo, hi := f.text, Min(f), Max(f);
    if e == [] then
      if IsOperatorText(t) then Outcome(f, None)
      else if t == "." then Outcome(Caret("0.", 2), None)
      else Outcome(Caret(t, |t|), None)
    else if e == "0" && !IsOperatorText(t) && t != "." then Outcome(Caret(t, |t|), None)
    else if IsOperatorText(t) && lo == 0 then Outcome(f, None)
    else if IsOperatorText(t) && IsOperatorGlyph(e[lo - 1]) then Outcome(Caret(Replace(e, lo - 1, lo, t), lo), None)
    else Outcome(Caret(Replace(e, lo, hi, t), lo + |t|), None)
  }

  /**
   * `delete`: nothing on empty text or at the start with a caret; a dragged range is removed,
   * caret at its start; otherwise the character before the caret is removed.
   */
  function Delete(f: Field): (r: Field)
    requires Valid(f)
    ensures Valid(r) && (r != f ==> Collapsed(r))
    ensures f.text == [] || (Min(f) == 0 && Collapsed(f)) ==> r == f
    ensures f.text != [] && !Collapsed(f) ==>
              r.start == Min(f) && Splice(r.text, Min(f), f.text[Min(f)..Max(f)]) == f.text
    ensures f.text != [] && Collapsed(f) && Min(f) > 0 ==>
              r.start == Min(f) - 1 && Splice(r.text, Min(f) - 1, [f.text[Min(f) - 1]]) == f.text
  {
    var e, lo, hi := f.text, Min(f), Max(f);
    if e == [] then f
    else if lo == 0 && Collapsed(f) then f
    else if !Collapsed(f) then
      SpliceRemove(e, lo, hi);
      var rest := RemoveRange(e, lo, hi);
      if rest == [] then Caret("", 0) else Caret(rest, lo)
    else
      SpliceRemove(e, lo - 1, lo);
      assert e[lo - 1..lo] == [e[lo - 1]];
      var rest := RemoveRange(e, lo - 1, lo);
      if rest == [] then Caret("", 0) else Caret(rest, lo - 1)
  }

  /**
   * The `( )` key: `ParenthesisToInsert` at `selection.min`, through the as-written `insert`. A
   * parenthesis is not number text, so no toast is shown and the limit check, as written or
   * corrected, never decides anything.
   */
  function Parenthesis(f: Field): (r: Outcome)
    requires Valid(f)
    ensures Valid(r.field) && r.toast == None
    ensures r == Insert(f, ParenthesisToInsert(f.text, Min(f)))
  {
    var t := ParenthesisToInsert(f.text, Min(f));
    assert !AllNumChars(t) by {
      assert !IsNumChar(t[0]);
    }
    InsertAsWritten(f, t)
  }

  /** The `=` key: the engine's answer, whatever it is, with the caret at its end. */
  function Equals(f: Field, engine: string -> string): (r: Field)
    ensures Valid(r) && Collapsed(r)
    ensures r.text == engine(f.text) && r.start == |r.text|
  {
    var result := engine(f.text);
    Caret(result, |result|)
  }

  /** `AC`: an empty field. */
  const Cleared: Field := Caret("", 0)

  /** A caret at `c` splitting `e`: removing the empty selection changes nothing. */
  lemma {:induction false} EmptyRangeRemoved(e: string, c: nat)
    requires c <= |e|
    ensures RemoveRange(e, c, c) == e
  {
    assert e[..c] + e[c..] == e;
  }

  /**
   * With a caret, typing a character that is neither an operator nor a point and that joins a
   * non-full block, then deleting, restores the field.
   */
  lemma {:induction false} DeleteUndoesInsert(e: string, c: nat, x: char)
    requires c <= |e| && e != [] && e != "0"
    requires !IsOperatorGlyph(x) && x != '.'
    requires IsDigit(x) ==> CanInsertNumber(e, c)
    ensures var typed := Insert(Caret(e, c), [x]);
            typed.toast == None && Delete(typed.field) == Caret(e, c)
  {
    var f := Caret(e, c);
    EmptyRangeRemoved(e, c);
    assert !IsOperatorText([x]);
    assert AllNumChars([x]) ==> IsDigit(x) by {
      assert [x][1..] == [];
    }
    var typed := Insert(f, [x]);
    assert typed.field == Caret(Splice(e, c, [x]), c + 1);
    RemoveSplice(e, c, [x]);
  }

  /** With a caret, an accepted digit leaves a number block of at most 15 characters. */
  lemma {:induction false} CaretDigitRespectsLimit(e: string, c: nat, d: char)
    requires c <= |e| && IsDigit(d)
    ensures var r := Insert(Caret(e, c), [d]);
            r.toast == None ==> |NumberBlock(r.field.text, r.field.start, IsScreenSeparator)| <= MaxNumberLength
  {
    SelectionDigitRespectsLimit(Caret(e, c), d);
  }

  /** What an accepted digit writes: itself over empty text or a lone `0`, else over the selection. */
  lemma {:induction false} DigitWrites(f: Field, d: char)
    requires Valid(f) && IsDigit(d)
    ensures AllNumChars([d]) && !IsOperatorText([d])
    ensures Edit(f, [d]).field ==
              if f.text == [] || f.text == "0" then Caret([d], 1)
              else Caret(Splice(RemoveRange(f.text, Min(f), Max(f)), Min(f), [d]), Min(f) + 1)
  {
    assert [d][1..] == [];
  }

  /**
   * What an operator key writes: nothing on empty text or with `selection.min` at 0; an operator
   * just before `selection.min` is replaced and the caret stays; otherwise the operator replaces
   * the selection and the caret follows it. Operators are not number text, so no toast is shown.
   */
  lemma {:induction false} OperatorWrites(f: Field, t: string)
    requires Valid(f) && IsOperatorText(t)
    ensures Insert(f, t).toast == None
    ensures Insert(f, t).field ==
              if f.text == [] || Min(f) == 0 then f
              else if IsOperatorGlyph(f.text[Min(f) - 1]) then Caret(Replace(f.text, Min(f) - 1, Min(f), t), Min(f))
              else Caret(Replace(f.text, Min(f), Max(f), t), Min(f) + 1)
  {
    assert !AllNumChars(t) by {
      assert !IsNumChar(t[0]);
    }
  }

  /**
   * What the point key writes: `0.` with the caret at 2 on empty text; otherwise the point
   * replaces the selection (a lone `0` included) and the caret follows it.
   */
  lemma {:induction false} PointWrites(f: Field)
    requires Valid(f)
    ensures Edit(f, ".").field ==
              if f.text == [] then Caret("0.", 2) else Caret(Replace(f.text, Min(f), Max(f), "."), Min(f) + 1)
  {
    assert !IsOperatorText(".") by {
      assert !IsOperatorGlyph('.');
    }
  }

  /** On empty text the point key writes `0.`: there is no block to exceed the limit. */
  lemma {:induction false} PointOnEmpty(f: Field)
    requires Valid(f) && f.text == []
    ensures Insert(f, ".") == Outcome(Caret("0.", 2), None)
  {
    PointWrites(f);
    assert CanInsertNumber(RemoveRange(f.text, Min(f), Max(f)), Min(f)) by {
      assert RemoveRange(f.text, Min(f), Max(f)) == [];
    }
  }

  /** A digit joining a block under the limit leaves a block within the limit. */
  lemma {:induction false} DigitJoinsBlock(e: string, c: nat, d: char)
    requires c <= |e| && IsDigit(d) && CanInsertNumber(e, c)
    ensures |NumberBlock(Splice(e, c, [d]), c + 1, IsScreenSeparator)| <= MaxNumberLength
  {
    SpliceBlockLength(e, c, [d], IsScreenSeparator);
  }

  /**
   * For any selection, an accepted digit leaves a number block of at most 15 characters around
   * the caret: the limit is checked on the text the digit joins.
   */
  lemma {:induction false} SelectionDigitRespectsLimit(f: Field, d: char)
    requires Valid(f) && IsDigit(d)
    ensures var r := Insert(f, [d]);
            r.toast == None ==> |NumberBlock(r.field.text, r.field.start, IsScreenSeparator)| <= MaxNumberLength
  {
    var rest := RemoveRange(f.text, Min(f), Max(f));
    DigitWrites(f, d);
    if f.text == [] || f.text == "0" {
      DigitsFormOneBlock([d], 1);
    } else if CanInsertNumber(rest, Min(f)) {
      DigitJoinsBlock(rest, Min(f), d);
    }
  }

  /** Text made of digits only is one number block, wherever the caret is. */
  lemma {:induction false} DigitsFormOneBlock(s: string, c: nat)
    requires c <= |s| && forall k :: 0 <= k < |s| ==> IsDigit(s[k])
    ensures NumberBlock(s, c, IsScreenSeparator) == s
  {
    BlockIsMaximalSpan(s, c, IsScreenSeparator, 0, |s|);
  }

  /** Two digit runs joined by a digit are a digit run. */
  lemma {:induction false} JoinedDigits(a: string, x: char, b: string)
    requires IsDigit(x)
    requires forall k :: 0 <= k < |a| ==> IsDigit(a[k])
    requires forall k :: 0 <= k < |b| ==> IsDigit(b[k])
    ensures forall k :: 0 <= k < |a + [x] + b| ==> IsDigit((a + [x] + b)[k])
  {
  }

  /**
   * As written, the limit is measured at `selection.min` before the selection is removed, so a
   * selection that spans an operator lets a digit join two numbers past the limit: with `a` and
   * `b` digit runs, selecting the `+` of `a+b` and typing `0` gives a number of `|a| + |b| + 1`
   * digits, e.g. 17 for `12345678+12345678`.
   */
  lemma {:induction false} SelectionBypassesLimit(a: string, b: string)
    requires |a| < MaxNumberLength <= |a| + |b|
    requires forall k :: 0 <= k < |a| ==> IsDigit(a[k])
    requires forall k :: 0 <= k < |b| ==> IsDigit(b[k])
    ensures var r := InsertAsWritten(Field(a + "+" + b, |a|, |a| + 1), "0");
            && r.toast == None
            && |NumberBlock(r.field.text, r.field.start, IsScreenSeparator)| == |a| + |b| + 1 > MaxNumberLength
  {
    var e := a + "+" + b;
    var f := Field(e, |a|, |a| + 1);
    assert e[|a|] == '+';
    BlockIsMaximalSpan(e, |a|, IsScreenSeparator, 0, |a|);
    var t := a + "0" + b;
    assert RemoveRange(e, |a|, |a| + 1) == a + b by {
      assert e[..|a|] == a && e[|a| + 1..] == b;
    }
    assert Replace(e, |a|, |a| + 1, "0") == t by {
      assert (a + b)[..|a|] == a && (a + b)[|a|..] == b;
    }
    DigitWrites(f, '0');
    assert InsertAsWritten(f, "0").field == Caret(t, |a| + 1);
    JoinedDigits(a, '0', b);
    DigitsFormOneBlock(t, |a| + 1);
  }

  /** The corrected check refuses the same keystroke. */
  lemma {:induction false} SelectionLimitEnforced(a: string, b: string)
    requires |a| < MaxNumberLength <= |a| + |b|
    requires forall k :: 0 <= k < |a| ==> IsDigit(a[k])
    requires forall k :: 0 <= k < |b| ==> IsDigit(b[k])
    ensures Insert(Field(a + "+" + b, |a|, |a| + 1), "0").toast == Some(TooLongToast)
  {
    var e := a + "+" + b;
    assert RemoveRange(e, |a|, |a| + 1) == a + b by {
      assert e[..|a|] == a && e[|a| + 1..] == b;
    }
    assert forall k :: 0 <= k < |a + b| ==> IsDigit((a + b)[k]);
    DigitsFormOneBlock(a + b, |a|);
    DigitWrites(Field(e, |a|, |a| + 1), '0');
  }

  /** With a caret, the `( )` key never closes more parentheses than are open. */
  lemma {:induction false} ParenthesisKeepsBalance(e: string, c: nat)
    requires c <= |e| && ClosesCovered(e)
    ensures ClosesCovered(Parenthesis(Caret(e, c)).field.text)
  {
    var t := ParenthesisToInsert(e, c);
    assert !AllNumChars(t) by {
      assert !IsNumChar(t[0]);
    }
    assert !IsOperatorText(t);
    EmptyRangeRemoved(e, c);
    ParenthesisKeepsCover(e, c);
    if e == [] {
      assert Splice(e, c, t) == t;
    }
  }
}

=== FILE: wrappers.dfy ===
/** Failure-compatible wrappers used by the parser and the editors. */
module Wrappers {

  datatype Option<+T> = None | Some(value: T) {
    function GetOr(default: T): T {
      match this
      case Some(v) => v
      case None => default
    }
  }

  /** The parser's fallible result; an exception in the source becomes `Failure`. */
  datatype Result<+R> = Success(value: R) | Failure(message: string) {
    predicate IsFailure() {
      Failure?
    }

    function PropagateFailure<U>(): Result<U>
      requires Failure?
    {
      Failure(message)
    }

    function Extract(): R
      requires Success?
    {
      value
    }
  }
}
